=== FILE: README.md ===
# Badam Satti game rooms in Dafny

This project models the server-side core of a web version of the card game
Badam Satti (Sevens). The core is the `Game` model in `src/app/models.py` and
the views in `app/views.py`. A room is created by a host, and players join it
by room code. The host starts the game, which deals a shuffled 52-card deck
round-robin. Players then play cards next to the sevens on the desk, or pass.
A player who stops pinging is marked disconnected. After two minutes that
player is dropped and the others are renumbered. The first player to empty
their hand wins, and every hand is scored by the rank values left in it.

The model is purely functional. A room is a `Room` value. Each view is a
function from a room, the session values it reads, and the current time to a
`Reply`, which holds the new room and either an error or the view's answer.

| module | file | what it holds |
|---|---|---|
| `Wrappers` | `wrappers.dfy` | `Option` and `Result` |
| `Cards` | `cards.dfy` | cards 1..52, their names, rank names and values, the score table |
| `Sorting` | `sorting.dfy` | Python's stable `list.sort(key=...)` as insertion sort |
| `Deck` | `deck.dfy` | the ordered deck, shuffled decks, round-robin dealing |
| `Rooms` | `rooms.dfy` | seats, pings, the room record, seat lookup, Python `%` and the next turn |
| `Moves` | `moves.dfy` | `_get_valid_moves`, written over card names as the source does, and a numeric reference rule |
| `Turns` | `turns.dfy` | playing a card, passing, final scores, conservation of cards |
| `Supervisor` | `supervisor.dfy` | disconnects, the reconnect timeout with renumbering, pings, the inactivity scan |
| `Lobby` | `lobby.dfy` | `create_room`, `join_room`, `check_room_status` over a store of rooms keyed by code |
| `Actions` | `actions.dfy` | the in-game views: state, play, pass, start, remove, reconnect, ping |
| `Invariants` | `invariants.dfy` | every view keeps seats numbered 1..n and never duplicates a card; facts about the deal |
| `Snapshots` | `snapshots.dfy` | what a state poll reports: consistency, termination, the stale-session effect, hidden hands |

Conventions:

- **Cards.** A card is its number in `CARDS_MAP`. `SuitOf` and `Rank` are computed arithmetically, and the names agree with the table.
- **Time.** Time is whole seconds, passed in as `now`.
- **Pings.** A ping is `NoPing`, `Unparsable` (an ISO timestamp that does not parse) or `At(t)`.
- **Sessions.** The session's `player_num` and `player_name` are `Option` parameters. Python truthiness, where 0 and `None` are false, is written out as `Truthy`.
- **Failures.** A Python exception inside a view becomes the error `Internal`. In `play_card` and `pass_turn` the exception comes before any save, so the room is left unchanged: this covers `ZeroDivisionError` when `num_players` is 0, and a current player whose seat no longer exists. In `get_game_state` the timeout and inactivity checks have already saved the room when the valid-move lookup iterates the `None` hand of a seat that no longer exists, so the reply carries the supervised room.
- **Non-termination.** `start_game` with `num_players` below 1 never finishes its deal loop. The model reports that case as the error `Diverges`, with the room unchanged.

Behaviour worth noting, which the model keeps as the code has it:

- **Empty desk.** Only card 7, the seven of hearts, may be played; other sevens may not.
- **Sevens.** On a non-empty desk a seven is always a valid move.
- **Scores.** J, Q and K score 11, 12 and 13, because `rank_to_value` covers all thirteen ranks.
- **Winning move.** The turn still advances after the move that wins the game.
- **Timeout with fewer than two players left.** Ending the game this way computes no scores.

## Model

| member | source | states |
|---|---|---|
| Cards.CardAt | src/app/models.py:15-20 | the card with a given rank and suit has exactly that rank and suit |
| Cards.RankValue | src/app/models.py:45-48 | a rank name has a value iff it is one of the 13 ranks, and the value is its 1-based position |
| Cards.RankName | src/app/models.py:51-54 | a value has a rank name iff it is in 1..13, and the name is one of the ranks |
| Cards.RankRoundTrip | src/app/models.py:45-54 | rank name → value → name and value → name → value are both the identity |
| Cards.CardNameParts | src/app/models.py:91-92 | a card name has two characters; `[:-1]` is the card's rank name and `[-1]` its suit |
| Cards.CardNameInjective | src/app/models.py:15-20 | no two cards share a name |
| Cards.CardScoreIsRank | src/app/models.py:58-65 | each held card scores exactly its rank value (A=1 … K=13) |
| Deck.OrderedDeck | app/views.py:22-23 | the unshuffled deck lists cards 1..52 in order |
| Deck.ShuffledDeckHoldsEveryCardOnce | app/views.py:22-25 | a shuffled deck has 52 cards, each card exactly once |
| Deck.EveryPositions | app/views.py:30-35 | the reference hand of seat s holds exactly the cards at positions s, s+n, s+2n, … of the deck |
| Deck.DealRoundRobin | app/views.py:27-36 | the source's pop-and-append loop produces the reference deal, holds the deck's cards, and gives hand sizes within one of each other |
| Deck.DealCoversDeck | app/views.py:27-36 | the hands together hold exactly the deck's cards, no more and no fewer |
| Deck.DealBalanced | app/views.py:30-35 | any two dealt hands differ in size by at most one |
| Deck.SingleOwner | app/views.py:27-36 | a card that occurs once among all hands is held by exactly one hand |
| Sorting.SortBy | src/app/models.py:74 | the sorted list is ascending by key and is a permutation of the input |
| Sorting.SortByStable | src/app/models.py:74 | for every key value, the elements with that key keep their relative order |
| Sorting.SortBySortedIsIdentity | src/app/models.py:202 | sorting a list that is already in order returns it unchanged |
| Rooms.FindSeat | src/app/models.py:151-156 | the lookup returns the first seat with the number, or reports that none has it |
| Rooms.FindSeatNumbered | src/app/models.py:151-156 | with seats numbered 1..n, seat p is found at index p-1 exactly when 1 <= p <= n |
| Rooms.FloorMod | src/app/models.py:146 | Python's `%`: the result has the divisor's sign and lies strictly inside it, and `a == (a // b) * b + a % b` with Python's floor division, which pins the value for every `a` and every non-zero `b`; an input already in range is returned unchanged |
| Rooms.NextTurn | src/app/models.py:146 | advancing fails iff there are 0 players; for any current number, one less than the result is the current number modulo the player count (Python's floor `%`), so it lands in 1..n for n >= 1 and in n+2..1 for a negative count; in range it moves to the next seat, wrapping from n to 1 |
| Moves.SevensIn | src/app/models.py:82-86 | the opening moves are exactly the held copies of card 7 |
| Moves.PlaceableIn | src/app/models.py:90-112 | a held card is listed iff the name-based rule allows it |
| Moves.ValidMoves | src/app/models.py:78-114 | every valid move is a held card; the exact set is stated by the two lemmas that follow |
| Moves.NameInLane | src/app/models.py:88 | a card's name is among a lane's names iff the card is in the lane |
| Moves.PlaceableByName | src/app/models.py:90-112 | a card whose rank part is 7 is always placeable; any other needs its suit's seven among the desk's names; PlaceableByNeighbours and PlaceableIffLegal give the full rule |
| Moves.PlaceableByNeighbours | src/app/models.py:98-112 | a non-seven fits iff its suit's seven and a same-suit neighbour one rank away are on the desk, with no wrap past A or K |
| Moves.PlaceableIffLegal | src/app/models.py:90-112 | the string-based check equals the numeric rule `Legal` for every card |
| Moves.EmptyDeskOnlySevenOfHearts | src/app/models.py:80-86 | on an empty desk the valid moves are exactly the held card 7 |
| Moves.ValidMovesOnDesk | src/app/models.py:88-114 | on a non-empty desk a card is valid iff it is held and `Legal`, and every held seven is valid |
| Turns.Without | src/app/models.py:125 | the card is gone from the hand and every other card keeps its count |
| Turns.HandScoreIsRankSum | src/app/models.py:61-65 | a hand scores the sum of its ranks, between one and thirteen per card |
| Turns.ScoreEntries | src/app/models.py:61-72 | one score entry per seat; their contents are stated by `Turns.FinalScoresMeaning` |
| Turns.FinalScores | src/app/models.py:56-75 | the final list has one entry per seat, is ascending by score and is a permutation of the per-seat entries; FinalScoresMeaning adds the entry contents and the order of ties |
| Turns.FinalScoresMeaning | src/app/models.py:56-75 | the final list has one entry per seat (name, number, rank sum, cards left), is a permutation, is ascending by score, and keeps seat order among ties |
| Turns.ApplyMove | src/app/models.py:116-149 | a move fails with `CardNotHeld` iff the player has no seat or does not hold the card; otherwise only `Internal` can occur |
| Turns.PassTurn | src/app/models.py:176-179 | passing changes only the turn, which becomes `NextTurn` of the current number for any current number, and fails iff there are 0 players |
| Turns.MoveHand | src/app/models.py:121-126 | the card leaves the mover's hand, nothing else in that seat changes, and every other seat is untouched |
| Turns.MoveLane | src/app/models.py:131-136 | the card joins its suit's lane, which stays sorted by card number; the other lanes are unchanged |
| Turns.MoveTurn | src/app/models.py:138-146 | the turn becomes `NextTurn` of the current number for any current number, also on a win; emptying the hand ends the game with the mover as winner and the final scores; otherwise the outcome fields are unchanged |
| Turns.MoveEffect | src/app/models.py:116-149 | the whole effect of a move: hand, lane, turn (`NextTurn` of the current number) and outcome as above, and no other field changes |
| Turns.MoveKeepsCards | src/app/models.py:116-145 | a move keeps the multiset of cards in hands and on the desk, and keeps it duplicate-free |
| Supervisor.HandleDisconnect | src/app/models.py:181-186 | with no truthy disconnect recorded, the player is recorded and the timer starts now; otherwise nothing changes |
| Supervisor.DisconnectKeepsFirst | src/app/models.py:181-186 | a second disconnect never overrides the first one |
| Supervisor.Remaining | src/app/models.py:195 | the seats kept are exactly those whose number is not the disconnected one |
| Supervisor.Renumber | src/app/models.py:207-211 | renumbering gives seats 1..n in list order and changes nothing else |
| Supervisor.LastMatch | src/app/models.py:207-210 | finds the last seat carrying a number, as the renumbering loop's final overwrite does, or reports that none does |
| Supervisor.CheckTermination | src/app/models.py:188-228 | nothing changes before the 120-second window ends; afterwards the disconnect is cleared and either the game ends with no winner (fewer than two left) or the others are renumbered 1..n and the player count shrinks to match |
| Supervisor.RemainingNumbered | src/app/models.py:195-202 | with seats numbered 1..n, removal cuts exactly seat d, and the cut list is already sorted |
| Supervisor.RemapNumbered | src/app/models.py:204-218 | a turn number before the removed seat is kept, one after it moves down by one |
| Supervisor.TerminationIsDropSeat | src/app/models.py:188-228 | a timeout removal from numbered seats is exactly "drop seat d, renumber, fix up the turn" |
| Supervisor.TerminationKeepsTurn | src/app/models.py:213-218 | when someone else held the turn, the same player holds it after renumbering |
| Supervisor.TerminationPassesTurn | src/app/models.py:213-216 | when the removed player held the turn, it goes to the player who moved into their place, or to seat 1 if they sat last |
| Supervisor.TerminationDropsHand | src/app/models.py:188-221 | the cards in play after a timeout removal, plus the removed hand, are exactly the cards before |
| Supervisor.UpdatePingTime | src/app/models.py:230-237 | the first seat with the number gets ping `now`; every other seat and field is unchanged |
| Supervisor.PingKeepsSeats | src/app/models.py:230-237 | a ping changes no hand, no card and no seat number |
| Supervisor.FirstStale | src/app/models.py:244-253 | finds the first seat whose readable ping is older than the timeout, or reports that there is none |
| Supervisor.ScanPings | src/app/models.py:243-255 | the scan changes only seats' pings and the disconnect record, keeps the seat count, never replaces a recorded disconnect, and any new disconnect is a scanned seat's number with the timer at now; InactivityReportsFirstStale and InactivityRefreshes say which seat and which pings |
| Supervisor.CheckInactivity | src/app/models.py:239-241 | a finished, unstarted or already paused game is left alone |
| Supervisor.InactivityReportsFirstStale | src/app/models.py:239-253 | the scan marks the first stale seat disconnected and starts its timer now; with no stale seat, no disconnect is recorded |
| Supervisor.InactivityRefreshes | src/app/models.py:244-255 | the scan sets to now exactly the unparsable pings that come before the first stale seat |
| Lobby.Strip | app/views.py:86-87 | `str.strip()` leaves no white space at either end |
| Lobby.StripIdempotent | app/views.py:86-87 | stripping twice is stripping once |
| Lobby.LowerUpper | app/views.py:102 | lower-casing is idempotent and forgets any earlier upper-casing |
| Lobby.UpperStrip | app/views.py:86 | upper-casing and stripping commute |
| Lobby.TypedCodeFindsRoom | app/views.py:86 | a code typed in either case with surrounding white space normalises to the room's code |
| Lobby.CreateRoom | app/views.py:45-78 | creation fails iff the name or capacity is missing; otherwise exactly one room is added under the new code, with the host in seat 1 and the session bound to it |
| Lobby.FindByName | app/views.py:102 | finds the first seat whose name equals the given one ignoring case, or reports that none does |
| Lobby.Join | app/views.py:89-147 | a join changes only the joined room, keeps every existing seat as it was and in order, and returns a session for that room's code and game id whose number and name are a seat of the room; JoinRefusals and JoinEffect give the refusals and the exact effect |
| Lobby.JoinRoom | app/views.py:86-90 | a code or name that is empty after stripping is refused as missing input; a successful join's session carries a non-empty, stripped, upper-case code |
| Lobby.TypedCodeJoins | app/views.py:84-93 | joining with a typed code behaves as joining the normalised code with the stripped name |
| Lobby.JoinRefusals | app/views.py:89-128 | each refusal (missing input, unknown room, lapsed invitation, started, full) happens exactly under its condition, in the source's order, and every other case succeeds |
| Lobby.JoinTouchesOneRoom | app/views.py:84-147 | joining changes no room but the joined one |
| Lobby.JoinEffect | app/views.py:100-143 | a known name rejoins its seat and clears only its own disconnect; a new name takes seat n+1 and nothing else changes |
| Lobby.JoinKeepsNumbering | app/views.py:127-136 | joining keeps every room's seats numbered 1..n, and a room within capacity stays within it |
| Lobby.JoinSeatsName | app/views.py:102-143 | after joining, the name is seated under the session's number |
| Lobby.RejoinSameSeat | app/views.py:102-121 | a second join under the same name in any case lands in the same seat and adds nobody |
| Lobby.CheckRoomStatus | app/views.py:184-222 | an unknown code reports not-found; a lapsed invitation deletes the room; an unseated caller is told they were removed; "started" is reported exactly for a seated caller of a started room, with that room's game id, and "waiting" exactly for a seated caller of an unstarted room whose invitation has not lapsed, with the member list and a time left of exactly 300 seconds less the room's age, which is never negative there |
| Lobby.StatusCountdown | app/views.py:213-221 | the waiting room's time left is the five-minute window minus the room's age, within 0..300, listing every member |
| Lobby.JoinLapsesWithStatus | app/views.py:188-196 | joining refuses a lapsed invitation exactly when the status check would delete the room |
| Lobby.CreateKeepsStoreKeyed | app/views.py:64-71 | creation keeps every room filed under its own code |
| Lobby.JoinKeepsStoreKeyed | app/views.py:137-138 | joining keeps every room filed under its own code |
| Lobby.StatusKeepsStoreKeyed | app/views.py:188-191 | the status check keeps every room filed under its own code |
| Actions.PlayersInfo | app/views.py:274-280 | one summary per seat, holding the number, the name and the hand size |
| Actions.ReconnectTimeLeft | app/views.py:315-320 | the countdown is never negative, is 0 without a running disconnect timer, never exceeds 120 seconds, and equals 120 minus the time since the disconnect exactly when that is positive |
| Actions.Supervise | app/views.py:267-270 | the checks keep the room's code, game id, desk, start flag and creation time; without a timeout only pings and the disconnect record change; while a disconnect is pending and not yet due, nothing changes |
| Actions.GetGameState | app/views.py:252-322 | an unseated player is refused with no change; otherwise the room is supervised and the reply shows the hand read before supervision, the valid moves, desk and turn after it, and scores (the room's) exactly when the game is over; the code, player count, winner, started and terminated flags are the supervised room's, and the countdown is `ReconnectTimeLeft` of the supervised room |
| Actions.PlayCard | app/views.py:329-359 | a paused or terminated room refuses; each later refusal (not your turn, no card, invalid move, internal error) holds exactly in its case; the play succeeds iff it is the caller's turn, the card is one of their valid moves and the player count is not 0, and then the room is the applied move and the reply is its game-over flag |
| Actions.PassTurnView | app/views.py:366-383 | "not your turn" holds exactly when the room is open and the session is not the current player, and the internal error exactly when the player count is 0; a pass succeeds iff the room is not paused, it is the caller's turn and the player count is not 0; the turn then becomes `NextTurn` of the current number, that is the next seat, wrapping to 1 |
| Actions.DealtSeats | app/views.py:411-415 | seat k receives dealt hand k, a fresh ping, and keeps its number and name |
| Actions.LastHolder | app/views.py:411-417 | finds the last seat holding a card, or reports that none does |
| Actions.StartGame | app/views.py:390-429 | refusals in the code's order: not the host, then fewer seats than players, then already started; a start keeps every seat's number and name, pings every seat at `now`, empties the desk, and gives the turn to the last seat holding card 7, or to seat 1 when none does |
| Actions.RemovePlayer | app/views.py:434-468 | each refusal in the code's order holds exactly in its case: not the host, no target, the host as target, no seat with the target number; a removal happens iff a seat other than the host's has that number, and then shortens the seat list and renumbers it 1..n, changing nothing else |
| Actions.ReconnectPlayer | app/views.py:471-487 | a valid session reconnects iff it is the disconnected player; the returned room then has no disconnect and no timeout pending |
| Actions.PlayerPing | app/views.py:495-518 | an expired session and an unseated player ("no longer in this game") are each refused exactly in their case, with no change; otherwise only the caller's seat ping and the disconnect record change: the caller's own pending disconnect and its timer are cleared, any other is kept, and the new ping is not stale at `now` for any timeout |
| Invariants.TerminationKeepsWellformed | src/app/models.py:188-228 | a timeout check keeps seats numbered 1..n and no card duplicated, and only loses cards |
| Invariants.InactivityKeepsWellformed | src/app/models.py:239-255 | the inactivity scan keeps the room well formed and every card in place |
| Invariants.StateKeepsWellformed | app/views.py:252-322 | a state poll keeps the room well formed and never creates a card |
| Invariants.PlayKeepsWellformed | app/views.py:329-359 | playing a card keeps the room well formed and conserves the cards |
| Invariants.PassKeepsWellformed | app/views.py:366-383 | passing keeps the room well formed and conserves the cards |
| Supervisor.RemainingKeepsAll | app/views.py:456-458 | filtering out a number keeps every seat exactly when no seat carries that number |
| Invariants.RemainingShrinks | app/views.py:456-459 | removal shortens the list iff the target number is a seat |
| Invariants.RemoveAllowed | app/views.py:440-459 | on numbered seats, removal succeeds iff the host asks and the target is one of seats 2..n |
| Invariants.RemoveEffect | app/views.py:455-466 | a removal drops exactly the target seat, renumbers the rest, and the target's hand leaves play |
| Invariants.RemoveKeepsWellformed | app/views.py:434-468 | removing a player keeps the room well formed and never creates a card |
| Invariants.ReconnectKeepsWellformed | app/views.py:471-487 | reconnecting keeps the room well formed and conserves the cards |
| Invariants.PingKeepsWellformed | app/views.py:495-518 | a ping keeps the room well formed and conserves the cards |
| Invariants.StartDealsWholeDeck | app/views.py:405-426 | starting deals every card of the shuffled deck exactly once, round-robin, onto an empty desk |
| Invariants.StartSeats | app/views.py:405-426 | on numbered seats, a start hands seat k the k-th hand of the round-robin deal, keeps the seats numbered and empties the desk |
| Invariants.StartTurn | app/views.py:416-424 | after a start, when no seat holds card 7 the turn is seat 1; otherwise the turn is a seat holding card 7 with no later seat holding it |
| Invariants.StartHandSizes | app/views.py:405-415 | after the start any two hands differ in size by at most one |
| Invariants.OnlySevenOpens | src/app/models.py:82-86 | a hand holding card 7 once has exactly one opening move, card 7 |
| Invariants.StartFirstHoldsSeven | app/views.py:408-424 | the first turn goes to the one seat holding the seven of hearts, whose only valid move is that card |
| Invariants.SevenHeldOnce | app/views.py:405-426 | after the start the seven of hearts is in exactly one hand and the desk is empty |
| Snapshots.SuperviseChangesPingsOnly | app/views.py:267-270 | without a timeout, the checks inside a poll change only pings and the disconnect record |
| Snapshots.StateConsistent | app/views.py:256-300 | without a timeout, a poll by a seated player succeeds; its hand, valid moves, desk and turn all describe one room |
| Snapshots.StateReportsTermination | app/views.py:267-320 | a timeout leaving fewer than two players is reported as game over, terminated, with no winner and no countdown |
| Snapshots.InactivityAfterTermination | app/views.py:267-270 | the inactivity check after the timeout check changes only pings and the disconnect record |
| Snapshots.TerminationShiftsHands | src/app/models.py:195-221 | after a timeout removal of seat d, seat k (k >= d) holds the hand of the old seat k+1 |
| Snapshots.SuperviseRemoves | app/views.py:267-270 | a poll at a timeout removes the seat, shifts the later hands down and keeps the desk |
| Snapshots.StaleSessionSeesNextHand | app/views.py:256-272 | a player seated after the removed one, polling under the old session number, gets their own hand with the next player's valid moves, and the next player's hand on the following poll |
| Snapshots.StaleSessionLosesSeat | app/views.py:256-272 | the player in the last seat, polling when the timeout fires, gets an internal error, and the room is still supervised |
| Snapshots.HiddenPlayersInfo | app/views.py:274-280 | the player summaries depend only on hand sizes, not on hand contents |
| Snapshots.SuperviseHidesHands | app/views.py:267-270 | the checks inside a poll preserve "differs only in other players' hand contents" |
| Snapshots.StateHidesOtherHands | app/views.py:274-307 | two rooms that differ only in the contents of other players' hands give a player the same state reply |

## Left out

- `src/app/consumers.py`, `src/app/urls.py` and `src/app/admin.py` are not part of this model. They cover the websocket consumer, the routing and the admin registration.
- The Django ORM, `save()`, `refresh_from_db()`, JSON encoding and decoding, HTTP status codes and response messages are left out. Every view is a function that returns the new room value.
- `Game.DoesNotExist` and `get_object_or_404` are left out. Game-id views take the room itself; only the lobby views look rooms up by code.
- Non-integer request values are left out. `int(...)` failures and malformed JSON bodies are not modelled.
- `random.shuffle` and `random.choices` are not modelled. The shuffled deck is a parameter constrained by `IsShuffledDeck`, and the room code is a fresh parameter satisfying `ValidRoomCode`.
- `timezone.now()` is replaced by an integer `now` in whole seconds. Fractional seconds, `int(...)` truncation of a negative time left, and time zones are not modelled.
- Sessions are inputs. The views never rewrite `player_num` after a timeout renumbering, so a stale number is passed in unchanged.
- `str.upper`/`str.lower` are modelled on ASCII letters only, and `str.isspace` on ASCII white space only. Unicode case mapping and non-ASCII white space are left out.
- `wait_room`, `game_view`, `index` and `rules` are left out. They only render templates or redirect.
- The `message` text of `get_game_state` and the winner's name shown in it are left out; `winner` is reported as a seat number.
- The `game_scores` default `'{}'` and the `except` fallback when scores do not parse are not modelled. Scores are a list, which stays empty until a win.
- The `print` debug lines are left out.
- Card lists are stored as `[num, name]` pairs in the source. The model keeps the number and derives the name.
- Actions.StartGame: when `num_players` is below 1 the source's deal loop never ends; the model reports the error `Diverges` instead.
- Actions.GetGameState: `scores` is `Some` exactly when the game is over, but the fallback of a failed `json.loads` is not modelled.
- Snapshots.StateHidesOtherHands: requires that no timeout is due at that poll. A timeout removal shifts hands between seats, so the reply can then depend on other players' cards (see `Snapshots.StaleSessionSeesNextHand`).
- Snapshots.StaleSessionSeesNextHand: the claim about the following poll is limited to polls within 120 seconds. After that, a disconnect started by the first poll's inactivity scan could end in another removal.
- Moves.ValidMoves: its own contract says only that every move is held. The full characterisation is in `Moves.EmptyDeskOnlySevenOfHearts` and `Moves.ValidMovesOnDesk`.
- Moves.PlaceableByName: a rank part that is not a rank name would make the source raise `TypeError` on `None - 1`; the model answers false there. No card name reaches that case, since every rank part comes from `CARDS_MAP`.

=== FILE: actions.dfy ===
/** The in-game views of app/views.py: `get_game_state`, `play_card`,
    `pass_turn`, `start_game`, `remove_player`, `reconnect_player` and
    `player_ping`. A view takes the room as stored and the caller's session
    values, and gives back the room as stored afterwards together with the
    view's answer. */
module Actions {
  import opened Wrappers
  import opened Cards
  import opened Deck
  import opened Sorting
  import opened Rooms
  import opened Moves
  import opened Turns
  import opened Supervisor

  /** A view's effect: the room as it is stored afterwards, and the answer. */
  datatype Reply<T> = Reply(room: Room, result: Result<T, Error>)

  /** The answer of a view that reports only success. */
  datatype Done = Done

  /** One entry of `players` in the game state: other players' hands are
      shown only by their size. */
  datatype PlayerInfo = PlayerInfo(num: int, name: string, handSize: nat)

  /** The JSON answer of `get_game_state`, less its message text. */
  datatype Snapshot = Snapshot(
    code: string,
    numPlayers: int,
    players: seq<PlayerInfo>,
    current: int,
    desk: Desk,
    yourHand: seq<Card>,
    yourNum: int,
    validMoves: seq<int>,
    gameOver: bool,
    winner: Option<int>,
    started: bool,
    disconnected: Option<int>,
    terminated: bool,
    scores: Option<seq<ScoreEntry>>,
    reconnectTimeLeft: int)

  function PlayersInfo(seats: seq<Seat>): (r: seq<PlayerInfo>)
    ensures |r| == |seats|
    ensures forall i :: 0 <= i < |seats| ==> r[i] == PlayerInfo(seats[i].num, seats[i].name, |seats[i].hand|)
  {
    seq(|seats|, i requires 0 <= i < |seats| => PlayerInfo(seats[i].num, seats[i].name, |seats[i].hand|))
  }

  /** `reconnect_time_left`: what is left of the two-minute window of a
      pending disconnect, never negative; zero with no disconnect. */
  function ReconnectTimeLeft(room: Room, now: int): (r: int)
    ensures 0 <= r
    ensures room.disconnected.None? || room.timerStart.None? ==> r == 0
    ensures room.timerStart.Some? && room.timerStart.value <= now ==> r <= RECONNECT_WINDOW
    ensures r > 0 ==> room.disconnected.Some? && r == RECONNECT_WINDOW - (now - room.timerStart.value)
    ensures room.disconnected.Some? && room.timerStart.Some? && now - room.timerStart.value < RECONNECT_WINDOW ==>
              r == RECONNECT_WINDOW - (now - room.timerStart.value)
  {
    if room.disconnected.Some? && room.timerStart.Some? then
      var left := RECONNECT_WINDOW - (now - room.timerStart.value);
      if left > 0 then left else 0
    else 0
  }

  /** The supervision `get_game_state` runs before answering: the
      termination check, then the inactivity check (20 seconds) when no
      disconnect is pending in a running game. */
  function Supervise(room: Room, now: int): (r: Room)
    ensures && r.code == room.code && r.gameId == room.gameId && r.desk == room.desk
            && r.started == room.started && r.createdAt == room.createdAt
    ensures !TerminationDue(room, now) ==>
              r == room.(seats := r.seats, disconnected := r.disconnected, timerStart := r.timerStart)
              && |r.seats| == |room.seats|
    ensures room.disconnected.Some? && !TerminationDue(room, now) ==> r == room
  {
    var r1 := CheckTermination(room, now);
    if r1.disconnected.None? && r1.started && !r1.gameOver then CheckInactivity(r1, now, PING_TIMEOUT) else r1
  }

  /** `get_game_state` for the session's `player_num`. The caller's hand and
      the player list are read before supervision; the valid moves are
      computed afterwards for whichever seat then carries the caller's
      number, and a missing one raises (`Internal`) after supervision has
      been stored. */
  function GetGameState(room: Room, player: Option<int>, now: int): (r: Reply<Snapshot>)
    ensures r.result == Err(PlayerNotFound) <==> player.None? || FindSeat(room.seats, player.value).None?
    ensures r.result == Err(PlayerNotFound) ==> r.room == room
    ensures r.result != Err(PlayerNotFound) ==> r.room == Supervise(room, now)
    ensures r.result.Err? ==> r.result.error == PlayerNotFound || r.result.error == Internal
    ensures r.result == Err(Internal) <==>
              player.Some? && FindSeat(room.seats, player.value).Some? && FindSeat(r.room.seats, player.value).None?
    ensures r.result.Ok? ==>
              var s := r.result.value;
              && player.Some? && s.yourNum == player.value
              && s.yourHand == room.seats[FindSeat(room.seats, player.value).value].hand
              && s.players == PlayersInfo(room.seats)
              && FindSeat(r.room.seats, player.value).Some?
              && s.validMoves == ValidMoves(r.room.seats[FindSeat(r.room.seats, player.value).value].hand, r.room.desk)
              && s.desk == r.room.desk && s.current == r.room.current
              && s.disconnected == r.room.disconnected && s.gameOver == r.room.gameOver
              && (s.scores.Some? <==> r.room.gameOver)
              && (s.scores.Some? ==> s.scores.value == r.room.scores)
              && s.reconnectTimeLeft == ReconnectTimeLeft(r.room, now)
              && s.winner == r.room.winner && s.terminated == r.room.terminated && s.started == r.room.started
              && s.numPlayers == r.room.numPlayers && s.code == r.room.code
  {
    if player.None? then Reply(room, Err(PlayerNotFound))
    else match FindSeat(room.seats, player.value)
      case None => Reply(room, Err(PlayerNotFound))
      case Some(i) =>
        var p := player.value;
        var room' := Supervise(room, now);
        match FindSeat(room'.seats, p)
        case None => Reply(room', Err(Internal))
        case Some(j) =>
          Reply(room', Ok(Snapshot(
            room'.code, room'.numPlayers, PlayersInfo(room.seats), room'.current, room'.desk,
            room.seats[i].hand, p, ValidMoves(room'.seats[j].hand, room'.desk),
            room'.gameOver, room'.winner, room'.started, room'.disconnected, room'.terminated,
            if room'.gameOver then Some(room'.scores) else None,
            ReconnectTimeLeft(room', now))))
  }

  /** The guards of `play_card`: no disconnect pending, no termination,
      the caller's turn, a card given, and that card among the caller's
      valid moves. */
  predicate PlayAllowed(room: Room, player: Option<int>, card: Option<int>)
  {
    && room.disconnected.None? && !room.terminated
    && Truthy(player) && room.current == player.value
    && Truthy(card)
    && FindSeat(room.seats, player.value).Some?
    && card.value in ValidMoves(room.seats[FindSeat(room.seats, player.value).value].hand, room.desk)
  }

  /** `play_card`: refused while a disconnect is pending or after a
      termination, out of turn, without a card, or for a card that is not a
      valid move; otherwise the move is applied. The answer is the game-over
      flag after the move (which is also true when the game was already
      over, since moves never check it). */
  function PlayCard(room: Room, player: Option<int>, card: Option<int>): (r: Reply<bool>)
    ensures r.result.Err? ==> r.room == room
    ensures r.result == Err(Paused) <==> room.disconnected.Some? || room.terminated
    ensures r.result == Err(NotYourTurn) <==>
              room.disconnected.None? && !room.terminated && !(Truthy(player) && room.current == player.value)
    ensures r.result == Err(CardNotSpecified) <==>
              && room.disconnected.None? && !room.terminated && Truthy(player) && room.current == player.value
              && !Truthy(card)
    ensures r.result == Err(InvalidMove) <==>
              && room.disconnected.None? && !room.terminated && Truthy(player) && room.current == player.value
              && Truthy(card) && FindSeat(room.seats, player.value).Some?
              && card.value !in ValidMoves(room.seats[FindSeat(room.seats, player.value).value].hand, room.desk)
    ensures r.result == Err(Internal) <==>
              || (&& room.disconnected.None? && !room.terminated && Truthy(player) && room.current == player.value
                  && Truthy(card) && FindSeat(room.seats, player.value).None?)
              || (PlayAllowed(room, player, card) && room.numPlayers == 0)
    ensures r.result.Ok? <==> PlayAllowed(room, player, card) && room.numPlayers != 0
    ensures r.result.Ok? ==>
              && ApplyMove(room, card.value, player.value).Ok?
              && r.room == ApplyMove(room, card.value, player.value).value
              && r.result.value == r.room.gameOver
  {
    if room.disconnected.Some? || room.terminated then Reply(room, Err(Paused))
    else if !Truthy(player) || room.current != player.value then Reply(room, Err(NotYourTurn))
    else if !Truthy(card) then Reply(room, Err(CardNotSpecified))
    else match FindSeat(room.seats, player.value)
      case None => Reply(room, Err(Internal))
      case Some(i) =>
        if card.value !in ValidMoves(room.seats[i].hand, room.desk) then Reply(room, Err(InvalidMove))
        else match ApplyMove(room, card.value, player.value)
          // the view ignores the "card not held" result and reports success
          case Err(CardNotHeld) => Reply(room, Ok(room.gameOver))
          case Err(e) => Reply(room, Err(e))
          case Ok(room') => Reply(room', Ok(room'.gameOver))
  }

  /** `pass_turn` (the view): refused while paused or out of turn;
      otherwise the turn moves on. */
  function PassTurnView(room: Room, player: Option<int>): (r: Reply<Done>)
    ensures r.result.Err? ==> r.room == room
    ensures r.result == Err(Paused) <==> room.disconnected.Some? || room.terminated
    ensures r.result.Ok? <==>
              && room.disconnected.None? && !room.terminated
              && Truthy(player) && room.current == player.value && room.numPlayers != 0
    ensures r.result == Err(NotYourTurn) <==>
              room.disconnected.None? && !room.terminated && !(Truthy(player) && room.current == player.value)
    ensures r.result == Err(Internal) <==>
              && room.disconnected.None? && !room.terminated
              && Truthy(player) && room.current == player.value && room.numPlayers == 0
    ensures r.result.Ok? ==> r.room == room.(current := r.room.current)
    ensures r.result.Ok? ==> r.room.current == NextTurn(room.current, room.numPlayers).value
    ensures r.result.Ok? && 1 <= room.current < room.numPlayers ==> r.room.current == room.current + 1
    ensures r.result.Ok? && room.current == room.numPlayers ==> r.room.current == 1
  {
    if room.disconnected.Some? || room.terminated then Reply(room, Err(Paused))
    else if !Truthy(player) || room.current != player.value then Reply(room, Err(NotYourTurn))
    else match PassTurn(room)
      case Err(e) => Reply(room, Err(e))
      case Ok(room') => Reply(room', Ok(Done))
  }

  /** The four empty lanes a game starts with. */
  const EMPTY_DESK: Desk := map['H' := [], 'D' := [], 'C' := [], 'S' := []]

  /** The seat loop of `start_game`: the seat numbered p, for p in 1..n,
      takes hand p of the deal; every seat gets a fresh ping. */
  function DealtSeats(seats: seq<Seat>, hands: seq<seq<Card>>, now: int): (r: seq<Seat>)
    ensures |r| == |seats|
    ensures forall i :: 0 <= i < |seats| ==>
              && r[i].num == seats[i].num && r[i].name == seats[i].name && r[i].ping == At(now)
              && (1 <= seats[i].num <= |hands| ==> r[i].hand == hands[seats[i].num - 1])
              && (!(1 <= seats[i].num <= |hands|) ==> r[i].hand == seats[i].hand)
  {
    seq(|seats|, i requires 0 <= i < |seats| =>
      seats[i].(hand := if 1 <= seats[i].num <= |hands| then hands[seats[i].num - 1] else seats[i].hand,
                ping := At(now)))
  }

  /** Index of the last seat whose hand holds card `c`. */
  function LastHolder(seats: seq<Seat>, c: Card): (r: Option<nat>)
    ensures r.Some? ==> r.value < |seats| && c in seats[r.value].hand
    ensures r.Some? ==> forall j :: r.value < j < |seats| ==> c !in seats[j].hand
    ensures r.None? ==> forall j :: 0 <= j < |seats| ==> c !in seats[j].hand
  {
    if |seats| == 0 then None
    else if c in seats[|seats| - 1].hand then Some(|seats| - 1)
    else LastHolder(seats[..|seats| - 1], c)
  }

  /** `start_game` with `deck` standing for `create_shuffled_deck()`: only
      the host, only once everybody has joined, only once. The first turn
      goes to the (last) seat holding the 7 of hearts, else to seat 1. A
      player count below one makes the deal loop spin forever. */
  function StartGame(room: Room, caller: Option<int>, deck: seq<Card>, now: int): (r: Reply<Done>)
    ensures r.result.Err? ==> r.room == room
    ensures r.result == Err(NotHost) <==> caller != Some(1)
    ensures r.result == Err(NotAllJoined) <==> caller == Some(1) && |room.seats| < room.numPlayers
    ensures r.result == Err(AlreadyStarted) <==>
              caller == Some(1) && |room.seats| >= room.numPlayers && room.started
    ensures r.result.Ok? <==> caller == Some(1) && |room.seats| >= room.numPlayers && !room.started && room.numPlayers >= 1
    ensures r.result.Ok? ==>
              && r.room.started && r.room.desk == EMPTY_DESK && |r.room.seats| == |room.seats|
              && r.room == room.(seats := r.room.seats, current := r.room.current, started := true, desk := EMPTY_DESK)
    ensures r.result.Ok? ==> forall i :: 0 <= i < |room.seats| ==>
              && r.room.seats[i].num == room.seats[i].num && r.room.seats[i].name == room.seats[i].name
              && r.room.seats[i].ping == At(now)
    ensures r.result.Ok? && LastHolder(r.room.seats, 7).None? ==> r.room.current == 1
    ensures r.result.Ok? && LastHolder(r.room.seats, 7).Some? ==>
              r.room.current == r.room.seats[LastHolder(r.room.seats, 7).value].num
  {
    if caller != Some(1) then Reply(room, Err(NotHost))
    else if |room.seats| < room.numPlayers then Reply(room, Err(NotAllJoined))
    else if room.started then Reply(room, Err(AlreadyStarted))
    else if room.numPlayers < 1 then Reply(room, Err(Diverges))
    else
      var seats := DealtSeats(room.seats, Deal(deck, room.numPlayers), now);
      var first := match LastHolder(seats, 7) case None => 1 case Some(k) => seats[k].num;
      Reply(room.(seats := seats, current := first, started := true, desk := EMPTY_DESK), Ok(Done))
  }

  /** `remove_player`: the host removes another seat by number; the others
      are renumbered 1..N in order. The player count, the turn and the
      removed seat's hand are not otherwise accounted for. */
  function RemovePlayer(room: Room, caller: Option<int>, target: Option<int>): (r: Reply<Done>)
    ensures r.result.Err? ==> r.room == room
    ensures r.result == Err(NotHost) <==> caller != Some(1)
    ensures r.result == Err(MissingInput) <==> caller == Some(1) && !Truthy(target)
    ensures r.result == Err(CannotRemoveSelf) <==> caller == Some(1) && target == Some(1)
    ensures r.result == Err(TargetNotFound) <==>
              && caller == Some(1) && Truthy(target) && target.value != 1
              && forall i :: 0 <= i < |room.seats| ==> room.seats[i].num != target.value
    ensures r.result.Ok? <==>
              && caller == Some(1) && Truthy(target) && target.value != 1
              && exists i :: 0 <= i < |room.seats| && room.seats[i].num == target.value
    ensures r.result.Ok? ==>
              && r.room == room.(seats := r.room.seats)
              && SeatsNumbered(r.room.seats)
              && |r.room.seats| < |room.seats|
  {
    if caller != Some(1) then Reply(room, Err(NotHost))
    else if !Truthy(target) then Reply(room, Err(MissingInput))
    else if target.value == 1 then Reply(room, Err(CannotRemoveSelf))
    else
      var rest := Remaining(room.seats, target.value);
      RemainingKeepsAll(room.seats, target.value);
      if |rest| == |room.seats| then Reply(room, Err(TargetNotFound))
      else Reply(room.(seats := Renumber(rest)), Ok(Done))
  }

  /** A session is usable when it holds a non-empty name and a non-zero
      number. */
  predicate SessionValid(name: Option<string>, player: Option<int>)
  {
    name.Some? && name.value != [] && Truthy(player)
  }

  /** `reconnect_player`: the disconnected player's own session clears the
      pending disconnect and its timer. */
  function ReconnectPlayer(room: Room, name: Option<string>, player: Option<int>): (r: Reply<Done>)
    ensures r.result == Err(SessionExpired) <==> !SessionValid(name, player)
    ensures r.result.Ok? <==> SessionValid(name, player) && room.disconnected == player
    ensures r.result.Err? ==> r.room == room
    ensures r.result == Err(NotDisconnectedPlayer) <==> SessionValid(name, player) && room.disconnected != player
    ensures r.result.Ok? ==> r.room == room.(disconnected := None, timerStart := None)
    ensures r.result.Ok? ==> forall later :: !TerminationDue(r.room, later)
  {
    if !SessionValid(name, player) then Reply(room, Err(SessionExpired))
    else if room.disconnected == player then Reply(room.(disconnected := None, timerStart := None), Ok(Done))
    else Reply(room, Err(NotDisconnectedPlayer))
  }

  /** `player_ping`: a seated player's heartbeat clears their own pending
      disconnect and records the ping time on their seat. */
  function PlayerPing(room: Room, name: Option<string>, player: Option<int>, now: int): (r: Reply<Done>)
    ensures r.result == Err(SessionExpired) <==> !SessionValid(name, player)
    ensures r.result.Ok? <==> SessionValid(name, player) && FindSeat(room.seats, player.value).Some?
    ensures r.result == Err(NoLongerInGame) <==> SessionValid(name, player) && FindSeat(room.seats, player.value).None?
    ensures r.result.Err? ==> r.room == room
    ensures r.result.Ok? ==>
              r.room == room.(seats := r.room.seats, disconnected := r.room.disconnected, timerStart := r.room.timerStart)
    ensures r.result.Ok? && room.disconnected == player ==> r.room.disconnected.None? && r.room.timerStart.None?
    ensures r.result.Ok? ==>
              var i := FindSeat(room.seats, player.value).value;
              && r.room.disconnected != player
              && (room.disconnected != player ==> r.room.disconnected == room.disconnected && r.room.timerStart == room.timerStart)
              && |r.room.seats| == |room.seats|
              && r.room.seats[i] == room.seats[i].(ping := At(now))
              && (forall j :: 0 <= j < |room.seats| && j != i ==> r.room.seats[j] == room.seats[j])
              && (forall timeout :: timeout >= 0 ==> !Stale(r.room.seats[i].ping, now, timeout))
  {
    if !SessionValid(name, player) then Reply(room, Err(SessionExpired))
    else if FindSeat(room.seats, player.value).None? then Reply(room, Err(NoLongerInGame))
    else
      var room' := if room.disconnected == player then room.(disconnected := None, timerStart := None) else room;
      Reply(UpdatePingTime(room', player.value, now), Ok(Done))
  }
}

=== FILE: cards.dfy ===
/** Card encoding: cards are the integers 1..52. Card `n` has suit index
    `(n-1)/13` (H, D, C, S) and rank value `(n-1)%13 + 1` (A=1 ... K=13);
    its name is the rank string followed by the suit character, as in the
    source's card table ("AH", "2H", ..., "KS"). */
module Cards {
  import opened Wrappers

  type Card = n: int | 1 <= n <= 52 witness 1

  const CARD_RANKS: seq<string> := ["A", "2", "3", "4", "5", "6", "7", "8", "9", "T", "J", "Q", "K"]
  const CARD_SUITS: seq<char> := ['H', 'D', 'C', 'S']

  /** Rank value 1..13 of a card. */
  function Rank(c: Card): int { (c - 1) % 13 + 1 }

  /** Suit character of a card. */
  function SuitOf(c: Card): char { CARD_SUITS[(c - 1) / 13] }

  /** The card of rank `r` in suit `suit`, when both are in range. */
  function CardAt(r: int, suit: char): (c: Card)
    requires 1 <= r <= 13 && suit in CARD_SUITS
    ensures Rank(c) == r && SuitOf(c) == suit
  {
    var i := IndexOf(CARD_SUITS, suit);
    13 * i + r
  }

  /** The two-character name of a card, e.g. "7H". */
  function CardName(c: Card): string
  {
    CARD_RANKS[(c - 1) % 13] + [SuitOf(c)]
  }

  /** `card_name[:-1]` */
  function RankPart(name: string): string
  {
    if |name| == 0 then "" else name[..|name| - 1]
  }

  /** `card_name[-1]`; only applied to card names, which are never empty. */
  function SuitPart(name: string): char
    requires |name| > 0
  {
    name[|name| - 1]
  }

  /** Position of the first occurrence of `x` in `s`. */
  function IndexOf<T(==)>(s: seq<T>, x: T): (i: nat)
    requires x in s
    ensures i < |s| && s[i] == x
    ensures forall j :: 0 <= j < i ==> s[j] != x
  {
    if s[0] == x then 0 else 1 + IndexOf(s[1..], x)
  }

  /** `Game._get_rank_value`: the 1-based position of a rank name, or None. */
  function RankValue(rankName: string): (r: Option<int>)
    ensures r.Some? <==> rankName in CARD_RANKS
    ensures r.Some? ==> 1 <= r.value <= 13 && CARD_RANKS[r.value - 1] == rankName
  {
    if rankName in CARD_RANKS then Some(IndexOf(CARD_RANKS, rankName) + 1) else None
  }

  /** `Game._get_rank_name`: the rank name of a value 1..13, or None. */
  function RankName(rankValue: int): (r: Option<string>)
    ensures r.Some? <==> 1 <= rankValue <= 13
    ensures r.Some? ==> r.value in CARD_RANKS
  {
    if 1 <= rankValue <= 13 then Some(CARD_RANKS[rankValue - 1]) else None
  }

  /** The thirteen rank names are pairwise distinct one-character strings. */
  lemma RanksDistinct()
    ensures forall i :: 0 <= i < 13 ==> |CARD_RANKS[i]| == 1
    ensures forall i, j :: 0 <= i < j < 13 ==> CARD_RANKS[i] != CARD_RANKS[j]
  {
    forall i, j | 0 <= i < j < 13
      ensures CARD_RANKS[i] != CARD_RANKS[j]
    {
      assert CARD_RANKS[i][0] != CARD_RANKS[j][0];
    }
  }

  /** Looking a rank name up finds its own position. */
  lemma IndexOfRank(i: int)
    requires 0 <= i < 13
    ensures IndexOf(CARD_RANKS, CARD_RANKS[i]) == i
  {
    RanksDistinct();
  }

  /** Rank names and rank values are inverse bijections between
      CARD_RANKS and 1..13. */
  lemma RankRoundTrip()
    ensures forall r :: r in CARD_RANKS ==> RankName(RankValue(r).value) == Some(r)
    ensures forall v :: 1 <= v <= 13 ==> RankValue(RankName(v).value) == Some(v)
  {
    forall r | r in CARD_RANKS
      ensures RankName(RankValue(r).value) == Some(r)
    {
      ValueThenName(r);
    }
    forall v | 1 <= v <= 13
      ensures RankValue(RankName(v).value) == Some(v)
    {
      NameThenValue(v);
    }
  }

  lemma ValueThenName(r: string)
    requires r in CARD_RANKS
    ensures RankName(RankValue(r).value) == Some(r)
  {
  }

  lemma NameThenValue(v: int)
    requires 1 <= v <= 13
    ensures RankValue(RankName(v).value) == Some(v)
  {
    IndexOfRank(v - 1);
  }

  /** Facts every card name satisfies: two characters, the rank string then
      the suit character. */
  lemma CardNameParts(c: Card)
    ensures |CardName(c)| == 2
    ensures RankPart(CardName(c)) == CARD_RANKS[Rank(c) - 1]
    ensures SuitPart(CardName(c)) == SuitOf(c)
    ensures RankValue(RankPart(CardName(c))) == Some(Rank(c))
  {
    RanksDistinct();
    RankRoundTrip();
    var name := CardName(c);
    assert |CARD_RANKS[(c - 1) % 13]| == 1;
    assert name[..|name| - 1] == CARD_RANKS[(c - 1) % 13];
    assert RankName(Rank(c)) == Some(CARD_RANKS[Rank(c) - 1]);
  }

  /** Different cards have different names, so looking a name up in a list
      of names is the same as looking the card up in the list of cards. */
  lemma CardNameInjective(a: Card, b: Card)
    requires CardName(a) == CardName(b)
    ensures a == b
  {
    CardNameParts(a);
    CardNameParts(b);
    RankStringsInjective(Rank(a) - 1, Rank(b) - 1);
    SuitsInjective((a - 1) / 13, (b - 1) / 13);
    CardFromParts(a);
    CardFromParts(b);
  }

  /** A card is determined by its suit index and rank. */
  lemma CardFromParts(c: Card)
    ensures 0 <= (c - 1) / 13 < 4
    ensures c == 13 * ((c - 1) / 13) + Rank(c)
  {
  }

  lemma SuitsInjective(i: int, j: int)
    requires 0 <= i < 4 && 0 <= j < 4
    requires CARD_SUITS[i] == CARD_SUITS[j]
    ensures i == j
  {
  }

  lemma RankStringsInjective(i: int, j: int)
    requires 0 <= i < 13 && 0 <= j < 13
    requires CARD_RANKS[i] == CARD_RANKS[j]
    ensures i == j
  {
    RanksDistinct();
  }

  /** `rank_to_value` in `_calculate_and_save_scores`: every rank name mapped
      to its 1-based position, then 'T' set to 10 once more. */
  const RANK_TO_VALUE: map<string, int> := RANK_POSITIONS["T" := 10]

  /** `{rank: i + 1 for i, rank in enumerate(CARD_RANKS)}` */
  const RANK_POSITIONS: map<string, int> := map r | r in CARD_RANKS :: IndexOf(CARD_RANKS, r) + 1

  /** Score contribution of one held card: `rank_to_value.get(rank, 0)`. */
  function CardScore(c: Card): int
  {
    var rank := RankPart(CardName(c));
    if rank in RANK_TO_VALUE then RANK_TO_VALUE[rank] else 0
  }

  /** The value table covers all thirteen ranks, so every card scores its rank
      value: A=1, number cards at face value, T=10, J=11, Q=12, K=13. The
      explicit 'T' entry repeats the value the table already holds. */
  lemma CardScoreIsRank(c: Card)
    ensures CardScore(c) == Rank(c)
    ensures 1 <= CardScore(c) <= 13
  {
    CardNameParts(c);
    RankToValueAt(Rank(c) - 1);
  }

  lemma RankPositionAt(i: int)
    requires 0 <= i < 13
    ensures CARD_RANKS[i] in RANK_POSITIONS && RANK_POSITIONS[CARD_RANKS[i]] == i + 1
  {
    IndexOfRank(i);
  }

  /** The value table maps the rank name at position i to i + 1. */
  lemma RankToValueAt(i: int)
    requires 0 <= i < 13
    ensures CARD_RANKS[i] in RANK_TO_VALUE && RANK_TO_VALUE[CARD_RANKS[i]] == i + 1
  {
    if CARD_RANKS[i] == "T" {
      assert CARD_RANKS[9] == "T";
      RankStringsInjective(i, 9);
    } else {
      RankPositionAt(i);
    }
  }
}

=== FILE: deck.dfy ===
/** The deck and the deal (`create_shuffled_deck`, `get_cards_distributed`
    in app/views.py). The shuffle is an arbitrary permutation of the 52
    cards; the deal hands the deck out one card at a time, cycling through
    seats 1..n, so seat p receives deck positions p-1, p-1+n, p-1+2n, ... */
module Deck {
  import opened Cards

  /** The unshuffled deck, cards 1..52 in order. */
  function OrderedDeck(): (d: seq<Card>)
    ensures |d| == 52
    ensures forall i :: 0 <= i < 52 ==> d[i] == i + 1
  {
    seq(52, i requires 0 <= i < 52 => (i + 1) as Card)
  }

  /** What `create_shuffled_deck` returns: some permutation of the 52 cards. */
  ghost predicate IsShuffledDeck(d: seq<Card>)
  {
    multiset(d) == multiset(OrderedDeck())
  }

  lemma {:induction false} DistinctMultiplicity(s: seq<Card>, c: Card)
    requires forall i, j :: 0 <= i < j < |s| ==> s[i] != s[j]
    ensures multiset(s)[c] == (if c in s then 1 else 0)
  {
    if |s| > 0 {
      assert s == [s[0]] + s[1..];
      DistinctMultiplicity(s[1..], c);
    }
  }

  /** A shuffled deck holds 52 cards and every card exactly once. */
  lemma ShuffledDeckHoldsEveryCardOnce(d: seq<Card>)
    requires IsShuffledDeck(d)
    ensures |d| == 52
    ensures forall c: Card :: multiset(d)[c] == 1
  {
    var o := OrderedDeck();
    assert |d| == |multiset(d)| == |multiset(o)| == 52;
    forall c: Card
      ensures multiset(d)[c] == 1
    {
      DistinctMultiplicity(o, c);
      assert o[c - 1] == c;
    }
  }

  /** The cards at positions s, s+n, s+2n, ... of `d`. */
  function Every(d: seq<Card>, s: int, n: int): seq<Card>
    requires 0 <= s && n >= 1
    decreases |d| - s
  {
    if s >= |d| then [] else [d[s]] + Every(d, s + n, n)
  }

  /** `get_cards_distributed(d, n)`: the hand of seat p is entry p-1. */
  function Deal(d: seq<Card>, n: int): (hs: seq<seq<Card>>)
    requires n >= 1
    ensures |hs| == n
  {
    seq(n, i requires 0 <= i < n => Every(d, i, n))
  }

  /** Position k of the deck is on seat index s's stride: k is one of
      s, s+n, s+2n, ... */
  predicate Hits(s: int, k: int, n: int)
    requires n >= 1
    decreases k - s
  {
    s <= k && (s == k || Hits(s + n, k, n))
  }

  lemma {:induction false} HitsShift(s: int, k: int, n: int, c: nat)
    requires n >= 1
    ensures Hits(s, k, n) == Hits(s + c, k + c, n)
    decreases k - s
  {
    if s < k {
      HitsShift(s + n, k, n, c);
    }
  }

  /** No deck position lies on two different seats' strides. */
  lemma {:induction false} HitsUnique(s: int, t: int, k: int, n: int)
    requires n >= 1 && s < t < s + n
    ensures !(Hits(s, k, n) && Hits(t, k, n))
    decreases k - s
  {
    if s < k && t < k {
      HitsUnique(s + n, t + n, k, n);
    }
  }

  /** The seat index (0-based) that deck position k is dealt to. */
  function SeatFor(k: nat, n: int): (s: int)
    requires n >= 1
    ensures 0 <= s < n && Hits(s, k, n)
    decreases k
  {
    if k < n then k
    else
      var s := SeatFor(k - n, n);
      HitsShift(s, k - n, n, n);
      s
  }

  lemma HitsIffSeatFor(s: int, k: nat, n: int)
    requires n >= 1 && 0 <= s < n
    ensures Hits(s, k, n) <==> s == SeatFor(k, n)
  {
    var r := SeatFor(k, n);
    if s < r { HitsUnique(s, r, k, n); }
    if r < s { HitsUnique(r, s, k, n); }
  }

  /** Dealing one more card of the deck extends exactly the hand whose
      stride contains its position. */
  lemma {:induction false} EveryExtend(d: seq<Card>, s: int, n: int, k: int)
    requires 0 <= s && n >= 1 && 0 <= k < |d|
    ensures Every(d[..k + 1], s, n) == Every(d[..k], s, n) + (if Hits(s, k, n) then [d[k]] else [])
    decreases k - s
  {
    if s < k {
      EveryExtend(d, s + n, n, k);
    }
  }

  /** Arithmetic step behind `EveryPositions`. */
  lemma StrideStep(s: int, n: int, j: int)
    ensures s + n + (j - 1) * n == s + j * n
  {
  }

  /** The hand of seat index s holds d[s + j*n] at its position j. */
  lemma {:induction false} EveryPositions(d: seq<Card>, s: int, n: int)
    requires 0 <= s && n >= 1
    ensures forall j :: 0 <= j < |Every(d, s, n)| ==> s + j * n < |d| && Every(d, s, n)[j] == d[s + j * n]
    decreases |d| - s
  {
    if s < |d| {
      EveryPositions(d, s + n, n);
      var e := Every(d, s, n);
      var e' := Every(d, s + n, n);
      assert e == [d[s]] + e';
      forall j | 0 <= j < |e|
        ensures s + j * n < |d| && e[j] == d[s + j * n]
      {
        if j > 0 {
          assert e[j] == e'[j - 1];
          StrideStep(s, n, j);
        }
      }
    }
  }

  /** The hand of seat index s stops at the first position of its stride
      past the end of the deck. */
  lemma {:induction false} EveryLength(d: seq<Card>, s: int, n: int)
    requires 0 <= s && n >= 1
    ensures s + |Every(d, s, n)| * n >= |d|
    ensures |Every(d, s, n)| > 0 ==> s + (|Every(d, s, n)| - 1) * n < |d|
    decreases |d| - s
  {
    if s < |d| {
      EveryLength(d, s + n, n);
      var m := |Every(d, s + n, n)|;
      StrideStep(s, n, m + 1);
      StrideStep(s, n, m);
    }
  }

  /** Two seats of the same round differ by at most one card, the earlier
      seat holding the extra one. */
  lemma {:induction false} EverySizes(d: seq<Card>, s: int, t: int, n: int)
    requires 0 <= s < t < s + n && n >= 1
    ensures |Every(d, t, n)| <= |Every(d, s, n)| <= |Every(d, t, n)| + 1
    decreases |d| - s
  {
    if s < |d| && t < |d| {
      EverySizes(d, s + n, t + n, n);
    }
  }

  /** Hand sizes in a deal differ by at most one. */
  lemma DealBalanced(d: seq<Card>, n: int, i: int, j: int)
    requires n >= 1 && 0 <= i < n && 0 <= j < n
    ensures -1 <= |Deal(d, n)[i]| - |Deal(d, n)[j]| <= 1
  {
    if i < j { EverySizes(d, i, j, n); }
    if j < i { EverySizes(d, j, i, n); }
  }

  /** All cards held in a list of hands, with multiplicity. */
  function HandsMultiset(hs: seq<seq<Card>>): multiset<Card>
  {
    if |hs| == 0 then multiset{} else multiset(hs[0]) + HandsMultiset(hs[1..])
  }

  /** Sum of the hand sizes. */
  function TotalSize(hs: seq<seq<Card>>): nat
  {
    if |hs| == 0 then 0 else |hs[0]| + TotalSize(hs[1..])
  }

  lemma {:induction false} TotalSizeIsCardinality(hs: seq<seq<Card>>)
    ensures TotalSize(hs) == |HandsMultiset(hs)|
  {
    if |hs| > 0 {
      TotalSizeIsCardinality(hs[1..]);
    }
  }

  lemma {:induction false} HandsMultisetAppend(hs: seq<seq<Card>>, i: int, x: Card)
    requires 0 <= i < |hs|
    ensures HandsMultiset(hs[i := hs[i] + [x]]) == HandsMultiset(hs) + multiset{x}
  {
    var hs' := hs[i := hs[i] + [x]];
    if i == 0 {
      assert hs'[1..] == hs[1..];
    } else {
      HandsMultisetAppend(hs[1..], i - 1, x);
      assert hs'[1..] == hs[1..][i - 1 := hs[i] + [x]];
    }
  }

  lemma {:induction false} HandsMultisetReplace(hs: seq<seq<Card>>, i: int, h: seq<Card>)
    requires 0 <= i < |hs|
    ensures HandsMultiset(hs[i := h]) + multiset(hs[i]) == HandsMultiset(hs) + multiset(h)
  {
    var hs' := hs[i := h];
    if i == 0 {
      assert hs'[1..] == hs[1..];
    } else {
      var tail := hs[1..];
      HandsMultisetReplace(tail, i - 1, h);
      assert hs'[1..] == tail[i - 1 := h];
      assert tail[i - 1] == hs[i];
      var a: multiset<Card> := HandsMultiset(tail[i - 1 := h]);
      var b: multiset<Card> := multiset(tail[i - 1]);
      var c: multiset<Card> := HandsMultiset(tail);
      var d: multiset<Card> := multiset(h);
      var e: multiset<Card> := multiset(hs[0]);
      assert a + b == c + d;
      assert HandsMultiset(hs') == e + a;
      assert HandsMultiset(hs) == e + c;
      forall x: Card
        ensures (e + a + b)[x] == (e + c + d)[x]
      {
        assert (a + b)[x] == (c + d)[x];
      }
      assert e + a + b == e + c + d;
    }
  }

  lemma {:induction false} HandsMultisetConcat(a: seq<seq<Card>>, b: seq<seq<Card>>)
    ensures HandsMultiset(a + b) == HandsMultiset(a) + HandsMultiset(b)
  {
    if |a| > 0 {
      HandsMultisetConcat(a[1..], b);
      assert (a + b)[1..] == a[1..] + b;
    } else {
      assert a + b == b;
    }
  }

  /** A hand holds no more copies of a card than all hands together. */
  lemma {:induction false} HandsMultisetContains(hs: seq<seq<Card>>, i: int)
    requires 0 <= i < |hs|
    ensures multiset(hs[i]) <= HandsMultiset(hs)
  {
    if i > 0 {
      HandsMultisetContains(hs[1..], i - 1);
      assert hs[1..][i - 1] == hs[i];
    }
  }

  lemma {:induction false} HandsMultisetEmpty(hs: seq<seq<Card>>)
    requires forall i :: 0 <= i < |hs| ==> hs[i] == []
    ensures HandsMultiset(hs) == multiset{}
  {
    if |hs| > 0 {
      HandsMultisetEmpty(hs[1..]);
    }
  }

  /** Dealing deck position k changes only the hand of seat index
      SeatFor(k, n), which receives d[k] at its end. */
  lemma DealStep(d: seq<Card>, n: int, k: nat)
    requires n >= 1 && k < |d|
    ensures Deal(d[..k + 1], n)
         == Deal(d[..k], n)[SeatFor(k, n) := Deal(d[..k], n)[SeatFor(k, n)] + [d[k]]]
  {
    var before := Deal(d[..k], n);
    var after := Deal(d[..k + 1], n);
    var s := SeatFor(k, n);
    var expected := before[s := before[s] + [d[k]]];
    forall i | 0 <= i < n
      ensures after[i] == expected[i]
    {
      assert after[i] == Every(d[..k + 1], i, n);
      assert before[i] == Every(d[..k], i, n);
      EveryExtend(d, i, n, k);
      HitsIffSeatFor(i, k, n);
    }
  }

  /** Dealing one more deck position adds exactly that card to the hands. */
  lemma DealOneMore(d: seq<Card>, n: int, k: nat)
    requires n >= 1 && 1 <= k <= |d|
    ensures HandsMultiset(Deal(d[..k], n)) == HandsMultiset(Deal(d[..k - 1], n)) + multiset{d[k - 1]}
  {
    DealStep(d, n, k - 1);
    HandsMultisetAppend(Deal(d[..k - 1], n), SeatFor(k - 1, n), d[k - 1]);
  }

  lemma PrefixMultisetStep(d: seq<Card>, k: nat)
    requires 1 <= k <= |d|
    ensures multiset(d[..k]) == multiset(d[..k - 1]) + multiset{d[k - 1]}
  {
    assert d[..k] == d[..k - 1] + [d[k - 1]];
  }

  lemma {:induction false} DealPrefixCovers(d: seq<Card>, n: int, k: nat)
    requires n >= 1 && k <= |d|
    ensures HandsMultiset(Deal(d[..k], n)) == multiset(d[..k])
  {
    if k == 0 {
      HandsMultisetEmpty(Deal(d[..0], n));
    } else {
      DealPrefixCovers(d, n, k - 1);
      DealOneMore(d, n, k);
      PrefixMultisetStep(d, k);
    }
  }

  /** Every card of the deck ends up in a hand, as many times as it occurs
      in the deck, and the hand sizes add up to the deck size. */
  lemma DealCoversDeck(d: seq<Card>, n: int)
    requires n >= 1
    ensures HandsMultiset(Deal(d, n)) == multiset(d)
    ensures TotalSize(Deal(d, n)) == |d|
  {
    DealPrefixCovers(d, n, |d|);
    assert d[..|d|] == d;
    TotalSizeIsCardinality(Deal(d, n));
  }

  /** A card that occurs once across all hands is held by exactly one hand. */
  lemma {:induction false} SingleOwner(hs: seq<seq<Card>>, c: Card)
    requires HandsMultiset(hs)[c] == 1
    ensures exists i :: 0 <= i < |hs| && c in hs[i]
    ensures forall i, j :: 0 <= i < |hs| && 0 <= j < |hs| && c in hs[i] && c in hs[j] ==> i == j
  {
    if |hs| > 0 {
      if c in hs[0] {
        assert HandsMultiset(hs[1..])[c] == 0;
        NotHeld(hs[1..], c);
        assert forall i :: 1 <= i < |hs| ==> c !in hs[i] by {
          forall i | 1 <= i < |hs| ensures c !in hs[i] { assert hs[i] == hs[1..][i - 1]; }
        }
      } else {
        SingleOwner(hs[1..], c);
        var i :| 0 <= i < |hs| - 1 && c in hs[1..][i];
        assert c in hs[i + 1];
        forall i, j | 0 < i < |hs| && 0 < j < |hs| && c in hs[i] && c in hs[j]
          ensures i == j
        {
          assert hs[i] == hs[1..][i - 1] && hs[j] == hs[1..][j - 1];
        }
      }
    }
  }

  lemma {:induction false} NotHeld(hs: seq<seq<Card>>, c: Card)
    requires HandsMultiset(hs)[c] == 0
    ensures forall i :: 0 <= i < |hs| ==> c !in hs[i]
  {
    if |hs| > 0 {
      NotHeld(hs[1..], c);
      forall i | 1 <= i < |hs| ensures c !in hs[i] { assert hs[i] == hs[1..][i - 1]; }
    }
  }

  /** The deal loop of `get_cards_distributed`: pop the front card and give
      it to seats 1, 2, ..., n in turn, round after round, until the deck is
      empty. */
  method DealRoundRobin(deck: seq<Card>, n: int) returns (hands: seq<seq<Card>>)
    requires n >= 1
    ensures hands == Deal(deck, n)
    ensures HandsMultiset(hands) == multiset(deck)
    ensures forall i, j :: 0 <= i < n && 0 <= j < n ==> -1 <= |hands[i]| - |hands[j]| <= 1
  {
    hands := seq(n, i => []);
    var rest := deck;
    ghost var k := 0;
    assert hands == Deal(deck[..0], n);
    while rest != []
      invariant 0 <= k <= |deck| && rest == deck[k..]
      invariant rest != [] ==> Hits(0, k, n)
      invariant hands == Deal(deck[..k], n)
      decreases |rest|
    {
      var p := 1;
      ghost var k0 := k;
      while p <= n
        invariant 1 <= p <= n + 1
        invariant 0 <= k <= |deck| && rest == deck[k..]
        invariant k == k0 + p - 1
        invariant Hits(p - 1, k, n)
        invariant hands == Deal(deck[..k], n)
        decreases n + 1 - p
      {
        if rest == [] {
          break;
        }
        var card := rest[0];
        rest := rest[1..];
        HitsIffSeatFor(p - 1, k, n);
        DealStep(deck, n, k);
        hands := hands[p - 1 := hands[p - 1] + [card]];
        HitsShift(p - 1, k, n, 1);
        k := k + 1;
        p := p + 1;
      }
      assert k > k0;
      if rest != [] {
        assert p == n + 1 && Hits(n, k, n);
      }
    }
    assert deck[..k] == deck;
    DealCoversDeck(deck, n);
    forall i, j | 0 <= i < n && 0 <= j < n
      ensures -1 <= |hands[i]| - |hands[j]| <= 1
    {
      DealBalanced(deck, n, i, j);
    }
  }
}

=== FILE: invariants.dfy ===
/** The room invariant the views keep: seats numbered 1..N in list order
    and no card held or played twice. Every view that changes a room keeps
    it; the start of a game establishes that the cards in play are exactly
    the 52 cards of the deck, and the views after that never add a card. */
module Invariants {
  import opened Wrappers
  import opened Cards
  import opened Deck
  import opened Sorting
  import opened Rooms
  import opened Moves
  import opened Turns
  import opened Supervisor
  import opened Actions

  ghost predicate Wellformed(room: Room)
  {
    SeatsNumbered(room.seats) && NoDuplicateCards(room)
  }

  /** `b` is `a` with at most the seats' ping times changed. */
  ghost predicate PingsOnly(a: seq<Seat>, b: seq<Seat>)
  {
    |a| == |b| && forall j :: 0 <= j < |a| ==> b[j] == a[j].(ping := b[j].ping)
  }

  lemma PingsOnlyTrans(a: seq<Seat>, b: seq<Seat>, c: seq<Seat>)
    requires PingsOnly(a, b) && PingsOnly(b, c)
    ensures PingsOnly(a, c)
  {
    forall j | 0 <= j < |a| ensures c[j] == a[j].(ping := c[j].ping) {
      assert b[j] == a[j].(ping := b[j].ping);
    }
  }

  /** Changing pings keeps the numbering, the hands and the seat lookup. */
  lemma PingsOnlyKeeps(a: seq<Seat>, b: seq<Seat>, p: int)
    requires PingsOnly(a, b)
    ensures SeatHands(a) == SeatHands(b)
    ensures SeatsNumbered(a) ==> SeatsNumbered(b)
    ensures FindSeat(a, p) == FindSeat(b, p)
  {
    FindSeatSameNumbers(a, b, p);
  }

  /** Seat lookup reads only the seat numbers. */
  lemma {:induction false} FindSeatSameNumbers(a: seq<Seat>, b: seq<Seat>, p: int)
    requires |a| == |b| && forall j :: 0 <= j < |a| ==> a[j].num == b[j].num
    ensures FindSeat(a, p) == FindSeat(b, p)
  {
    if |a| > 0 {
      assert a[0].num == b[0].num;
      forall j | 0 <= j < |a| - 1 ensures a[1..][j].num == b[1..][j].num {
        assert a[1..][j] == a[j + 1] && b[1..][j] == b[j + 1];
      }
      FindSeatSameNumbers(a[1..], b[1..], p);
    }
  }

  /** The inactivity scan changes the disconnect fields and the seats' ping
      times, and nothing else. */
  lemma {:induction false} ScanChangesPingsOnly(room: Room, pending: seq<Seat>, now: int, timeout: int)
    decreases |pending|
    ensures var r := ScanPings(room, pending, now, timeout);
            && r == room.(seats := r.seats, disconnected := r.disconnected, timerStart := r.timerStart)
            && PingsOnly(room.seats, r.seats)
  {
    if |pending| > 0 {
      match pending[0].ping
      case NoPing =>
        ScanChangesPingsOnly(room, pending[1..], now, timeout);
      case Unparsable =>
        var room' := UpdatePingTime(room, pending[0].num, now);
        ScanChangesPingsOnly(room', pending[1..], now, timeout);
        PingsOnlyTrans(room.seats, room'.seats, ScanPings(room', pending[1..], now, timeout).seats);
      case At(t) =>
        if now - t <= timeout {
          ScanChangesPingsOnly(room, pending[1..], now, timeout);
        }
    }
  }

  lemma InactivityChangesPingsOnly(room: Room, now: int, timeout: int)
    ensures var r := CheckInactivity(room, now, timeout);
            && r == room.(seats := r.seats, disconnected := r.disconnected, timerStart := r.timerStart)
            && PingsOnly(room.seats, r.seats)
  {
    if !(room.gameOver || !room.started || room.disconnected.Some?) {
      ScanChangesPingsOnly(room, room.seats, now, timeout);
    }
  }

  /** A room with fewer cards in play than a room without duplicates has
      no duplicates either. */
  lemma FewerCardsNoDuplicates(a: Room, b: Room)
    requires NoDuplicateCards(a) && CardsInPlay(b) <= CardsInPlay(a)
    ensures NoDuplicateCards(b)
  {
    forall c: Card ensures CardsInPlay(b)[c] <= 1 {
      assert CardsInPlay(b)[c] <= CardsInPlay(a)[c];
    }
  }

  /** On a numbered seat list a timeout for a number that no seat carries
      leaves the seats as they are. */
  lemma TerminationAbsent(room: Room, now: int)
    requires TerminationDue(room, now) && SeatsNumbered(room.seats)
    requires !(1 <= room.disconnected.value <= |room.seats|)
    requires |Remaining(room.seats, room.disconnected.value)| >= 2
    ensures CheckTermination(room, now).seats == room.seats
  {
    RemainingAbsent(room.seats, room.disconnected.value);
    NumberedIsFixed(room.seats);
  }

  /** Sorting a numbered seat list by number and renumbering it changes
      nothing. */
  lemma NumberedIsFixed(seats: seq<Seat>)
    requires SeatsNumbered(seats)
    ensures Renumber(SortBy(seats, BySeatNumber)) == seats
  {
    assert SortedBy(seats, BySeatNumber) by {
      forall i, j | 0 <= i < j < |seats| ensures BySeatNumber(seats[i]) <= BySeatNumber(seats[j]) {
        assert seats[i].num == i + 1 && seats[j].num == j + 1;
      }
    }
    SortBySortedIsIdentity(seats, BySeatNumber);
    assert Renumber(seats) == seats;
  }

  /** A timeout removal of a seated player drops that seat's hand. */
  lemma TerminationRemovesSeated(room: Room, now: int)
    requires TerminationDue(room, now) && SeatsNumbered(room.seats)
    requires 1 <= room.disconnected.value <= |room.seats|
    requires |Remaining(room.seats, room.disconnected.value)| >= 2
    ensures SeatsNumbered(CheckTermination(room, now).seats)
    ensures CardsInPlay(CheckTermination(room, now)) <= CardsInPlay(room)
  {
    RemainingNumbered(room.seats, room.disconnected.value);
    TerminationDropsHand(room, now);
  }

  /** Every other outcome of `check_for_termination` keeps the seats. */
  lemma TerminationKeepsSeats(room: Room, now: int)
    requires SeatsNumbered(room.seats)
    requires !(TerminationDue(room, now) && 1 <= room.disconnected.value <= |room.seats|
               && |Remaining(room.seats, room.disconnected.value)| >= 2)
    ensures CheckTermination(room, now).seats == room.seats
    ensures CheckTermination(room, now).desk == room.desk
  {
    if TerminationDue(room, now) && |Remaining(room.seats, room.disconnected.value)| >= 2 {
      TerminationAbsent(room, now);
    }
  }

  /** `check_for_termination` keeps the invariant and never adds a card. */
  lemma TerminationKeepsWellformed(room: Room, now: int)
    requires Wellformed(room)
    ensures Wellformed(CheckTermination(room, now))
    ensures CardsInPlay(CheckTermination(room, now)) <= CardsInPlay(room)
  {
    var r := CheckTermination(room, now);
    if TerminationDue(room, now) && 1 <= room.disconnected.value <= |room.seats|
       && |Remaining(room.seats, room.disconnected.value)| >= 2 {
      TerminationRemovesSeated(room, now);
    } else {
      TerminationKeepsSeats(room, now);
      assert CardsInPlay(r) == CardsInPlay(room);
    }
    FewerCardsNoDuplicates(room, r);
  }

  /** `check_for_player_inactivity` keeps the invariant and the cards. */
  lemma InactivityKeepsWellformed(room: Room, now: int, timeout: int)
    requires Wellformed(room)
    ensures Wellformed(CheckInactivity(room, now, timeout))
    ensures CardsInPlay(CheckInactivity(room, now, timeout)) == CardsInPlay(room)
  {
    var r := CheckInactivity(room, now, timeout);
    InactivityChangesPingsOnly(room, now, timeout);
    PingsOnlyKeeps(room.seats, r.seats, 0);
    assert CardsInPlay(r) == CardsInPlay(room);
    FewerCardsNoDuplicates(room, r);
  }

  /** Polling the game state keeps the invariant and never adds a card. */
  lemma StateKeepsWellformed(room: Room, player: Option<int>, now: int)
    requires Wellformed(room)
    ensures Wellformed(GetGameState(room, player, now).room)
    ensures CardsInPlay(GetGameState(room, player, now).room) <= CardsInPlay(room)
  {
    var r1 := CheckTermination(room, now);
    TerminationKeepsWellformed(room, now);
    InactivityKeepsWellformed(r1, now, PING_TIMEOUT);
  }

  /** A played card moves from the player's hand to the desk: the invariant
      holds and the cards in play stay the same. */
  lemma PlayKeepsWellformed(room: Room, player: Option<int>, card: Option<int>)
    requires Wellformed(room)
    ensures Wellformed(PlayCard(room, player, card).room)
    ensures CardsInPlay(PlayCard(room, player, card).room) == CardsInPlay(room)
  {
    var r := PlayCard(room, player, card);
    if r.result.Ok? {
      MoveKeepsNumbering(room, card.value, player.value);
      MoveKeepsCards(room, card.value, player.value);
    }
  }

  /** A move changes one hand and no seat number. */
  lemma MoveKeepsNumbering(room: Room, cardNum: int, p: int)
    requires ApplyMove(room, cardNum, p).Ok? && SeatsNumbered(room.seats)
    ensures SeatsNumbered(ApplyMove(room, cardNum, p).value.seats)
  {
    var seats' := ApplyMove(room, cardNum, p).value.seats;
    MoveHand(room, cardNum, p);
    forall j | 0 <= j < |seats'| ensures seats'[j].num == j + 1 {
      assert room.seats[j].num == j + 1;
    }
  }

  /** Passing moves only the turn. */
  lemma PassKeepsWellformed(room: Room, player: Option<int>)
    requires Wellformed(room)
    ensures Wellformed(PassTurnView(room, player).room)
    ensures CardsInPlay(PassTurnView(room, player).room) == CardsInPlay(room)
  {
    var r := PassTurnView(room, player);
    assert r.room.seats == room.seats && r.room.desk == room.desk;
    FewerCardsNoDuplicates(room, r.room);
  }

  /** On a numbered seat list some seat is numbered `d` exactly when `d`
      is in 1..N, and only then does removing it shorten the list. */
  lemma RemainingShrinks(seats: seq<Seat>, d: int)
    requires SeatsNumbered(seats)
    ensures |Remaining(seats, d)| < |seats| <==> 1 <= d <= |seats|
  {
    if 1 <= d <= |seats| {
      RemainingNumbered(seats, d);
    } else {
      RemainingAbsent(seats, d);
    }
  }

  /** The refusals of `remove_player` on a numbered seat list: only the
      host, only another seated player. */
  lemma RemoveAllowed(room: Room, caller: Option<int>, target: Option<int>)
    requires SeatsNumbered(room.seats)
    ensures var r := RemovePlayer(room, caller, target);
            r.result.Ok? <==> caller == Some(1) && target.Some? && 2 <= target.value <= |room.seats|
  {
    if target.Some? {
      RemainingShrinks(room.seats, target.value);
    }
  }

  /** On a numbered seat list, the host's removal of player `d` drops that
      seat, moves the later seats up one place, and discards its hand; the
      player count and the turn are left alone, unlike a timeout removal
      (`DropSeat`), which adjusts both. */
  lemma RemoveEffect(room: Room, caller: Option<int>, target: Option<int>)
    requires SeatsNumbered(room.seats)
    requires RemovePlayer(room, caller, target).result.Ok?
    ensures var r := RemovePlayer(room, caller, target);
            var d := target.value;
            && 1 <= d <= |room.seats|
            && r.room == room.(seats := DropSeat(room, d).seats)
            && CardsInPlay(r.room) + multiset(room.seats[d - 1].hand) == CardsInPlay(room)
  {
    RemoveSeats(room, caller, target);
    RemovalDropsHand(room.seats, target.value);
  }

  lemma RemoveSeats(room: Room, caller: Option<int>, target: Option<int>)
    requires SeatsNumbered(room.seats)
    requires RemovePlayer(room, caller, target).result.Ok?
    ensures 1 <= target.value <= |room.seats|
    ensures RemovePlayer(room, caller, target).room
            == room.(seats := Renumber(room.seats[..target.value - 1] + room.seats[target.value..]))
  {
    RemainingShrinks(room.seats, target.value);
    RemainingNumbered(room.seats, target.value);
  }

  lemma RemoveKeepsWellformed(room: Room, caller: Option<int>, target: Option<int>)
    requires Wellformed(room)
    ensures Wellformed(RemovePlayer(room, caller, target).room)
    ensures CardsInPlay(RemovePlayer(room, caller, target).room) <= CardsInPlay(room)
  {
    if RemovePlayer(room, caller, target).result.Ok? {
      RemoveEffect(room, caller, target);
    }
    FewerCardsNoDuplicates(room, RemovePlayer(room, caller, target).room);
  }
  /** Reconnecting touches only the disconnect fields. */
  lemma ReconnectKeepsWellformed(room: Room, name: Option<string>, player: Option<int>)
    requires Wellformed(room)
    ensures Wellformed(ReconnectPlayer(room, name, player).room)
    ensures CardsInPlay(ReconnectPlayer(room, name, player).room) == CardsInPlay(room)
  {
    var r := ReconnectPlayer(room, name, player);
    assert r.room.seats == room.seats && r.room.desk == room.desk;
    FewerCardsNoDuplicates(room, r.room);
  }

  /** A ping touches only the disconnect fields and one ping time. */
  lemma PingKeepsWellformed(room: Room, name: Option<string>, player: Option<int>, now: int)
    requires Wellformed(room)
    ensures Wellformed(PlayerPing(room, name, player, now).room)
    ensures CardsInPlay(PlayerPing(room, name, player, now).room) == CardsInPlay(room)
  {
    if SessionValid(name, player) && FindSeat(room.seats, player.value).Some? {
      var room' := if room.disconnected == player then room.(disconnected := None, timerStart := None) else room;
      PingKeepsSeats(room', player.value, now);
    }
    FewerCardsNoDuplicates(room, PlayerPing(room, name, player, now).room);
  }

  /** On a numbered seat list holding one seat per hand, seat p takes
      hand p of the deal. */
  lemma DealtHands(seats: seq<Seat>, hands: seq<seq<Card>>, now: int)
    requires SeatsNumbered(seats) && |hands| == |seats|
    ensures SeatHands(DealtSeats(seats, hands, now)) == hands
    ensures SeatsNumbered(DealtSeats(seats, hands, now))
  {
    var r := DealtSeats(seats, hands, now);
    forall i | 0 <= i < |seats| ensures r[i].hand == hands[i] {
      assert seats[i].num == i + 1;
    }
  }

  lemma EmptyDeskHoldsNothing()
    ensures DeskMultiset(EMPTY_DESK) == multiset{}
    ensures DeskIsEmpty(EMPTY_DESK)
  {
    assert Lane(EMPTY_DESK, 'H') == [] && Lane(EMPTY_DESK, 'D') == [];
    assert Lane(EMPTY_DESK, 'C') == [] && Lane(EMPTY_DESK, 'S') == [];
  }

  /** A started game's seats hold the deal, seat p hand p. */
  lemma StartSeats(room: Room, caller: Option<int>, deck: seq<Card>, now: int)
    requires SeatsNumbered(room.seats) && |room.seats| <= room.numPlayers
    requires StartGame(room, caller, deck, now).result.Ok?
    ensures var r := StartGame(room, caller, deck, now).room;
            && room.numPlayers >= 1
            && SeatHands(r.seats) == Deal(deck, room.numPlayers)
            && SeatsNumbered(r.seats)
            && r.desk == EMPTY_DESK
  {
    DealtHands(room.seats, Deal(deck, room.numPlayers), now);
  }

  lemma StartCards(room: Room, caller: Option<int>, deck: seq<Card>, now: int)
    requires SeatsNumbered(room.seats) && |room.seats| <= room.numPlayers
    requires StartGame(room, caller, deck, now).result.Ok?
    ensures CardsInPlay(StartGame(room, caller, deck, now).room) == multiset(deck)
  {
    var r := StartGame(room, caller, deck, now).room;
    StartSeats(room, caller, deck, now);
    DealCoversDeck(deck, room.numPlayers);
    EmptyDeskHoldsNothing();
  }

  /** Every card of a shuffled deck is in it once. */
  lemma ShuffledNoDuplicates(room: Room, deck: seq<Card>)
    requires IsShuffledDeck(deck) && CardsInPlay(room) == multiset(deck)
    ensures NoDuplicateCards(room)
  {
    ShuffledDeckHoldsEveryCardOnce(deck);
  }

  /** Starting a game (on a full, numbered room and a shuffled deck) puts
      exactly the 52 cards in play, each once, seat p holding hand p of
      the deal. */
  lemma StartDealsWholeDeck(room: Room, caller: Option<int>, deck: seq<Card>, now: int)
    requires IsShuffledDeck(deck) && SeatsNumbered(room.seats) && |room.seats| <= room.numPlayers
    requires StartGame(room, caller, deck, now).result.Ok?
    ensures var r := StartGame(room, caller, deck, now).room;
            && SeatHands(r.seats) == Deal(deck, room.numPlayers)
            && CardsInPlay(r) == multiset(OrderedDeck())
            && Wellformed(r)
  {
    var n := room.numPlayers;
    var r := StartGame(room, caller, deck, now).room;
    StartSeats(room, caller, deck, now);
    StartCards(room, caller, deck, now);
    ShuffledNoDuplicates(r, deck);
  }

  /** The deal is even: any two hands differ in size by at most one. */
  lemma StartHandSizes(room: Room, caller: Option<int>, deck: seq<Card>, now: int, i: int, j: int)
    requires SeatsNumbered(room.seats) && |room.seats| <= room.numPlayers
    requires StartGame(room, caller, deck, now).result.Ok?
    requires 0 <= i < |room.seats| && 0 <= j < |room.seats|
    ensures var r := StartGame(room, caller, deck, now).room;
            -1 <= |r.seats[i].hand| - |r.seats[j].hand| <= 1
  {
    var r := StartGame(room, caller, deck, now).room;
    StartSeats(room, caller, deck, now);
    DealtHandSizes(r.seats, deck, room.numPlayers, i, j);
  }

  lemma DealtHandSizes(seats: seq<Seat>, deck: seq<Card>, n: int, i: int, j: int)
    requires n >= 1 && SeatHands(seats) == Deal(deck, n)
    requires 0 <= i < |seats| && 0 <= j < |seats|
    ensures -1 <= |seats[i].hand| - |seats[j].hand| <= 1
  {
    assert seats[i].hand == SeatHands(seats)[i] && seats[j].hand == SeatHands(seats)[j];
    DealBalanced(deck, n, i, j);
  }

  lemma {:induction false} NoSevens(hand: seq<Card>)
    requires 7 !in hand
    ensures SevensIn(hand) == []
  {
    if |hand| > 0 {
      NoSevens(hand[1..]);
    }
  }

  /** A hand holding the only copy of 7 offers exactly that card on an
      empty desk. */
  lemma {:induction false} OnlySevenOpens(hand: seq<Card>)
    requires multiset(hand)[7] == 1
    ensures SevensIn(hand) == [7]
  {
    assert hand == [hand[0]] + hand[1..];
    if hand[0] == 7 {
      assert multiset(hand[1..])[7] == 0;
      NoSevens(hand[1..]);
    } else {
      OnlySevenOpens(hand[1..]);
    }
  }

  /** The first turn of a started game goes to the one player holding the
      7 of hearts, whose only valid move is that card. */
  lemma StartFirstHoldsSeven(room: Room, caller: Option<int>, deck: seq<Card>, now: int)
    requires IsShuffledDeck(deck) && SeatsNumbered(room.seats) && |room.seats| <= room.numPlayers
    requires StartGame(room, caller, deck, now).result.Ok?
    ensures var r := StartGame(room, caller, deck, now).room;
            && 1 <= r.current <= |r.seats|
            && 7 in r.seats[r.current - 1].hand
            && (forall j :: 0 <= j < |r.seats| && j != r.current - 1 ==> 7 !in r.seats[j].hand)
            && ValidMoves(r.seats[r.current - 1].hand, r.desk) == [7]
  {
    var r := StartGame(room, caller, deck, now).room;
    SevenHeldOnce(room, caller, deck, now);
    SevenHolderExists(r.seats);
    FirstSevenHolder(r);
  }

  /** The first turn of a started game: the number of the last seat
      holding card 7, or seat 1 when nobody holds it. */
  lemma StartTurn(room: Room, caller: Option<int>, deck: seq<Card>, now: int)
    requires StartGame(room, caller, deck, now).result.Ok?
    ensures var r := StartGame(room, caller, deck, now).room;
            (forall i :: 0 <= i < |r.seats| ==> 7 !in r.seats[i].hand) ==> r.current == 1
    ensures var r := StartGame(room, caller, deck, now).room;
            (exists i :: 0 <= i < |r.seats| && 7 in r.seats[i].hand) ==>
              exists i :: && 0 <= i < |r.seats| && 7 in r.seats[i].hand && r.current == r.seats[i].num
                          && forall j :: i < j < |r.seats| ==> 7 !in r.seats[j].hand
  {
    var r := StartGame(room, caller, deck, now).room;
    if k :| 0 <= k < |r.seats| && 7 in r.seats[k].hand {
      var i := LastHolder(r.seats, 7).value;
      assert 7 in r.seats[i].hand && r.current == r.seats[i].num;
    }
  }

  /** Card 7 held once among the hands lies in some seat's hand. */
  lemma SevenHolderExists(seats: seq<Seat>)
    requires HandsMultiset(SeatHands(seats))[7] == 1
    ensures exists i :: 0 <= i < |seats| && 7 in seats[i].hand
  {
    var hs := SeatHands(seats);
    SingleOwner(hs, 7);
    var i :| 0 <= i < |hs| && 7 in hs[i];
    assert 7 in seats[i].hand;
  }

  /** On numbered seats with card 7 held once and an empty desk, a turn
      given to a holder of card 7 is a turn for the only player who can
      open, with that card alone. */
  lemma FirstSevenHolder(r: Room)
    requires SeatsNumbered(r.seats) && HandsMultiset(SeatHands(r.seats))[7] == 1 && r.desk == EMPTY_DESK
    requires exists i :: 0 <= i < |r.seats| && 7 in r.seats[i].hand && r.current == r.seats[i].num
    ensures 1 <= r.current <= |r.seats|
    ensures 7 in r.seats[r.current - 1].hand
    ensures forall j :: 0 <= j < |r.seats| && j != r.current - 1 ==> 7 !in r.seats[j].hand
    ensures ValidMoves(r.seats[r.current - 1].hand, r.desk) == [7]
  {
    var hs := SeatHands(r.seats);
    var k :| 0 <= k < |r.seats| && 7 in r.seats[k].hand && r.current == r.seats[k].num;
    assert r.seats[k].num == k + 1;
    SingleOwner(hs, 7);
    forall j | 0 <= j < |r.seats| && j != k ensures 7 !in r.seats[j].hand {
      assert hs[j] == r.seats[j].hand && hs[k] == r.seats[k].hand;
    }
    HandsMultisetContains(hs, k);
    EmptyDeskHoldsNothing();
    OnlySevenOpens(r.seats[k].hand);
  }

  lemma SevenHeldOnce(room: Room, caller: Option<int>, deck: seq<Card>, now: int)
    requires IsShuffledDeck(deck) && SeatsNumbered(room.seats) && |room.seats| <= room.numPlayers
    requires StartGame(room, caller, deck, now).result.Ok?
    ensures var r := StartGame(room, caller, deck, now).room;
            && HandsMultiset(SeatHands(r.seats))[7] == 1
            && SeatsNumbered(r.seats)
            && r.desk == EMPTY_DESK
  {
    var r := StartGame(room, caller, deck, now).room;
    StartSeats(room, caller, deck, now);
    StartCards(room, caller, deck, now);
    SevenInHands(r, deck);
  }

  /** With the whole shuffled deck in play and nothing on the desk, the
      hands hold card 7 once. */
  lemma SevenInHands(r: Room, deck: seq<Card>)
    requires IsShuffledDeck(deck) && CardsInPlay(r) == multiset(deck) && r.desk == EMPTY_DESK
    ensures HandsMultiset(SeatHands(r.seats))[7] == 1
  {
    EmptyDeskHoldsNothing();
    ShuffledDeckHoldsEveryCardOnce(deck);
    assert HandsMultiset(SeatHands(r.seats)) == CardsInPlay(r);
  }
}

=== FILE: lobby.dfy ===
/** The lobby views of app/views.py: `create_room`, `join_room` and
    `check_room_status`. Rooms live in a store keyed by room code; a view
    that succeeds hands back the updated store and the session it writes. */
module Lobby {
  import opened Wrappers
  import opened Rooms

  type Store = map<string, Room>

  /** The session keys a lobby view writes: `player_name`, `room_code`,
      `player_num` and `game_id`. */
  datatype Session = Session(name: string, code: string, num: int, gameId: string)

  datatype Entered = Entered(store: Store, session: Session)

  /** `create_room` draws room codes of six characters from A-Z and 0-9. */
  const CODE_LENGTH: int := 6

  predicate CodeChar(ch: char)
  {
    'A' <= ch <= 'Z' || '0' <= ch <= '9'
  }

  predicate ValidRoomCode(code: string)
  {
    |code| == CODE_LENGTH && forall i :: 0 <= i < |code| ==> CodeChar(code[i])
  }

  /** Every room is filed under its own code. */
  ghost predicate StoreKeyed(store: Store)
  {
    forall c :: c in store ==> store[c].code == c
  }

  /** Python's `str.isspace` on the ASCII range. */
  predicate IsSpace(ch: char)
  {
    ch == ' ' || ch == '\t' || ch == '\n' || ch == '\r' || ch == '\U{B}' || ch == '\U{C}'
      || ch == '\U{1C}' || ch == '\U{1D}' || ch == '\U{1E}' || ch == '\U{1F}'
  }

  function StripLeft(s: string): (r: string)
    ensures |r| <= |s| && r == s[|s| - |r|..]
    ensures r == [] || !IsSpace(r[0])
    ensures forall i :: 0 <= i < |s| - |r| ==> IsSpace(s[i])
  {
    if |s| > 0 && IsSpace(s[0]) then StripLeft(s[1..]) else s
  }

  function StripRight(s: string): (r: string)
    ensures |r| <= |s| && r == s[..|r|]
    ensures r == [] || !IsSpace(r[|r| - 1])
    ensures forall i :: |r| <= i < |s| ==> IsSpace(s[i])
  {
    if |s| > 0 && IsSpace(s[|s| - 1]) then StripRight(s[..|s| - 1]) else s
  }

  /** `str.strip()`: white space cut from both ends. */
  function Strip(s: string): (r: string)
    ensures |r| <= |s|
    ensures r == [] || (!IsSpace(r[0]) && !IsSpace(r[|r| - 1]))
  {
    StripRight(StripLeft(s))
  }

  /** A stripped string strips to itself. */
  lemma StripIdempotent(s: string)
    ensures Strip(Strip(s)) == Strip(s)
  {
    var t := Strip(s);
    if t != [] {
      assert !IsSpace(t[0]) && !IsSpace(t[|t| - 1]);
      assert StripLeft(t) == t;
      assert StripRight(t) == t;
    }
  }

  function UpperChar(ch: char): char
  {
    if 'a' <= ch <= 'z' then (ch as int - 32) as char else ch
  }

  function LowerChar(ch: char): char
  {
    if 'A' <= ch <= 'Z' then (ch as int + 32) as char else ch
  }

  /** `str.upper()` on ASCII letters. */
  function Upper(s: string): (r: string)
    ensures |r| == |s|
  {
    if |s| == 0 then [] else [UpperChar(s[0])] + Upper(s[1..])
  }

  /** `str.lower()` on ASCII letters. */
  function Lower(s: string): (r: string)
    ensures |r| == |s|
  {
    if |s| == 0 then [] else [LowerChar(s[0])] + Lower(s[1..])
  }

  lemma {:induction false} UpperAt(s: string, i: int)
    requires 0 <= i < |s|
    ensures Upper(s)[i] == UpperChar(s[i])
  {
    if i > 0 {
      UpperAt(s[1..], i - 1);
    }
  }

  /** Case folding forgets exactly the case of ASCII letters. */
  lemma {:induction false} LowerUpper(s: string)
    ensures Lower(Lower(s)) == Lower(s)
    ensures Lower(Upper(s)) == Lower(s)
  {
    if |s| > 0 {
      LowerUpper(s[1..]);
    }
  }

  /** Upper-casing leaves white space alone and makes nothing white space. */
  lemma UpperCharSpace(ch: char)
    ensures IsSpace(UpperChar(ch)) == IsSpace(ch)
  {
  }

  lemma UpperHead(s: string)
    requires |s| > 0
    ensures Upper(s)[0] == UpperChar(s[0])
    ensures Upper(s)[1..] == Upper(s[1..])
  {
  }

  lemma {:induction false} UpperStripLeft(s: string)
    ensures StripLeft(Upper(s)) == Upper(StripLeft(s))
  {
    if |s| > 0 {
      UpperHead(s);
      UpperCharSpace(s[0]);
      if IsSpace(s[0]) {
        assert StripLeft(Upper(s)) == StripLeft(Upper(s[1..]));
        UpperStripLeft(s[1..]);
      }
    }
  }

  lemma {:induction false} UpperStripRight(s: string)
    ensures StripRight(Upper(s)) == Upper(StripRight(s))
  {
    if |s| > 0 {
      UpperAt(s, |s| - 1);
      if IsSpace(s[|s| - 1]) {
        UpperPrefix(s, |s| - 1);
        UpperStripRight(s[..|s| - 1]);
      }
    }
  }

  /** Upper-casing and stripping commute. */
  lemma UpperStrip(s: string)
    ensures Strip(Upper(s)) == Upper(Strip(s))
  {
    UpperStripLeft(s);
    UpperStripRight(StripLeft(s));
  }

  lemma {:induction false} UpperPrefix(s: string, k: int)
    requires 0 <= k <= |s|
    ensures Upper(s)[..k] == Upper(s[..k])
  {
    if k > 0 {
      assert s[1..][..k - 1] == s[..k][1..];
      UpperPrefix(s[1..], k - 1);
    }
  }

  /** A room code is its own upper case, also after lower-casing. */
  lemma {:induction false} CodeIsUpper(code: string)
    requires forall i :: 0 <= i < |code| ==> CodeChar(code[i])
    ensures Upper(code) == code && Upper(Lower(code)) == code
  {
    if |code| > 0 {
      assert CodeChar(code[0]);
      CodeIsUpper(code[1..]);
    }
  }

  /** Room codes are already upper case, so a room code typed in lower or
      upper case, with surrounding white space, normalises to the code. */
  lemma TypedCodeFindsRoom(code: string, typed: string)
    requires ValidRoomCode(code)
    requires Strip(typed) == Lower(code) || Strip(typed) == code
    ensures Strip(Upper(typed)) == code
  {
    UpperStrip(typed);
    CodeIsUpper(code);
  }

  /** `create_room`: `code` and `gameId` stand for the fresh random room
      code and game id. The host sits as player 1 with an empty hand. */
  function CreateRoom(store: Store, hostName: string, capacity: Option<int>,
                      code: string, gameId: string, now: int): (r: Result<Entered, Error>)
    requires ValidRoomCode(code) && code !in store
    ensures r.Err? <==> hostName == [] || capacity.None?
    ensures r.Err? ==> r.error == MissingInput
    ensures r.Ok? ==> r.value.store.Keys == store.Keys + {code}
    ensures r.Ok? ==> forall c :: c in store ==> r.value.store[c] == store[c]
    ensures r.Ok? ==> var room := r.value.store[code];
              && room.code == code && room.gameId == gameId && room.numPlayers == capacity.value
              && room.seats == [Seat(1, hostName, [], At(now))]
              && !room.started && !room.gameOver && room.current == 1 && room.createdAt == now
              && r.value.session == Session(hostName, code, 1, gameId)
  {
    if hostName == [] || capacity.None? then Err(MissingInput)
    else
      var room := Room(code, gameId, capacity.value, [Seat(1, hostName, [], At(now))], 1, map[],
                       false, false, None, now, None, None, false, []);
      Ok(Entered(store[code := room], Session(hostName, code, 1, gameId)))
  }

  /** Index of the first seat whose name matches `name` ignoring case. */
  function FindByName(seats: seq<Seat>, name: string): (r: Option<nat>)
    ensures r.Some? ==> r.value < |seats| && Lower(seats[r.value].name) == Lower(name)
    ensures r.Some? ==> forall j :: 0 <= j < r.value ==> Lower(seats[j].name) != Lower(name)
    ensures r.None? ==> forall j :: 0 <= j < |seats| ==> Lower(seats[j].name) != Lower(name)
  {
    if |seats| == 0 then None
    else if Lower(seats[0].name) == Lower(name) then Some(0)
    else match FindByName(seats[1..], name)
      case None => None
      case Some(i) => Some(i + 1)
  }

  /** The invitation of a room that has not started lapses after five
      minutes. */
  predicate InvitationLapsed(room: Room, now: int)
  {
    !room.started && now - room.createdAt > INVITATION_WINDOW
  }

  /** `join_room` once its inputs are normalised: `code` is the upper-cased,
      stripped room code and `name` the stripped player name. A name already
      seated (ignoring case) rejoins its seat, clearing its own pending
      disconnect; a new name takes the next seat of a room that has neither
      started nor filled up. */
  function Join(store: Store, code: string, name: string, now: int): (r: Result<Entered, Error>)
    ensures r.Ok? ==> code in store && r.value.store.Keys == store.Keys
    ensures r.Ok? ==> forall c :: c in store && c != code ==> r.value.store[c] == store[c]
    ensures r.Ok? ==> r.value.session.code == code && r.value.session.gameId == store[code].gameId
    ensures r.Ok? ==> |store[code].seats| <= |r.value.store[code].seats| &&
                      r.value.store[code].seats[..|store[code].seats|] == store[code].seats
    ensures r.Ok? ==> exists i :: 0 <= i < |r.value.store[code].seats| &&
                        r.value.store[code].seats[i].num == r.value.session.num &&
                        r.value.store[code].seats[i].name == r.value.session.name
  {
    if code == [] || name == [] then Err(MissingInput)
    else if code !in store then Err(RoomNotFound)
    else
      var room := store[code];
      if InvitationLapsed(room, now) then Err(InvitationExpired)
      else match FindByName(room.seats, name)
        case Some(i) =>
          var num := room.seats[i].num;
          var room' := if room.disconnected == Some(num) then room.(disconnected := None, timerStart := None) else room;
          Ok(Entered(store[code := room'], Session(room.seats[i].name, code, num, room.gameId)))
        case None =>
          if room.started then Err(AlreadyStarted)
          else if |room.seats| >= room.numPlayers then Err(RoomFull)
          else
            var num := |room.seats| + 1;
            var room' := room.(seats := room.seats + [Seat(num, name, [], At(now))]);
            assert room'.seats[|room.seats|].num == num;
            Ok(Entered(store[code := room'], Session(name, code, num, room.gameId)))
  }

  /** `join_room` on the posted room code and player name. */
  function JoinRoom(store: Store, rawCode: string, rawName: string, now: int): (r: Result<Entered, Error>)
    ensures Strip(Upper(rawCode)) == [] || Strip(rawName) == [] ==> r == Err(MissingInput)
    ensures r.Ok? ==> var c := r.value.session.code; c != [] && Strip(c) == c && Upper(c) == c
  {
    StripIdempotent(Upper(rawCode));
    UpperStrip(Upper(rawCode));
    UpperTwice(rawCode);
    Join(store, Strip(Upper(rawCode)), Strip(rawName), now)
  }

  /** Upper-casing twice is upper-casing once. */
  lemma {:induction false} UpperTwice(s: string)
    ensures Upper(Upper(s)) == Upper(s)
  {
    if |s| > 0 {
      UpperHead(s);
      UpperHead(Upper(s));
      UpperTwice(s[1..]);
    }
  }

  /** A room code typed in either case with surrounding white space joins
      the room it names, with the stripped player name. */
  lemma TypedCodeJoins(store: Store, code: string, typed: string, rawName: string, now: int)
    requires ValidRoomCode(code)
    requires Strip(typed) == Lower(code) || Strip(typed) == code
    ensures JoinRoom(store, typed, rawName, now) == Join(store, code, Strip(rawName), now)
  {
    TypedCodeFindsRoom(code, typed);
  }

  /** The refusals of `join_room`, in the order it checks them: missing
      input, unknown code, lapsed invitation, and, for a name not yet
      seated, a started game or a full room. */
  lemma JoinRefusals(store: Store, code: string, name: string, now: int)
    ensures var r := Join(store, code, name, now);
            && (code == [] || name == [] ==> r == Err(MissingInput))
            && (code != [] && name != [] && code !in store ==> r == Err(RoomNotFound))
            && (code != [] && name != [] && code in store ==>
                  && (InvitationLapsed(store[code], now) ==> r == Err(InvitationExpired))
                  && (!InvitationLapsed(store[code], now) && FindByName(store[code].seats, name).None? ==>
                        && (store[code].started ==> r == Err(AlreadyStarted))
                        && (!store[code].started && |store[code].seats| >= store[code].numPlayers ==> r == Err(RoomFull))
                        && (!store[code].started && |store[code].seats| < store[code].numPlayers ==> r.Ok?))
                  && (!InvitationLapsed(store[code], now) && FindByName(store[code].seats, name).Some? ==> r.Ok?))
  {
  }

  /** A join replaces the joined room and no other. */
  lemma JoinTouchesOneRoom(store: Store, code: string, name: string, now: int)
    requires Join(store, code, name, now).Ok?
    ensures var s := Join(store, code, name, now).value.store;
            s == store[code := s[code]]
  {
  }

  /** What joining does to the room: a rejoin keeps the seats and only
      clears the rejoiner's own disconnect; a new player is appended as the
      next number with an empty hand and a fresh ping, up to capacity. */
  lemma JoinEffect(store: Store, code: string, name: string, now: int)
    requires Join(store, code, name, now).Ok?
    ensures var room := store[code];
            var e := Join(store, code, name, now).value;
            var room' := e.store[code];
            && e.session.code == code && e.session.gameId == room.gameId
            && match FindByName(room.seats, name)
            case Some(i) =>
              && room'.seats == room.seats
              && e.session.num == room.seats[i].num && e.session.name == room.seats[i].name
              && (room.disconnected == Some(room.seats[i].num) ==> room'.disconnected == None)
              && (room.disconnected != Some(room.seats[i].num) ==> room' == room)
            case None =>
              && !room.started && |room.seats| < room.numPlayers
              && room'.seats == room.seats + [Seat(|room.seats| + 1, name, [], At(now))]
              && e.session.num == |room.seats| + 1 && e.session.name == name
              && room' == room.(seats := room'.seats)
  {
  }

  lemma JoinedRoomNumbered(store: Store, code: string, name: string, now: int)
    requires Join(store, code, name, now).Ok?
    requires SeatsNumbered(store[code].seats)
    ensures var room' := Join(store, code, name, now).value.store[code];
            && SeatsNumbered(room'.seats)
            && (|store[code].seats| <= store[code].numPlayers ==> |room'.seats| <= room'.numPlayers)
  {
    var room := store[code];
    var room' := Join(store, code, name, now).value.store[code];
    JoinEffect(store, code, name, now);
    if FindByName(room.seats, name).None? {
      assert room'.seats == room.seats + [Seat(|room.seats| + 1, name, [], At(now))];
    }
  }

  /** Joining keeps every room's seats numbered 1..N and within capacity. */
  lemma JoinKeepsNumbering(store: Store, code: string, name: string, now: int)
    requires Join(store, code, name, now).Ok?
    requires forall c :: c in store ==> SeatsNumbered(store[c].seats)
    ensures var s := Join(store, code, name, now).value.store;
            forall c :: c in s ==> SeatsNumbered(s[c].seats)
    ensures var s := Join(store, code, name, now).value.store;
            |store[code].seats| <= store[code].numPlayers ==> |s[code].seats| <= s[code].numPlayers
  {
    var s := Join(store, code, name, now).value.store;
    JoinTouchesOneRoom(store, code, name, now);
    JoinedRoomNumbered(store, code, name, now);
    forall c | c in s
      ensures SeatsNumbered(s[c].seats)
    {
      if c != code {
        assert s[c] == store[c];
      }
    }
  }

  lemma {:induction false} FindByNameFolds(seats: seq<Seat>, a: string, b: string)
    requires Lower(a) == Lower(b)
    ensures FindByName(seats, a) == FindByName(seats, b)
  {
    if |seats| > 0 {
      FindByNameFolds(seats[1..], a, b);
    }
  }

  lemma {:induction false} FindByNameAppend(seats: seq<Seat>, s: Seat, name: string)
    requires FindByName(seats, name).None? && Lower(s.name) == Lower(name)
    ensures FindByName(seats + [s], name) == Some(|seats|)
  {
    if |seats| > 0 {
      assert (seats + [s])[1..] == seats[1..] + [s];
      FindByNameAppend(seats[1..], s, name);
    } else {
      assert seats + [s] == [s];
    }
  }

  /** Where a join seats a name: the matching seat, or the new last one. */
  lemma JoinSeatsName(store: Store, code: string, name: string, now: int)
    requires Join(store, code, name, now).Ok?
    ensures var e := Join(store, code, name, now).value;
            var k := FindByName(e.store[code].seats, name);
            && k.Some?
            && e.store[code].seats[k.value].num == e.session.num
            && e.store[code].started == store[code].started
            && e.store[code].createdAt == store[code].createdAt
  {
    var room := store[code];
    JoinEffect(store, code, name, now);
    if FindByName(room.seats, name).None? {
      FindByNameAppend(room.seats, Seat(|room.seats| + 1, name, [], At(now)), name);
    }
  }

  /** Joining twice under the same name (up to letter case) lands in the
      same seat and adds nobody the second time, as long as the invitation
      has not lapsed in between. */
  lemma RejoinSameSeat(store: Store, code: string, name: string, name2: string, now: int, later: int)
    requires Join(store, code, name, now).Ok?
    requires Lower(name2) == Lower(name) && name2 != []
    requires later <= now || store[code].started
    ensures var e := Join(store, code, name, now).value;
            && Join(e.store, code, name2, later).Ok?
            && Join(e.store, code, name2, later).value.session.num == e.session.num
            && Join(e.store, code, name2, later).value.store[code].seats == e.store[code].seats
  {
    var e := Join(store, code, name, now).value;
    JoinRefusals(store, code, name, now);
    JoinSeatsName(store, code, name, now);
    FindByNameFolds(e.store[code].seats, name, name2);
    JoinRefusals(e.store, code, name2, later);
    JoinEffect(e.store, code, name2, later);
  }

  /** What `check_room_status` reports. */
  datatype Member = Member(name: string, num: int)
  datatype Status =
    | NotFound
    | Expired
    | Removed
    | Started(gameId: string)
    | Waiting(members: seq<Member>, numPlayers: int, gameId: string, timeLeft: int)

  function Members(seats: seq<Seat>): (r: seq<Member>)
    ensures |r| == |seats|
    ensures forall i :: 0 <= i < |seats| ==> r[i] == Member(seats[i].name, seats[i].num)
  {
    seq(|seats|, i requires 0 <= i < |seats| => Member(seats[i].name, seats[i].num))
  }

  /** `any(p['name'] == player_name for p in players_data)`; an absent
      session name matches nobody. */
  predicate Seated(seats: seq<Seat>, name: Option<string>)
  {
    name.Some? && exists i :: 0 <= i < |seats| && seats[i].name == name.value
  }

  /** `check_room_status`: an unstarted room whose invitation has lapsed is
      deleted; otherwise the caller learns whether they were removed,
      whether the game started, or who is waiting and how long is left. */
  function CheckRoomStatus(store: Store, code: string, sessionName: Option<string>, now: int): (r: (Store, Status))
    ensures r.1 == NotFound <==> code !in store
    ensures r.1 == Expired <==> code in store && InvitationLapsed(store[code], now)
    ensures r.1 == Expired ==> r.0 == store - {code}
    ensures r.1 != Expired ==> r.0 == store
    ensures r.1 == Removed <==> code in store && !InvitationLapsed(store[code], now)
                                && !Seated(store[code].seats, sessionName)
    ensures r.1.Started? <==> code in store && store[code].started && Seated(store[code].seats, sessionName)
    ensures r.1.Started? ==> r.1.gameId == store[code].gameId
    ensures r.1.Waiting? <==> && code in store && !InvitationLapsed(store[code], now) && !store[code].started
                              && Seated(store[code].seats, sessionName)
    ensures r.1.Waiting? ==> && code in store && !store[code].started
                             && Seated(store[code].seats, sessionName)
                             && r.1.gameId == store[code].gameId && r.1.numPlayers == store[code].numPlayers
                             && r.1.members == Members(store[code].seats)
                             && r.1.timeLeft == (if INVITATION_WINDOW - (now - store[code].createdAt) > 0
                                                 then INVITATION_WINDOW - (now - store[code].createdAt) else 0)
                             && r.1.timeLeft == INVITATION_WINDOW - (now - store[code].createdAt) >= 0
  {
    if code !in store then (store, NotFound)
    else
      var room := store[code];
      if InvitationLapsed(room, now) then (store - {code}, Expired)
      else if !Seated(room.seats, sessionName) then (store, Removed)
      else if room.started then (store, Started(room.gameId))
      else
        var left := INVITATION_WINDOW - (now - room.createdAt);
        (store, Waiting(Members(room.seats), room.numPlayers, room.gameId, if left > 0 then left else 0))
  }

  /** The waiting room counts down: the time left is the five-minute
      window less the time since creation, never negative, never more than
      five minutes once the room exists. */
  lemma StatusCountdown(store: Store, code: string, sessionName: Option<string>, now: int)
    requires CheckRoomStatus(store, code, sessionName, now).1.Waiting?
    requires store[code].createdAt <= now
    ensures var s := CheckRoomStatus(store, code, sessionName, now).1;
            && 0 <= s.timeLeft <= INVITATION_WINDOW
            && s.timeLeft == INVITATION_WINDOW - (now - store[code].createdAt)
            && s.members == Members(store[code].seats)
  {
  }

  /** `join_room` refuses a lapsed invitation exactly when
      `check_room_status` would delete the room. */
  lemma JoinLapsesWithStatus(store: Store, code: string, name: string, sessionName: Option<string>, now: int)
    requires code in store && code != [] && name != []
    ensures Join(store, code, name, now) == Err(InvitationExpired)
            <==> CheckRoomStatus(store, code, sessionName, now).1 == Expired
  {
    JoinRefusals(store, code, name, now);
  }

  /** The lobby views keep every room filed under its own code. */
  lemma CreateKeepsStoreKeyed(store: Store, hostName: string, capacity: Option<int>, code: string, gameId: string, now: int)
    requires StoreKeyed(store)
    requires ValidRoomCode(code) && code !in store
    requires CreateRoom(store, hostName, capacity, code, gameId, now).Ok?
    ensures StoreKeyed(CreateRoom(store, hostName, capacity, code, gameId, now).value.store)
  {
  }

  lemma JoinKeepsStoreKeyed(store: Store, code: string, name: string, now: int)
    requires StoreKeyed(store)
    requires Join(store, code, name, now).Ok?
    ensures StoreKeyed(Join(store, code, name, now).value.store)
  {
    JoinTouchesOneRoom(store, code, name, now);
    JoinEffect(store, code, name, now);
  }

  lemma StatusKeepsStoreKeyed(store: Store, code: string, sessionName: Option<string>, now: int)
    requires StoreKeyed(store)
    ensures StoreKeyed(CheckRoomStatus(store, code, sessionName, now).0)
  {
  }
}

=== FILE: moves.dfy ===
/** The move validator, `Game._get_valid_moves`. It compares card NAMES the
    way the source does ("7" + suit on the suit's lane, and so on); the
    lemmas restate its answer in terms of card numbers, ranks and suits. */
module Moves {
  import opened Wrappers
  import opened Cards
  import opened Rooms

  /** No lane holds a card (also true of a desk with no lanes at all). */
  predicate DeskIsEmpty(desk: Desk)
  {
    forall s :: s in desk ==> desk[s] == []
  }

  function Names(cards: seq<Card>): (r: seq<string>)
    ensures |r| == |cards|
    ensures forall i :: 0 <= i < |cards| ==> r[i] == CardName(cards[i])
  {
    seq(|cards|, i requires 0 <= i < |cards| => CardName(cards[i]))
  }

  /** `desk_suit_cards.get(suit, [])`: the names on one suit's lane. */
  function LaneNames(desk: Desk, suit: char): seq<string>
  {
    Names(Lane(desk, suit))
  }

  /** One pass of the loop over the hand when the desk is not empty. */
  predicate Placeable(c: Card, desk: Desk)
  {
    var name := CardName(c);
    PlaceableByName(RankPart(name), SuitPart(name), desk)
  }

  /** The loop body on the rank and suit parts of a card name: a seven is
      always placeable; any other rank needs its suit's seven on the desk. */
  function PlaceableByName(rank: string, suit: char, desk: Desk): (b: bool)
    ensures rank == "7" ==> b
    ensures b && rank != "7" ==> "7" + [suit] in LaneNames(desk, suit)
  {
    if rank == "7" then true
    else if ("7" + [suit]) !in LaneNames(desk, suit) then false
    else match RankValue(rank)
      // not reached from `Placeable`: the rank part of a card name is a rank
      // name (the code would raise `TypeError` on `None - 1` here)
      case None => false
      case Some(v) => NameOnLane(RankName(v - 1), suit, desk) || NameOnLane(RankName(v + 1), suit, desk)
  }

  /** `rank_name and (rank_name + suit) in desk_suit_cards.get(suit, [])` */
  predicate NameOnLane(rankName: Option<string>, suit: char, desk: Desk)
  {
    rankName.Some? && rankName.value + [suit] in LaneNames(desk, suit)
  }

  /** The held cards whose number is 7. */
  function SevensIn(hand: seq<Card>): (r: seq<int>)
    ensures forall i :: 0 <= i < |r| ==> r[i] in hand && r[i] == 7
    ensures forall c :: c in hand && c == 7 ==> c in r
  {
    if |hand| == 0 then []
    else (if hand[0] == 7 then [hand[0] as int] else []) + SevensIn(hand[1..])
  }

  /** The held cards that pass `keep`, in hand order. */
  function Kept(hand: seq<Card>, keep: Card -> bool): (r: seq<int>)
    ensures forall i :: 0 <= i < |r| ==> r[i] in hand
    ensures forall c :: c in hand ==> (c in r <==> keep(c))
  {
    if |hand| == 0 then []
    else (if keep(hand[0]) then [hand[0] as int] else []) + Kept(hand[1..], keep)
  }

  /** The held cards that pass `Placeable`, in hand order. */
  function PlaceableIn(hand: seq<Card>, desk: Desk): (r: seq<int>)
    ensures forall i :: 0 <= i < |r| ==> r[i] in hand
    ensures forall c :: c in hand ==> (c in r <==> Placeable(c, desk))
  {
    Kept(hand, (c: Card) => Placeable(c, desk))
  }

  /** `_get_valid_moves(player_hand, desk_cards)` */
  function ValidMoves(hand: seq<Card>, desk: Desk): (r: seq<int>)
    ensures forall i :: 0 <= i < |r| ==> r[i] in hand
  {
    if DeskIsEmpty(desk) then SevensIn(hand) else PlaceableIn(hand, desk)
  }

  /** A card is on the desk: it lies on its own suit's lane. */
  predicate OnDesk(c: Card, desk: Desk)
  {
    c in Lane(desk, SuitOf(c))
  }

  /** The rule of Badam Satti as the validator applies it on a non-empty
      desk, over numbers: a 7 is always playable; any other card needs its
      suit's 7 on the desk and a same-suit neighbour one rank below or above
      it, with no wrap-around below the ace or above the king. */
  predicate Legal(c: Card, desk: Desk)
  {
    var r := Rank(c);
    var s := SuitOf(c);
    r == 7
      || (OnDesk(CardAt(7, s), desk)
          && ((r > 1 && OnDesk(CardAt(r - 1, s), desk)) || (r < 13 && OnDesk(CardAt(r + 1, s), desk))))
  }

  /** Looking a card's name up among a lane's names is looking the card up
      in the lane. */
  lemma NameInLane(c: Card, lane: seq<Card>)
    ensures CardName(c) in Names(lane) <==> c in lane
  {
    if CardName(c) in Names(lane) {
      var i :| 0 <= i < |lane| && Names(lane)[i] == CardName(c);
      CardNameInjective(lane[i], c);
    }
  }

  /** The name of the card of rank r in a suit is that rank's name followed
      by the suit character. */
  lemma NameOfCardAt(r: int, suit: char)
    requires 1 <= r <= 13 && suit in CARD_SUITS
    ensures CardName(CardAt(r, suit)) == CARD_RANKS[r - 1] + [suit]
  {
    CardNameParts(CardAt(r, suit));
    var name := CardName(CardAt(r, suit));
    assert name == RankPart(name) + [SuitPart(name)];
  }

  /** The rank-v card of a suit is on the desk exactly when its name is on
      that suit's lane. */
  lemma RankOnLane(v: int, suit: char, desk: Desk)
    requires 1 <= v <= 13 && suit in CARD_SUITS
    ensures RankName(v).value + [suit] in LaneNames(desk, suit) <==> OnDesk(CardAt(v, suit), desk)
  {
    NameOfCardAt(v, suit);
    NameInLane(CardAt(v, suit), Lane(desk, suit));
  }

  lemma PlaceableUnfold(c: Card, desk: Desk)
    ensures Placeable(c, desk) == PlaceableByName(CARD_RANKS[Rank(c) - 1], SuitOf(c), desk)
  {
    CardNameParts(c);
  }

  lemma ByNameUnfold(rank: string, suit: char, desk: Desk, v: int)
    requires rank != "7" && RankValue(rank) == Some(v)
    ensures PlaceableByName(rank, suit, desk)
         == (("7" + [suit]) in LaneNames(desk, suit)
             && (NameOnLane(RankName(v - 1), suit, desk) || NameOnLane(RankName(v + 1), suit, desk)))
  {
  }

  lemma NeighbourOnLane(v: int, r: int, suit: char, desk: Desk)
    requires suit in CARD_SUITS
    ensures NameOnLane(RankName(v), suit, desk) <==> 1 <= v <= 13 && OnDesk(CardAt(v, suit), desk)
  {
    if 1 <= v <= 13 {
      RankOnLane(v, suit, desk);
    }
  }

  lemma RankNameFacts(r: int)
    requires 1 <= r <= 13
    ensures CARD_RANKS[r - 1] == "7" <==> r == 7
    ensures RankValue(CARD_RANKS[r - 1]) == Some(r)
  {
    RankRoundTrip();
    assert CARD_RANKS[6] == "7";
    if CARD_RANKS[r - 1] == "7" {
      RankStringsInjective(r - 1, 6);
    }
  }

  /** The suit's 7 is on the desk exactly when the name "7" + suit is on
      the suit's lane. */
  lemma SevenOnLane(suit: char, desk: Desk)
    requires suit in CARD_SUITS
    ensures ("7" + [suit]) in LaneNames(desk, suit) <==> OnDesk(CardAt(7, suit), desk)
  {
    assert RankName(7) == Some("7");
    RankOnLane(7, suit, desk);
  }

  /** For a card other than a 7, `Placeable` is the source's two-part test
      on its rank value. */
  lemma PlaceableNotSeven(c: Card, desk: Desk)
    requires Rank(c) != 7
    ensures Placeable(c, desk)
         == (("7" + [SuitOf(c)]) in LaneNames(desk, SuitOf(c))
             && (NameOnLane(RankName(Rank(c) - 1), SuitOf(c), desk)
                 || NameOnLane(RankName(Rank(c) + 1), SuitOf(c), desk)))
  {
    PlaceableUnfold(c, desk);
    RankNameFacts(Rank(c));
    ByNameUnfold(CARD_RANKS[Rank(c) - 1], SuitOf(c), desk, Rank(c));
  }

  lemma PlaceableSeven(c: Card, desk: Desk)
    requires Rank(c) == 7
    ensures Placeable(c, desk)
  {
    PlaceableUnfold(c, desk);
    RankNameFacts(Rank(c));
  }

  /** For a card other than a 7, `Placeable` in terms of cards on the desk. */
  lemma PlaceableByNeighbours(c: Card, desk: Desk)
    requires Rank(c) != 7
    ensures Placeable(c, desk)
         == (OnDesk(CardAt(7, SuitOf(c)), desk)
             && ((Rank(c) > 1 && OnDesk(CardAt(Rank(c) - 1, SuitOf(c)), desk))
                 || (Rank(c) < 13 && OnDesk(CardAt(Rank(c) + 1, SuitOf(c)), desk))))
  {
    var r := Rank(c);
    var s := SuitOf(c);
    PlaceableNotSeven(c, desk);
    SevenOnLane(s, desk);
    NeighbourOnLane(r - 1, r, s, desk);
    NeighbourOnLane(r + 1, r, s, desk);
  }

  /** The name-based test of the source and the numeric rule agree. */
  lemma PlaceableIffLegal(c: Card, desk: Desk)
    ensures Placeable(c, desk) <==> Legal(c, desk)
  {
    if Rank(c) == 7 {
      PlaceableSeven(c, desk);
    } else {
      PlaceableByNeighbours(c, desk);
    }
  }

  /** On an empty desk (or a desk with no lanes) the valid moves are exactly
      the held cards numbered 7: only the 7 of hearts opens the game. */
  lemma EmptyDeskOnlySevenOfHearts(hand: seq<Card>, desk: Desk)
    requires DeskIsEmpty(desk)
    ensures forall x :: x in ValidMoves(hand, desk) <==> x in hand && x == 7
  {
  }

  /** On a non-empty desk the valid moves are exactly the held cards that are
      legal by the numeric rule; in particular every held 7 is valid. */
  lemma ValidMovesOnDesk(hand: seq<Card>, desk: Desk)
    requires !DeskIsEmpty(desk)
    ensures forall c: Card :: c in ValidMoves(hand, desk) <==> c in hand && Legal(c, desk)
    ensures forall c: Card :: c in hand && Rank(c) == 7 ==> c in ValidMoves(hand, desk)
  {
    forall c: Card
      ensures c in ValidMoves(hand, desk) <==> c in hand && Legal(c, desk)
    {
      PlaceableIffLegal(c, desk);
    }
  }
}

=== FILE: rooms.dfy ===
/** The room record (`Game` in src/app/models.py) with its JSON fields
    decoded: the seat list (`players_data`), the desk lanes (`desk_cards`)
    and the score list (`game_scores`). Times are integer seconds. */
module Rooms {
  import opened Wrappers
  import opened Cards
  import opened Deck

  /** A seat's `last_ping_time`: missing or empty, not a readable timestamp,
      or a time in seconds. */
  datatype Ping = NoPing | Unparsable | At(t: int)

  /** One entry of `players_data`. */
  datatype Seat = Seat(num: int, name: string, hand: seq<Card>, ping: Ping)

  /** One entry of `game_scores`. */
  datatype ScoreEntry = ScoreEntry(name: string, num: int, score: int, remaining: nat)

  /** `desk_cards`: suit character to the cards played in that suit. */
  type Desk = map<char, seq<Card>>

  datatype Room = Room(
    code: string,
    gameId: string,
    numPlayers: int,
    seats: seq<Seat>,
    current: int,
    desk: Desk,
    started: bool,
    gameOver: bool,
    winner: Option<int>,
    createdAt: int,
    disconnected: Option<int>,
    timerStart: Option<int>,
    terminated: bool,
    scores: seq<ScoreEntry>)

  /** The failures the views report to their caller. `Internal` stands for an
      exception caught by a view's generic handler, `Diverges` for a call
      that never returns. */
  datatype Error =
    | MissingInput
    | RoomNotFound
    | InvitationExpired
    | AlreadyStarted
    | RoomFull
    | PlayerNotFound
    | Paused
    | NotYourTurn
    | CardNotSpecified
    | InvalidMove
    | CardNotHeld
    | NotHost
    | NotAllJoined
    | CannotRemoveSelf
    | TargetNotFound
    | SessionExpired
    | NotDisconnectedPlayer
    | NoLongerInGame
    | Internal
    | Diverges

  const RECONNECT_WINDOW: int := 120
  const INVITATION_WINDOW: int := 300
  const PING_TIMEOUT: int := 20

  /** Python truthiness of an optional integer: None and 0 are false. */
  predicate Truthy(o: Option<int>)
  {
    o.Some? && o.value != 0
  }

  /** Index of the first seat carrying number `num`. */
  function FindSeat(seats: seq<Seat>, num: int): (r: Option<nat>)
    ensures r.Some? ==> r.value < |seats| && seats[r.value].num == num
    ensures r.Some? ==> forall j :: 0 <= j < r.value ==> seats[j].num != num
    ensures r.None? ==> forall j :: 0 <= j < |seats| ==> seats[j].num != num
  {
    if |seats| == 0 then None
    else if seats[0].num == num then Some(0)
    else match FindSeat(seats[1..], num)
      case None => None
      case Some(i) => Some(i + 1)
  }

  /** Seats are numbered 1..N in list order. */
  ghost predicate SeatsNumbered(seats: seq<Seat>)
  {
    forall i :: 0 <= i < |seats| ==> seats[i].num == i + 1
  }

  lemma FindSeatNumbered(seats: seq<Seat>, num: int)
    requires SeatsNumbered(seats)
    ensures 1 <= num <= |seats| ==> FindSeat(seats, num) == Some(num - 1)
    ensures !(1 <= num <= |seats|) ==> FindSeat(seats, num) == None
  {
    if 1 <= num <= |seats| {
      assert seats[num - 1].num == num;
    }
  }

  /** Python's `a // b`, rounding toward negative infinity. */
  function FloorDiv(a: int, b: int): int
    requires b != 0
  {
    if b > 0 then a / b else (-a) / (-b)
  }

  /** Python's `a % b`, whose result takes the sign of `b`; with `//` it
      splits `a` as `(a // b) * b + a % b`. */
  function FloorMod(a: int, b: int): (r: int)
    requires b != 0
    ensures b > 0 ==> 0 <= r < b
    ensures b < 0 ==> b < r <= 0
    ensures b > 0 && 0 <= a < b ==> r == a
    ensures a == FloorDiv(a, b) * b + r
  {
    if b > 0 then
      DivMod(a, b);
      a % b
    else
      DivMod(-a, -b);
      NegatedProduct((-a) / (-b), b);
      -((-a) % (-b))
  }

  /** Euclidean division splits a number by a positive divisor. */
  lemma DivMod(a: int, b: int)
    requires b > 0
    ensures a == (a / b) * b + a % b
  {
  }

  lemma NegatedProduct(q: int, b: int)
    ensures q * -b == -(q * b)
  {
  }

  /** `(current_player % num_players) + 1`; a zero player count raises
      ZeroDivisionError, reported as `Internal`. */
  function NextTurn(current: int, numPlayers: int): (r: Result<int, Error>)
    ensures r.Err? <==> numPlayers == 0
    ensures numPlayers >= 1 ==> r.Ok? && 1 <= r.value <= numPlayers
    ensures numPlayers < 0 ==> r.Ok? && numPlayers + 1 < r.value <= 1
    ensures numPlayers != 0 ==> r.Ok? && current == FloorDiv(current, numPlayers) * numPlayers + (r.value - 1)
    ensures numPlayers >= 1 && 1 <= current < numPlayers ==> r == Ok(current + 1)
    ensures numPlayers >= 1 && current == numPlayers ==> r == Ok(1)
  {
    if numPlayers == 0 then Err(Internal) else Ok(FloorMod(current, numPlayers) + 1)
  }

  /** The cards of a desk lane, or none when the lane is missing. */
  function Lane(desk: Desk, suit: char): seq<Card>
  {
    if suit in desk then desk[suit] else []
  }

  /** All cards on the four suit lanes of the desk. */
  function DeskMultiset(desk: Desk): multiset<Card>
  {
    multiset(Lane(desk, 'H')) + multiset(Lane(desk, 'D'))
      + multiset(Lane(desk, 'C')) + multiset(Lane(desk, 'S'))
  }

  function SeatHands(seats: seq<Seat>): (hs: seq<seq<Card>>)
    ensures |hs| == |seats|
    ensures forall i :: 0 <= i < |seats| ==> hs[i] == seats[i].hand
  {
    seq(|seats|, i requires 0 <= i < |seats| => seats[i].hand)
  }

  /** Every card in the room: all hands plus the desk. */
  function CardsInPlay(room: Room): multiset<Card>
  {
    HandsMultiset(SeatHands(room.seats)) + DeskMultiset(room.desk)
  }
}

=== FILE: snapshots.dfy ===
/** What `get_game_state` shows a player: a consistent picture of the room
    when no timeout removal happens during the poll; the end of a game
    terminated by a timeout; nothing of the other players' hands beyond
    their sizes; and, after a timeout renumbering, the hand of whoever now
    carries the number the caller's session still holds. */
module Snapshots {
  import opened Wrappers
  import opened Cards
  import opened Rooms
  import opened Moves
  import opened Supervisor
  import opened Actions
  import opened Invariants

  /** Supervision without a due timeout changes only pings and the
      disconnect fields. */
  lemma SuperviseChangesPingsOnly(room: Room, now: int)
    requires !TerminationDue(room, now)
    ensures var r := Supervise(room, now);
            && r == room.(seats := r.seats, disconnected := r.disconnected, timerStart := r.timerStart)
            && PingsOnly(room.seats, r.seats)
  {
    InactivityChangesPingsOnly(room, now, PING_TIMEOUT);
  }

  lemma SamePlayersInfo(a: seq<Seat>, b: seq<Seat>)
    requires PingsOnly(a, b)
    ensures PlayersInfo(a) == PlayersInfo(b)
  {
    assert forall j :: 0 <= j < |a| ==> b[j].num == a[j].num && b[j].name == a[j].name && b[j].hand == a[j].hand;
  }

  /** Without a timeout removal during the poll, a seated caller gets a
      snapshot of the room as stored afterwards: its player list, the
      caller's own hand, and the valid moves of that hand on that desk. */
  lemma StateConsistent(room: Room, p: int, now: int)
    requires !TerminationDue(room, now)
    requires FindSeat(room.seats, p).Some?
    ensures var r := GetGameState(room, Some(p), now);
            && r.result.Ok?
            && var s := r.result.value;
               && FindSeat(r.room.seats, p) == FindSeat(room.seats, p)
               && s.players == PlayersInfo(r.room.seats)
               && s.yourHand == r.room.seats[FindSeat(r.room.seats, p).value].hand
               && s.validMoves == ValidMoves(s.yourHand, s.desk)
               && s.desk == r.room.desk && s.current == r.room.current
               && s.disconnected == r.room.disconnected
  {
    var r2 := Supervise(room, now);
    SuperviseChangesPingsOnly(room, now);
    PingsOnlyKeeps(room.seats, r2.seats, p);
    SamePlayersInfo(room.seats, r2.seats);
    var i := FindSeat(room.seats, p).value;
    assert r2.seats[i].hand == room.seats[i].hand;
  }

  /** When the reconnect window runs out with fewer than two other seats,
      the poll reports the game over, terminated, without a winner, with
      the score list, and nobody's seat changes. */
  lemma StateReportsTermination(room: Room, p: int, now: int)
    requires TerminationDue(room, now)
    requires |Remaining(room.seats, room.disconnected.value)| < 2
    requires FindSeat(room.seats, p).Some?
    ensures var r := GetGameState(room, Some(p), now);
            && r.room.seats == room.seats
            && r.result.Ok?
            && r.result.value.gameOver && r.result.value.terminated
            && r.result.value.winner.None?
            && r.result.value.scores == Some(room.scores)
            && r.result.value.reconnectTimeLeft == 0
  {
  }

  /** The inactivity half of supervision changes only pings and the
      disconnect fields, and starts the reconnect timer at `now` if at all. */
  lemma InactivityAfterTermination(room: Room, now: int)
    ensures var r1 := CheckTermination(room, now);
            var r := Supervise(room, now);
            && r == r1.(seats := r.seats, disconnected := r.disconnected, timerStart := r.timerStart)
            && PingsOnly(r1.seats, r.seats)
            && (r1.disconnected.None? && r1.timerStart.None? ==> r.timerStart.None? || r.timerStart == Some(now))
  {
    var r1 := CheckTermination(room, now);
    InactivityChangesPingsOnly(r1, now, PING_TIMEOUT);
    if r1.disconnected.None? && r1.started && !r1.gameOver {
      InactivityReportsFirstStale(r1, now, PING_TIMEOUT);
    }
  }

  /** A timeout removal from a numbered seat list moves the seats after the
      removed one up one place, with their hands. */
  lemma TerminationShiftsHands(room: Room, now: int)
    requires SeatsNumbered(room.seats) && TerminationDue(room, now)
    requires 1 <= room.disconnected.value <= |room.seats| && |room.seats| >= 3
    ensures var r := CheckTermination(room, now);
            var d := room.disconnected.value;
            && SeatsNumbered(r.seats) && |r.seats| == |room.seats| - 1
            && (forall k :: d - 1 <= k < |r.seats| ==> r.seats[k].hand == room.seats[k + 1].hand)
  {
    TerminationIsDropSeat(room, now);
    DropSeatShifts(room, room.disconnected.value);
  }

  lemma DropSeatShifts(room: Room, d: int)
    requires 1 <= d <= |room.seats|
    ensures var seats := DropSeat(room, d).seats;
            && SeatsNumbered(seats) && |seats| == |room.seats| - 1
            && (forall k :: d - 1 <= k < |seats| ==> seats[k].hand == room.seats[k + 1].hand)
  {
    var rem := room.seats[..d - 1] + room.seats[d..];
    assert forall k :: d - 1 <= k < |rem| ==> rem[k] == room.seats[k + 1];
  }

  /** The room after a poll that removes player d on timeout from a
      numbered seat list: renumbered, the seats after d moved up one place
      with their hands, and no reconnect timer running except one started
      by that poll. */
  lemma SuperviseRemoves(room: Room, now: int)
    requires SeatsNumbered(room.seats) && TerminationDue(room, now)
    requires 1 <= room.disconnected.value <= |room.seats| && |room.seats| >= 3
    ensures var r := Supervise(room, now);
            var d := room.disconnected.value;
            && SeatsNumbered(r.seats) && |r.seats| == |room.seats| - 1 && r.desk == room.desk
            && (forall k :: d - 1 <= k < |r.seats| ==> r.seats[k].hand == room.seats[k + 1].hand)
            && (r.timerStart.None? || r.timerStart == Some(now))
  {
    var r1 := CheckTermination(room, now);
    var r := Supervise(room, now);
    TerminationShiftsHands(room, now);
    InactivityAfterTermination(room, now);
    PingsKeepShift(room.seats, r1.seats, r.seats, room.disconnected.value);
  }

  /** Changing pings keeps a shifted, numbered seat list shifted and
      numbered. */
  lemma PingsKeepShift(before: seq<Seat>, mid: seq<Seat>, after: seq<Seat>, d: int)
    requires PingsOnly(mid, after) && SeatsNumbered(mid)
    requires |before| == |mid| + 1 && 1 <= d
    requires forall k :: d - 1 <= k < |mid| ==> mid[k].hand == before[k + 1].hand
    ensures SeatsNumbered(after) && |after| == |mid|
    ensures forall k :: d - 1 <= k < |after| ==> after[k].hand == before[k + 1].hand
  {
    PingsOnlyKeeps(mid, after, 0);
    assert forall k :: 0 <= k < |after| ==> after[k].hand == mid[k].hand;
  }

  /** The caller's session keeps its number across a timeout renumbering.
      On a numbered seat list where player d times out and the caller sat
      at p, after d and before the last seat: the poll that removes d shows
      the caller their own hand but the valid moves of the player who sat
      at p + 1 (now numbered p), and the next poll within the reconnect
      window shows that player's hand as the caller's own. */
  lemma StaleSessionSeesNextHand(room: Room, p: int, now: int, later: int)
    requires SeatsNumbered(room.seats) && TerminationDue(room, now)
    requires 1 <= room.disconnected.value < p < |room.seats|
    requires later < now + RECONNECT_WINDOW
    ensures var r := GetGameState(room, Some(p), now);
            && r.result.Ok?
            && r.result.value.yourHand == room.seats[p - 1].hand
            && r.result.value.validMoves == ValidMoves(room.seats[p].hand, room.desk)
            && GetGameState(r.room, Some(p), later).result.Ok?
            && GetGameState(r.room, Some(p), later).result.value.yourHand == room.seats[p].hand
  {
    StaleFirstPoll(room, p, now);
    StaleNextPoll(room, p, now, later);
  }

  lemma StaleFirstPoll(room: Room, p: int, now: int)
    requires SeatsNumbered(room.seats) && TerminationDue(room, now)
    requires 1 <= room.disconnected.value < p < |room.seats|
    ensures var r := GetGameState(room, Some(p), now);
            && r.room == Supervise(room, now)
            && r.result.Ok?
            && r.result.value.yourHand == room.seats[p - 1].hand
            && r.result.value.validMoves == ValidMoves(room.seats[p].hand, room.desk)
  {
    StaleSeatFound(room, p, now);
    StaleSeatMoves(room, p, now);
  }

  /** After the removal the caller's number is carried by the next seat. */
  lemma StaleSeatFound(room: Room, p: int, now: int)
    requires SeatsNumbered(room.seats) && TerminationDue(room, now)
    requires 1 <= room.disconnected.value < p < |room.seats|
    ensures FindSeat(room.seats, p) == Some(p - 1)
    ensures FindSeat(Supervise(room, now).seats, p) == Some(p - 1)
    ensures Supervise(room, now).seats[p - 1].hand == room.seats[p].hand
    ensures Supervise(room, now).desk == room.desk
  {
    var r2 := Supervise(room, now);
    SuperviseRemoves(room, now);
    FindSeatNumbered(room.seats, p);
    FindSeatNumbered(r2.seats, p);
  }

  lemma StaleSeatMoves(room: Room, p: int, now: int)
    requires FindSeat(room.seats, p) == Some(p - 1) && p < |room.seats|
    requires FindSeat(Supervise(room, now).seats, p) == Some(p - 1)
    requires Supervise(room, now).seats[p - 1].hand == room.seats[p].hand
    requires Supervise(room, now).desk == room.desk
    ensures var r := GetGameState(room, Some(p), now);
            && r.room == Supervise(room, now)
            && r.result.Ok?
            && r.result.value.yourHand == room.seats[p - 1].hand
            && r.result.value.validMoves == ValidMoves(room.seats[p].hand, room.desk)
  {
    PollReadsSeat(room, p, now, p - 1);
  }

  /** A poll by a seated caller whose number is still carried after
      supervision answers with the moves of the seat carrying it. */
  lemma PollReadsSeat(room: Room, p: int, now: int, j: nat)
    requires FindSeat(room.seats, p).Some?
    requires FindSeat(Supervise(room, now).seats, p) == Some(j)
    ensures var r := GetGameState(room, Some(p), now);
            && r.room == Supervise(room, now)
            && r.result.Ok?
            && r.result.value.yourHand == room.seats[FindSeat(room.seats, p).value].hand
            && r.result.value.validMoves == ValidMoves(r.room.seats[j].hand, r.room.desk)
  {
  }

  lemma StaleNextPoll(room: Room, p: int, now: int, later: int)
    requires SeatsNumbered(room.seats) && TerminationDue(room, now)
    requires 1 <= room.disconnected.value < p < |room.seats|
    requires later < now + RECONNECT_WINDOW
    ensures var r := GetGameState(Supervise(room, now), Some(p), later);
            && r.result.Ok?
            && r.result.value.yourHand == room.seats[p].hand
  {
    SuperviseRemoves(room, now);
    PollShowsSeat(Supervise(room, now), p, later);
  }

  /** On a numbered seat list with no due timeout, a poll shows the caller
      the hand of the seat carrying their number. */
  lemma PollShowsSeat(room: Room, p: int, now: int)
    requires SeatsNumbered(room.seats) && 1 <= p <= |room.seats|
    requires room.timerStart.None? || now - room.timerStart.value < RECONNECT_WINDOW
    ensures GetGameState(room, Some(p), now).result.Ok?
    ensures GetGameState(room, Some(p), now).result.value.yourHand == room.seats[p - 1].hand
  {
    FindSeatNumbered(room.seats, p);
    StateConsistent(room, p, now);
  }

  /** In the same situation, a caller who sat last finds no seat with their
      number after the renumbering: the poll fails after the removal has
      been stored. */
  lemma StaleSessionLosesSeat(room: Room, now: int)
    requires SeatsNumbered(room.seats) && TerminationDue(room, now)
    requires 1 <= room.disconnected.value < |room.seats| && |room.seats| >= 3
    ensures var r := GetGameState(room, Some(|room.seats|), now);
            && r.result == Err(Internal)
            && r.room == Supervise(room, now)
            && |r.room.seats| == |room.seats| - 1
  {
    StaleSeatGone(room, now);
  }

  lemma StaleSeatGone(room: Room, now: int)
    requires SeatsNumbered(room.seats) && TerminationDue(room, now)
    requires 1 <= room.disconnected.value < |room.seats| && |room.seats| >= 3
    ensures FindSeat(room.seats, |room.seats|).Some?
    ensures FindSeat(Supervise(room, now).seats, |room.seats|).None?
    ensures |Supervise(room, now).seats| == |room.seats| - 1
  {
    var p := |room.seats|;
    SuperviseRemoves(room, now);
    FindSeatNumbered(room.seats, p);
    FindSeatNumbered(Supervise(room, now).seats, p);
  }

  /** `b` looks like `a` to the player numbered `p`: the seats differ at
      most in the hands of other players, and those hands keep their
      sizes. */
  ghost predicate HiddenFrom(a: seq<Seat>, b: seq<Seat>, p: int)
  {
    |a| == |b|
    && forall j :: 0 <= j < |a| ==>
         && b[j] == a[j].(hand := b[j].hand)
         && |b[j].hand| == |a[j].hand|
         && (a[j].num == p ==> b[j].hand == a[j].hand)
  }

  lemma HiddenSameNumbers(a: seq<Seat>, b: seq<Seat>, p: int, q: int)
    requires HiddenFrom(a, b, p)
    ensures FindSeat(a, q) == FindSeat(b, q)
  {
    assert forall j :: 0 <= j < |a| ==> a[j].num == b[j].num;
    FindSeatSameNumbers(a, b, q);
  }

  /** A ping update acts on two such rooms alike. */
  lemma UpdateHidesHands(room1: Room, room2: Room, q: int, p: int, now: int)
    requires room2 == room1.(seats := room2.seats) && HiddenFrom(room1.seats, room2.seats, p)
    ensures var u1 := UpdatePingTime(room1, q, now);
            var u2 := UpdatePingTime(room2, q, now);
            u2 == u1.(seats := u2.seats) && HiddenFrom(u1.seats, u2.seats, p)
  {
    HiddenSameNumbers(room1.seats, room2.seats, p, q);
  }

  /** The inactivity scan acts on two such rooms alike: it reads only seat
      numbers and pings. */
  lemma {:induction false} ScanHidesHands(room1: Room, room2: Room, pending1: seq<Seat>, pending2: seq<Seat>,
                                          p: int, now: int, timeout: int)
    requires room2 == room1.(seats := room2.seats) && HiddenFrom(room1.seats, room2.seats, p)
    requires HiddenFrom(pending1, pending2, p)
    decreases |pending1|
    ensures var r1 := ScanPings(room1, pending1, now, timeout);
            var r2 := ScanPings(room2, pending2, now, timeout);
            r2 == r1.(seats := r2.seats) && HiddenFrom(r1.seats, r2.seats, p)
  {
    if |pending1| > 0 {
      var t1 := pending1[1..];
      var t2 := pending2[1..];
      assert pending1[0].num == pending2[0].num && pending1[0].ping == pending2[0].ping;
      assert HiddenFrom(t1, t2, p) by {
        forall j | 0 <= j < |t1|
          ensures t2[j] == t1[j].(hand := t2[j].hand) && |t2[j].hand| == |t1[j].hand|
          ensures t1[j].num == p ==> t2[j].hand == t1[j].hand
        {
          assert t1[j] == pending1[j + 1] && t2[j] == pending2[j + 1];
        }
      }
      match pending1[0].ping
      case NoPing =>
        ScanHidesHands(room1, room2, t1, t2, p, now, timeout);
      case Unparsable =>
        var q := pending1[0].num;
        UpdateHidesHands(room1, room2, q, p, now);
        ScanHidesHands(UpdatePingTime(room1, q, now), UpdatePingTime(room2, q, now), t1, t2, p, now, timeout);
      case At(t) =>
        if now - t <= timeout {
          ScanHidesHands(room1, room2, t1, t2, p, now, timeout);
        }
    }
  }

  /** Supervision acts on two such rooms alike when no timeout removal is
      due. */
  lemma SuperviseHidesHands(room1: Room, room2: Room, p: int, now: int)
    requires room2 == room1.(seats := room2.seats) && HiddenFrom(room1.seats, room2.seats, p)
    requires !TerminationDue(room1, now)
    ensures var s1 := Supervise(room1, now);
            var s2 := Supervise(room2, now);
            s2 == s1.(seats := s2.seats) && HiddenFrom(s1.seats, s2.seats, p)
  {
    if room1.disconnected.None? && room1.started && !room1.gameOver {
      ScanHidesHands(room1, room2, room1.seats, room2.seats, p, now, PING_TIMEOUT);
    }
  }

  lemma HiddenPlayersInfo(a: seq<Seat>, b: seq<Seat>, p: int)
    requires HiddenFrom(a, b, p)
    ensures PlayersInfo(a) == PlayersInfo(b)
  {
    assert forall j :: 0 <= j < |a| ==> b[j].num == a[j].num && b[j].name == a[j].name && |b[j].hand| == |a[j].hand|;
  }

  /** The snapshot a seated caller gets, spelled out field by field. */
  lemma SnapshotFields(room: Room, p: int, now: int)
    requires FindSeat(room.seats, p).Some? && FindSeat(Supervise(room, now).seats, p).Some?
    ensures var s := Supervise(room, now);
            var i := FindSeat(room.seats, p).value;
            var j := FindSeat(s.seats, p).value;
            GetGameState(room, Some(p), now).result
            == Ok(Snapshot(s.code, s.numPlayers, PlayersInfo(room.seats), s.current, s.desk,
                           room.seats[i].hand, p, ValidMoves(s.seats[j].hand, s.desk),
                           s.gameOver, s.winner, s.started, s.disconnected, s.terminated,
                           if s.gameOver then Some(s.scores) else None, ReconnectTimeLeft(s, now)))
  {
  }

  /** Two rooms that differ only in the other players' cards (hand for hand
      of the same size) give a player the same answer, as long as no
      timeout removal happens during the poll: a player learns nothing of
      the other hands beyond their sizes. */
  lemma StateHidesOtherHands(room1: Room, room2: Room, p: int, now: int)
    requires room2 == room1.(seats := room2.seats) && HiddenFrom(room1.seats, room2.seats, p)
    requires !TerminationDue(room1, now)
    ensures GetGameState(room1, Some(p), now).result == GetGameState(room2, Some(p), now).result
  {
    HiddenSameNumbers(room1.seats, room2.seats, p, p);
    SuperviseHidesHands(room1, room2, p, now);
    var s1 := Supervise(room1, now);
    var s2 := Supervise(room2, now);
    HiddenSameNumbers(s1.seats, s2.seats, p, p);
    if FindSeat(room1.seats, p).Some? && FindSeat(s1.seats, p).Some? {
      HiddenShown(room1, room2, p, now);
    }
  }

  lemma HiddenShown(room1: Room, room2: Room, p: int, now: int)
    requires room2 == room1.(seats := room2.seats) && HiddenFrom(room1.seats, room2.seats, p)
    requires Supervise(room2, now) == Supervise(room1, now).(seats := Supervise(room2, now).seats)
    requires HiddenFrom(Supervise(room1, now).seats, Supervise(room2, now).seats, p)
    requires FindSeat(room1.seats, p).Some? && FindSeat(Supervise(room1, now).seats, p).Some?
    requires FindSeat(room1.seats, p) == FindSeat(room2.seats, p)
    requires FindSeat(Supervise(room1, now).seats, p) == FindSeat(Supervise(room2, now).seats, p)
    ensures GetGameState(room1, Some(p), now).result == GetGameState(room2, Some(p), now).result
  {
    var s1 := Supervise(room1, now);
    var s2 := Supervise(room2, now);
    SnapshotFields(room1, p, now);
    SnapshotFields(room2, p, now);
    HiddenPlayersInfo(room1.seats, room2.seats, p);
    HiddenOwnHand(room1.seats, room2.seats, p, FindSeat(room1.seats, p).value);
    HiddenOwnHand(s1.seats, s2.seats, p, FindSeat(s1.seats, p).value);
    assert ReconnectTimeLeft(s1, now) == ReconnectTimeLeft(s2, now);
  }

  lemma HiddenOwnHand(a: seq<Seat>, b: seq<Seat>, p: int, i: int)
    requires HiddenFrom(a, b, p) && 0 <= i < |a| && a[i].num == p
    ensures b[i].hand == a[i].hand
  {
  }
}

=== FILE: sorting.dfy ===
/** Python's `list.sort(key=...)` on integer keys: a stable sort. It is used
    for the score list (by score), for a desk lane (by card number) and for
    the seats left after a timeout (by seat number). Modelled as insertion
    sort; its contract is "ascending by key", "a permutation", and, for
    stability, "the elements sharing any one key keep their relative order". */
module Sorting {

  ghost predicate SortedBy<T>(s: seq<T>, key: T -> int)
  {
    forall i, j :: 0 <= i < j < |s| ==> key(s[i]) <= key(s[j])
  }

  /** The subsequence of elements whose key is `v`, in their original order. */
  function WithKey<T>(s: seq<T>, key: T -> int, v: int): seq<T>
  {
    if |s| == 0 then []
    else (if key(s[0]) == v then [s[0]] else []) + WithKey(s[1..], key, v)
  }

  /** Inserts `x` in front of the first element whose key is not smaller. */
  function Insert<T(==)>(x: T, s: seq<T>, key: T -> int): (r: seq<T>)
    ensures multiset(r) == multiset(s) + multiset{x}
    ensures |r| == |s| + 1
  {
    if |s| == 0 || key(x) <= key(s[0]) then [x] + s
    else
      assert s == [s[0]] + s[1..];
      [s[0]] + Insert(x, s[1..], key)
  }

  /** Inserting into an ordered sequence keeps it ordered. */
  lemma {:induction false} InsertSorted<T>(x: T, s: seq<T>, key: T -> int)
    requires SortedBy(s, key)
    ensures SortedBy(Insert(x, s, key), key)
  {
    if |s| == 0 || key(x) <= key(s[0]) {
      var r := [x] + s;
      forall i, j | 0 <= i < j < |r| ensures key(r[i]) <= key(r[j]) {
        assert r[j] == s[j - 1];
        if i > 0 {
          assert r[i] == s[i - 1];
        } else if j > 1 {
          assert key(s[0]) <= key(s[j - 1]);
        }
      }
    } else {
      var t := s[1..];
      assert SortedBy(t, key) by {
        forall i, j | 0 <= i < j < |t| ensures key(t[i]) <= key(t[j]) {
          assert t[i] == s[i + 1] && t[j] == s[j + 1];
        }
      }
      InsertSorted(x, t, key);
      var u := Insert(x, t, key);
      var r := [s[0]] + u;
      forall i, j | 0 <= i < j < |r| ensures key(r[i]) <= key(r[j]) {
        var y := r[j];
        assert y == u[j - 1];
        if i > 0 {
          assert r[i] == u[i - 1];
        } else {
          assert y in multiset(u);
          if y != x {
            assert y in multiset(t);
            var k :| 0 <= k < |t| && t[k] == y;
            assert s[k + 1] == y;
          }
        }
      }
    }
  }

  /** A stable sort by `key`. */
  function SortBy<T(==)>(s: seq<T>, key: T -> int): (r: seq<T>)
    ensures SortedBy(r, key)
    ensures multiset(r) == multiset(s)
    ensures |r| == |s|
  {
    if |s| == 0 then []
    else
      assert s == [s[0]] + s[1..];
      var t := SortBy(s[1..], key);
      InsertSorted(s[0], t, key);
      Insert(s[0], t, key)
  }

  lemma {:induction false} InsertWithKey<T>(x: T, s: seq<T>, key: T -> int, v: int)
    ensures WithKey(Insert(x, s, key), key, v)
         == (if key(x) == v then [x] else []) + WithKey(s, key, v)
  {
    if |s| == 0 || key(x) <= key(s[0]) {
      assert ([x] + s)[0] == x;
      assert ([x] + s)[1..] == s;
    } else {
      var t := Insert(x, s[1..], key);
      InsertWithKey(x, s[1..], key, v);
      var r := [s[0]] + t;
      assert r[0] == s[0];
      assert r[1..] == t;
      var head := if key(s[0]) == v then [s[0]] else [];
      var mid := if key(x) == v then [x] else [];
      assert WithKey(r, key, v) == head + WithKey(t, key, v);
      assert WithKey(s, key, v) == head + WithKey(s[1..], key, v);
      assert head == [] || mid == [];
      assert head + (mid + WithKey(s[1..], key, v)) == mid + (head + WithKey(s[1..], key, v));
    }
  }

  /** Stability: sorting keeps, for every key value, the same elements in the
      same relative order. */
  lemma {:induction false} SortByStable<T>(s: seq<T>, key: T -> int, v: int)
    ensures WithKey(SortBy(s, key), key, v) == WithKey(s, key, v)
  {
    if |s| > 0 {
      SortByStable(s[1..], key, v);
      InsertWithKey(s[0], SortBy(s[1..], key), key, v);
    }
  }

  /** A sequence that is already in order is returned unchanged. */
  lemma {:induction false} SortBySortedIsIdentity<T>(s: seq<T>, key: T -> int)
    requires SortedBy(s, key)
    ensures SortBy(s, key) == s
  {
    if |s| > 0 {
      SortBySortedIsIdentity(s[1..], key);
      assert SortBy(s[1..], key) == s[1..];
      if |s| > 1 {
        assert key(s[0]) <= key(s[1]);
      }
      assert [s[0]] + s[1..] == s;
    }
  }
}

=== FILE: supervisor.dfy ===
/** The disconnect supervisor of `Game`: `handle_player_disconnect`,
    `check_for_termination`, `update_player_ping_time` and
    `check_for_player_inactivity`. `now` is the current time in whole
    seconds. */
module Supervisor {
  import opened Wrappers
  import opened Cards
  import opened Deck
  import opened Sorting
  import opened Rooms

  /** `handle_player_disconnect`: only the first disconnect is recorded and
      starts the reconnect timer. */
  function HandleDisconnect(room: Room, p: int, now: int): (r: Room)
    ensures Truthy(room.disconnected) ==> r == room
    ensures !Truthy(room.disconnected) ==> r.disconnected == Some(p) && r.timerStart == Some(now)
    ensures r == room.(disconnected := r.disconnected, timerStart := r.timerStart)
  {
    if Truthy(room.disconnected) then room
    else room.(disconnected := Some(p), timerStart := Some(now))
  }

  /** A recorded disconnect is never overwritten and its timer never
      restarted, whoever is reported next and whenever. */
  lemma DisconnectKeepsFirst(room: Room, p: int, q: int, t: int, t': int)
    requires p != 0
    ensures HandleDisconnect(HandleDisconnect(room, p, t), q, t') == HandleDisconnect(room, p, t)
  {
  }

  /** The reconnect window of a truthy disconnect has run out. */
  predicate TerminationDue(room: Room, now: int)
  {
    Truthy(room.disconnected) && room.timerStart.Some? && now - room.timerStart.value >= RECONNECT_WINDOW
  }

  /** `[p for p in players_data if p['player_num'] != d]` */
  function Remaining(seats: seq<Seat>, d: int): (r: seq<Seat>)
    ensures |r| <= |seats|
    ensures forall s :: s in r <==> s in seats && s.num != d
  {
    if |seats| == 0 then []
    else (if seats[0].num != d then [seats[0]] else []) + Remaining(seats[1..], d)
  }

  /** Filtering out number `d` keeps every seat exactly when no seat
      carries `d`. */
  lemma {:induction false} RemainingKeepsAll(seats: seq<Seat>, d: int)
    ensures |Remaining(seats, d)| == |seats| <==> forall i :: 0 <= i < |seats| ==> seats[i].num != d
  {
    if |seats| > 0 {
      var tail := seats[1..];
      RemainingKeepsAll(tail, d);
      assert forall i :: 1 <= i < |seats| ==> seats[i] == tail[i - 1];
      if seats[0].num == d {
        assert |Remaining(seats, d)| == |Remaining(tail, d)| <= |tail|;
      } else {
        assert |Remaining(seats, d)| == 1 + |Remaining(tail, d)|;
        if forall i :: 0 <= i < |tail| ==> tail[i].num != d {
          assert forall i :: 0 <= i < |seats| ==> seats[i].num != d;
        }
      }
    }
  }

  /** `for i, player in enumerate(...): player['player_num'] = i + 1` */
  function Renumber(seats: seq<Seat>): (r: seq<Seat>)
    ensures |r| == |seats| && SeatsNumbered(r)
    ensures forall i :: 0 <= i < |seats| ==> r[i] == seats[i].(num := i + 1)
  {
    seq(|seats|, i requires 0 <= i < |seats| => seats[i].(num := i + 1))
  }

  function BySeatNumber(s: Seat): int { s.num }

  /** Index of the last seat carrying number `num`. */
  function LastMatch(seats: seq<Seat>, num: int): (r: Option<nat>)
    ensures r.Some? ==> r.value < |seats| && seats[r.value].num == num
    ensures r.Some? ==> forall j :: r.value < j < |seats| ==> seats[j].num != num
    ensures r.None? ==> forall j :: 0 <= j < |seats| ==> seats[j].num != num
  {
    if |seats| == 0 then None
    else if seats[|seats| - 1].num == num then Some(|seats| - 1)
    else LastMatch(seats[..|seats| - 1], num)
  }

  /** The renumbering loop's `new_current_player_num`: the new number of the
      last seat that carried `current`, or `current` itself. */
  function RemapTurn(sorted: seq<Seat>, current: int): int
  {
    match LastMatch(sorted, current)
    case None => current
    case Some(i) => i + 1
  }

  /** `check_for_termination` once the reconnect window has run out: drop
      the disconnected seat, or end the game when fewer than two seats
      would remain; in both cases the disconnect is cleared. Otherwise
      nothing changes. */
  function CheckTermination(room: Room, now: int): (r: Room)
    ensures !TerminationDue(room, now) ==> r == room
    ensures TerminationDue(room, now) ==> r.disconnected.None? && r.timerStart.None?
    ensures TerminationDue(room, now) && |Remaining(room.seats, room.disconnected.value)| < 2 ==>
              r == room.(gameOver := true, terminated := true, winner := None,
                         disconnected := None, timerStart := None)
    ensures TerminationDue(room, now) && |Remaining(room.seats, room.disconnected.value)| >= 2 ==>
              && SeatsNumbered(r.seats)
              && r.numPlayers == |r.seats| == |Remaining(room.seats, room.disconnected.value)|
              && r == room.(seats := r.seats, numPlayers := r.numPlayers, current := r.current,
                            disconnected := None, timerStart := None)
  {
    if !TerminationDue(room, now) then room
    else
      var d := room.disconnected.value;
      var remaining := Remaining(room.seats, d);
      if |remaining| < 2 then
        room.(gameOver := true, terminated := true, winner := None,
              disconnected := None, timerStart := None)
      else
        var sorted := SortBy(remaining, BySeatNumber);
        var current :=
          if room.current == d then (if d > |remaining| then 1 else d)
          else RemapTurn(sorted, room.current);
        room.(seats := Renumber(sorted), numPlayers := |remaining|, current := current,
              disconnected := None, timerStart := None)
  }

  /** With no seat numbered `d`, nothing is removed. */
  lemma {:induction false} RemainingAbsent(seats: seq<Seat>, d: int)
    requires forall i :: 0 <= i < |seats| ==> seats[i].num != d
    ensures Remaining(seats, d) == seats
  {
    if |seats| > 0 {
      var tail := seats[1..];
      forall i | 0 <= i < |tail| ensures tail[i].num != d {
        assert tail[i] == seats[i + 1];
      }
      RemainingAbsent(tail, d);
      assert seats == [seats[0]] + tail;
    }
  }

  /** On seats numbered base, base+1, ..., removing number `d` cuts out
      exactly position d - base. */
  lemma {:induction false} RemainingConsecutive(seats: seq<Seat>, base: int, d: int)
    requires forall i :: 0 <= i < |seats| ==> seats[i].num == base + i
    requires base <= d < base + |seats|
    ensures Remaining(seats, d) == seats[..d - base] + seats[d - base + 1..]
  {
    if d == base {
      RemainingFirst(seats, base);
      assert seats[..0] + seats[1..] == seats[1..];
    } else {
      var tail := seats[1..];
      TailNumbered(seats, base);
      assert Remaining(seats, d) == [seats[0]] + Remaining(tail, d);
      RemainingConsecutive(tail, base + 1, d);
      ConsCut(seats, d - base);
    }
  }

  /** Filtering out the first number of consecutively numbered seats drops
      just the first seat. */
  lemma RemainingFirst(seats: seq<Seat>, base: int)
    requires |seats| > 0
    requires forall i :: 0 <= i < |seats| ==> seats[i].num == base + i
    ensures Remaining(seats, base) == seats[1..]
  {
    TailNumbered(seats, base);
    RemainingAbsent(seats[1..], base);
  }

  /** Dropping the first of consecutively numbered seats leaves them
      consecutive from the next number. */
  lemma TailNumbered(seats: seq<Seat>, base: int)
    requires |seats| > 0
    requires forall i :: 0 <= i < |seats| ==> seats[i].num == base + i
    ensures forall i :: 0 <= i < |seats[1..]| ==> seats[1..][i].num == base + 1 + i
  {
    forall i | 0 <= i < |seats[1..]| ensures seats[1..][i].num == base + 1 + i {
      assert seats[1..][i] == seats[i + 1];
    }
  }

  lemma ConsCut<T>(s: seq<T>, k: int)
    requires 1 <= k < |s|
    ensures [s[0]] + (s[1..][..k - 1] + s[1..][k..]) == s[..k] + s[k + 1..]
  {
    assert s[..k] == [s[0]] + s[1..][..k - 1];
    assert s[k + 1..] == s[1..][k..];
  }

  /** Cutting one seat out of a numbered list leaves the numbers ascending. */
  lemma CutIsSorted(seats: seq<Seat>, d: int)
    requires SeatsNumbered(seats) && 1 <= d <= |seats|
    ensures SortedBy(seats[..d - 1] + seats[d..], BySeatNumber)
  {
    var rem := seats[..d - 1] + seats[d..];
    forall i, j | 0 <= i < j < |rem|
      ensures BySeatNumber(rem[i]) <= BySeatNumber(rem[j])
    {
      assert rem[i].num == (if i < d - 1 then i + 1 else i + 2);
      assert rem[j].num == (if j < d - 1 then j + 1 else j + 2);
    }
  }

  /** On a numbered seat list, removing seat `d` leaves the others in order. */
  lemma RemainingNumbered(seats: seq<Seat>, d: int)
    requires SeatsNumbered(seats) && 1 <= d <= |seats|
    ensures Remaining(seats, d) == seats[..d - 1] + seats[d..]
    ensures |Remaining(seats, d)| == |seats| - 1
    ensures SortedBy(Remaining(seats, d), BySeatNumber)
    ensures SortBy(Remaining(seats, d), BySeatNumber) == Remaining(seats, d)
  {
    RemainingConsecutive(seats, 1, d);
    CutIsSorted(seats, d);
    SortBySortedIsIdentity(seats[..d - 1] + seats[d..], BySeatNumber);
  }

  /** Reference for a timeout removal from a numbered seat list: the seat
      numbered `d` leaves, the seats after it move up one place, and the
      turn stays with its holder (whose number may drop by one); when the
      removed player held the turn it goes to the player who moved into
      their place, or to seat 1 if they sat last. A turn number outside the
      list is kept. */
  function DropSeat(room: Room, d: int): Room
    requires 1 <= d <= |room.seats|
  {
    var c := room.current;
    var n := |room.seats|;
    room.(seats := Renumber(room.seats[..d - 1] + room.seats[d..]),
          numPlayers := n - 1,
          current := if c == d then (if d == n then 1 else d)
                     else if 1 <= c < d then c
                     else if d < c <= n then c - 1
                     else c,
          disconnected := None, timerStart := None)
  }

  /** The renumbering loop finds the current player's new number. */
  lemma RemapNumbered(seats: seq<Seat>, d: int, c: int)
    requires SeatsNumbered(seats) && 1 <= d <= |seats| && c != d
    ensures RemapTurn(seats[..d - 1] + seats[d..], c)
            == if 1 <= c < d then c else if d < c <= |seats| then c - 1 else c
  {
    var rem := seats[..d - 1] + seats[d..];
    if 1 <= c <= |seats| {
      var k := if c < d then c - 1 else c - 2;
      assert rem[k] == seats[c - 1];
      match LastMatch(rem, c)
      case None =>
      case Some(i) =>
        assert rem[i].num == (if i < d - 1 then i + 1 else i + 2);
    }
  }

  lemma TerminationSeats(room: Room, now: int)
    requires TerminationDue(room, now) && SeatsNumbered(room.seats)
    requires 1 <= room.disconnected.value <= |room.seats| && |room.seats| >= 3
    ensures var d := room.disconnected.value;
            && CheckTermination(room, now).seats == Renumber(room.seats[..d - 1] + room.seats[d..])
            && CheckTermination(room, now).numPlayers == |room.seats| - 1
  {
    RemainingNumbered(room.seats, room.disconnected.value);
  }

  lemma TerminationTurn(room: Room, now: int)
    requires TerminationDue(room, now) && SeatsNumbered(room.seats)
    requires 1 <= room.disconnected.value <= |room.seats| && |room.seats| >= 3
    ensures CheckTermination(room, now).current == DropSeat(room, room.disconnected.value).current
  {
    var d := room.disconnected.value;
    var rem := room.seats[..d - 1] + room.seats[d..];
    assert SortBy(Remaining(room.seats, d), BySeatNumber) == rem && |Remaining(room.seats, d)| == |room.seats| - 1 by {
      RemainingNumbered(room.seats, d);
    }
    if room.current != d {
      RemapNumbered(room.seats, d, room.current);
    }
  }

  /** On a numbered seat list, `check_for_termination` after the window
      removes the disconnected seat exactly as `DropSeat` describes, as long
      as two seats remain. */
  lemma TerminationIsDropSeat(room: Room, now: int)
    requires TerminationDue(room, now) && SeatsNumbered(room.seats)
    requires 1 <= room.disconnected.value <= |room.seats| && |room.seats| >= 3
    ensures CheckTermination(room, now) == DropSeat(room, room.disconnected.value)
  {
    TerminationSeats(room, now);
    TerminationTurn(room, now);
  }

  /** The player who held the turn in `before` holds it in `after`, under
      the number `after.current`, which is a valid seat number there. */
  predicate TurnKept(before: Room, after: Room)
    requires 1 <= before.current <= |before.seats|
  {
    && 1 <= after.current <= after.numPlayers == |after.seats|
    && after.seats[after.current - 1] == before.seats[before.current - 1].(num := after.current)
  }

  /** The turn holder of `DropSeat` is the player who held it before. */
  lemma DropSeatKeepsTurn(room: Room, d: int)
    requires 1 <= d <= |room.seats| && 1 <= room.current <= |room.seats| && room.current != d
    ensures TurnKept(room, DropSeat(room, d))
  {
    var rem := room.seats[..d - 1] + room.seats[d..];
    var k := if room.current < d then room.current - 1 else room.current - 2;
    assert rem[k] == room.seats[room.current - 1];
  }

  /** On a numbered seat list, the player who held the turn still holds it
      after another player's timeout removal. */
  lemma TerminationKeepsTurn(room: Room, now: int)
    requires TerminationDue(room, now) && SeatsNumbered(room.seats)
    requires 1 <= room.disconnected.value <= |room.seats| && |room.seats| >= 3
    requires 1 <= room.current <= |room.seats| && room.current != room.disconnected.value
    ensures TurnKept(room, CheckTermination(room, now))
  {
    TerminationIsDropSeat(room, now);
    DropSeatKeepsTurn(room, room.disconnected.value);
  }

  /** When the player removed on timeout held the turn, it passes to the
      player seated after them, or to seat 1 if they sat last. */
  lemma TerminationPassesTurn(room: Room, now: int)
    requires TerminationDue(room, now) && SeatsNumbered(room.seats)
    requires 1 <= room.disconnected.value <= |room.seats| && |room.seats| >= 3
    requires room.current == room.disconnected.value
    ensures var d := room.disconnected.value;
            var r := CheckTermination(room, now);
            && 1 <= r.current <= r.numPlayers
            && (d < |room.seats| ==> r.current == d && r.seats[d - 1] == room.seats[d].(num := d))
            && (d == |room.seats| ==> r.current == 1)
  {
    var d := room.disconnected.value;
    TerminationIsDropSeat(room, now);
    var rem := room.seats[..d - 1] + room.seats[d..];
    if d < |room.seats| {
      assert rem[d - 1] == room.seats[d];
    }
  }

  /** Dropping seat `d` and renumbering the rest removes exactly that seat's
      hand from the hands held. */
  lemma RemovalDropsHand(seats: seq<Seat>, d: int)
    requires 1 <= d <= |seats|
    ensures HandsMultiset(SeatHands(Renumber(seats[..d - 1] + seats[d..]))) + multiset(seats[d - 1].hand)
            == HandsMultiset(SeatHands(seats))
  {
    var before := seats[..d - 1];
    var after := seats[d..];
    var gone := [seats[d - 1].hand];
    assert SeatHands(Renumber(before + after)) == SeatHands(before) + SeatHands(after);
    assert SeatHands(seats) == SeatHands(before) + gone + SeatHands(after);
    HandsMultisetConcat(SeatHands(before), SeatHands(after));
    HandsMultisetConcat(SeatHands(before) + gone, SeatHands(after));
    HandsMultisetConcat(SeatHands(before), gone);
    assert HandsMultiset(gone) == multiset(seats[d - 1].hand);
  }

  /** A timeout removal discards the removed seat's hand: the cards in play
      drop by exactly that hand. */
  lemma TerminationDropsHand(room: Room, now: int)
    requires TerminationDue(room, now) && SeatsNumbered(room.seats)
    requires 1 <= room.disconnected.value <= |room.seats| && |room.seats| >= 3
    ensures CardsInPlay(CheckTermination(room, now)) + multiset(room.seats[room.disconnected.value - 1].hand)
            == CardsInPlay(room)
  {
    TerminationIsDropSeat(room, now);
    RemovalDropsHand(room.seats, room.disconnected.value);
  }

  /** `update_player_ping_time`: the first seat numbered `p` gets the ping
      time `now`; nothing else changes. */
  function UpdatePingTime(room: Room, p: int, now: int): (r: Room)
    ensures |r.seats| == |room.seats|
    ensures r == room.(seats := r.seats)
    ensures forall j :: 0 <= j < |room.seats| ==> r.seats[j] == room.seats[j].(ping := r.seats[j].ping)
    ensures FindSeat(room.seats, p).None? ==> r == room
    ensures FindSeat(room.seats, p).Some? ==>
              var i := FindSeat(room.seats, p).value;
              && r.seats[i].ping == At(now)
              && forall j :: 0 <= j < |room.seats| && j != i ==> r.seats[j] == room.seats[j]
  {
    match FindSeat(room.seats, p)
    case None => room
    case Some(i) => room.(seats := room.seats[i := room.seats[i].(ping := At(now))])
  }

  /** A ping keeps the seat numbers and the cards in play. */
  lemma PingKeepsSeats(room: Room, p: int, now: int)
    ensures SeatHands(UpdatePingTime(room, p, now).seats) == SeatHands(room.seats)
    ensures CardsInPlay(UpdatePingTime(room, p, now)) == CardsInPlay(room)
    ensures SeatsNumbered(room.seats) ==> SeatsNumbered(UpdatePingTime(room, p, now).seats)
  {
    var r := UpdatePingTime(room, p, now);
    assert SeatHands(r.seats) == SeatHands(room.seats);
  }

  /** A readable ping older than the timeout. */
  predicate Stale(ping: Ping, now: int, timeout: int)
  {
    ping.At? && now - ping.t > timeout
  }

  /** Index of the first seat whose ping is stale. */
  function FirstStale(seats: seq<Seat>, now: int, timeout: int): (r: Option<nat>)
    ensures r.Some? ==> r.value < |seats| && Stale(seats[r.value].ping, now, timeout)
    ensures r.Some? ==> forall j :: 0 <= j < r.value ==> !Stale(seats[j].ping, now, timeout)
    ensures r.None? ==> forall j :: 0 <= j < |seats| ==> !Stale(seats[j].ping, now, timeout)
  {
    if |seats| == 0 then None
    else if Stale(seats[0].ping, now, timeout) then Some(0)
    else match FirstStale(seats[1..], now, timeout)
      case None => None
      case Some(i) => Some(i + 1)
  }

  /** The loop of `check_for_player_inactivity` over the seat list as it was
      read (`pending`), acting on the current room: a missing ping is
      skipped, an unreadable one is refreshed, a stale one reports a
      disconnect and ends the loop. */
  function ScanPings(room: Room, pending: seq<Seat>, now: int, timeout: int): (r: Room)
    decreases |pending|
    ensures r == room.(seats := r.seats, disconnected := r.disconnected, timerStart := r.timerStart)
    ensures |r.seats| == |room.seats|
    ensures Truthy(room.disconnected) ==> r.disconnected == room.disconnected && r.timerStart == room.timerStart
    ensures r.disconnected != room.disconnected ==>
              r.timerStart == Some(now) && exists k :: 0 <= k < |pending| && r.disconnected == Some(pending[k].num)
  {
    if |pending| == 0 then room
    else match pending[0].ping
      case NoPing => ScanPings(room, pending[1..], now, timeout)
      case Unparsable => ScanPings(UpdatePingTime(room, pending[0].num, now), pending[1..], now, timeout)
      case At(t) =>
        if now - t > timeout then HandleDisconnect(room, pending[0].num, now)
        else ScanPings(room, pending[1..], now, timeout)
  }

  /** `check_for_player_inactivity(ping_timeout_seconds)` */
  function CheckInactivity(room: Room, now: int, timeout: int): (r: Room)
    ensures room.gameOver || !room.started || room.disconnected.Some? ==> r == room
  {
    if room.gameOver || !room.started || room.disconnected.Some? then room
    else ScanPings(room, room.seats, now, timeout)
  }

  lemma {:induction false} ScanReportsFirstStale(room: Room, pending: seq<Seat>, now: int, timeout: int)
    requires room.disconnected.None?
    decreases |pending|
    ensures var r := ScanPings(room, pending, now, timeout);
            match FirstStale(pending, now, timeout)
            case None => r.disconnected == None && r.timerStart == room.timerStart
            case Some(i) => r.disconnected == Some(pending[i].num) && r.timerStart == Some(now)
  {
    if |pending| > 0 {
      match pending[0].ping
      case NoPing =>
        ScanReportsFirstStale(room, pending[1..], now, timeout);
      case Unparsable =>
        ScanReportsFirstStale(UpdatePingTime(room, pending[0].num, now), pending[1..], now, timeout);
      case At(t) =>
        if now - t <= timeout {
          ScanReportsFirstStale(room, pending[1..], now, timeout);
        }
    }
  }

  /** In a running game with no disconnect pending, the inactivity check
      reports the first seat (in seat-list order) whose ping is stale and
      starts its reconnect timer, or reports nobody. */
  lemma InactivityReportsFirstStale(room: Room, now: int, timeout: int)
    requires !room.gameOver && room.started && room.disconnected.None?
    ensures var r := CheckInactivity(room, now, timeout);
            match FirstStale(room.seats, now, timeout)
            case None => r.disconnected == None && r.timerStart == room.timerStart
            case Some(i) => r.disconnected == Some(room.seats[i].num) && r.timerStart == Some(now)
  {
    ScanReportsFirstStale(room, room.seats, now, timeout);
  }

  /** The seat list after refreshing the unreadable pings of the seats
      before index `upto`. */
  function Refreshed(seats: seq<Seat>, upto: int, now: int): (r: seq<Seat>)
    ensures |r| == |seats|
  {
    seq(|seats|, j requires 0 <= j < |seats| =>
      if j < upto && seats[j].ping == Unparsable then seats[j].(ping := At(now)) else seats[j])
  }

  /** Where the scan stops: the first stale seat, or the end of the list. */
  function ScanLimit(seats: seq<Seat>, now: int, timeout: int): (r: nat)
    ensures r <= |seats|
  {
    match FirstStale(seats, now, timeout)
    case None => |seats|
    case Some(i) => i
  }

  /** Below the scan limit no seat is stale; at it (inside the list) the
      seat is stale. */
  lemma LimitStep(seats: seq<Seat>, k: nat, now: int, timeout: int)
    requires k < |seats| && k <= ScanLimit(seats, now, timeout)
    ensures Stale(seats[k].ping, now, timeout) <==> k == ScanLimit(seats, now, timeout)
  {
  }

  /** One step of the scan, starting at position k of the seat list. */
  lemma ScanUnfold(room: Room, seats: seq<Seat>, k: nat, now: int, timeout: int)
    requires k < |seats| && !Stale(seats[k].ping, now, timeout)
    ensures seats[k].ping == Unparsable ==>
              ScanPings(room, seats[k..], now, timeout)
              == ScanPings(UpdatePingTime(room, seats[k].num, now), seats[k + 1..], now, timeout)
    ensures seats[k].ping != Unparsable ==>
              ScanPings(room, seats[k..], now, timeout) == ScanPings(room, seats[k + 1..], now, timeout)
  {
    var pending := seats[k..];
    assert pending[0] == seats[k];
    assert pending[1..] == seats[k + 1..];
  }

  /** Refreshing seat k of a numbered list (number k + 1) extends the
      refreshed prefix by one. */
  lemma RefreshOne(seats: seq<Seat>, room: Room, k: nat, now: int)
    requires SeatsNumbered(seats) && k < |seats| && seats[k].ping == Unparsable
    requires room.seats == Refreshed(seats, k, now)
    ensures UpdatePingTime(room, seats[k].num, now).seats == Refreshed(seats, k + 1, now)
  {
    FindSeatNumbered(room.seats, k + 1);
  }

  lemma RefreshSkip(seats: seq<Seat>, k: nat, now: int)
    requires k < |seats| && seats[k].ping != Unparsable
    ensures Refreshed(seats, k, now) == Refreshed(seats, k + 1, now)
  {
  }

  lemma {:induction false} ScanRefreshesFrom(seats: seq<Seat>, room: Room, k: nat, now: int, timeout: int)
    requires SeatsNumbered(seats)
    requires k <= ScanLimit(seats, now, timeout)
    requires room.seats == Refreshed(seats, k, now)
    ensures ScanPings(room, seats[k..], now, timeout).seats == Refreshed(seats, ScanLimit(seats, now, timeout), now)
    decreases |seats| - k
  {
    if k == |seats| {
      assert seats[k..] == [];
    } else {
      LimitStep(seats, k, now, timeout);
      if Stale(seats[k].ping, now, timeout) {
        assert seats[k..][0] == seats[k];
      } else {
        ScanUnfold(room, seats, k, now, timeout);
        if seats[k].ping == Unparsable {
          RefreshOne(seats, room, k, now);
          ScanRefreshesFrom(seats, UpdatePingTime(room, seats[k].num, now), k + 1, now, timeout);
        } else {
          RefreshSkip(seats, k, now);
          ScanRefreshesFrom(seats, room, k + 1, now, timeout);
        }
      }
    }
  }

  /** On a numbered seat list the inactivity check refreshes every
      unreadable ping up to the first stale seat, and changes nothing else
      about the seats. */
  lemma InactivityRefreshes(room: Room, now: int, timeout: int)
    requires !room.gameOver && room.started && room.disconnected.None?
    requires SeatsNumbered(room.seats)
    ensures CheckInactivity(room, now, timeout).seats
            == Refreshed(room.seats, ScanLimit(room.seats, now, timeout), now)
  {
    assert room.seats == Refreshed(room.seats, 0, now);
    assert room.seats[0..] == room.seats;
    ScanRefreshesFrom(room.seats, room, 0, now, timeout);
  }
}

=== FILE: turns.dfy ===
/** The turn engine: `update_game_state_after_move`, `pass_turn` and the
    final scoring `_calculate_and_save_scores` of src/app/models.py. */
module Turns {
  import opened Wrappers
  import opened Cards
  import opened Deck
  import opened Sorting
  import opened Rooms

  /** `[card for card in hand if card[0] != card_num]` */
  function Without(hand: seq<Card>, c: int): (r: seq<Card>)
    ensures c !in r
    ensures forall x :: x in r <==> x in hand && x != c
    ensures forall x: Card :: x != c ==> multiset(r)[x] == multiset(hand)[x]
  {
    if |hand| == 0 then []
    else
      assert hand == [hand[0]] + hand[1..];
      (if hand[0] == c then [] else [hand[0]]) + Without(hand[1..], c)
  }

  /** Sum of the score values of the cards in a hand. */
  function HandScore(hand: seq<Card>): int
  {
    if |hand| == 0 then 0 else CardScore(hand[0]) + HandScore(hand[1..])
  }

  /** Sum of the rank values (A=1 ... K=13) of the cards in a hand. */
  function RankSum(hand: seq<Card>): int
  {
    if |hand| == 0 then 0 else Rank(hand[0]) + RankSum(hand[1..])
  }

  /** A hand scores the sum of its ranks, J, Q and K counting 11, 12 and 13;
      the score is at least the number of cards and at most 13 per card. */
  lemma {:induction false} HandScoreIsRankSum(hand: seq<Card>)
    ensures HandScore(hand) == RankSum(hand)
    ensures |hand| <= HandScore(hand) <= 13 * |hand|
  {
    if |hand| > 0 {
      CardScoreIsRank(hand[0]);
      HandScoreIsRankSum(hand[1..]);
    }
  }

  /** The unsorted score entries, one per seat in seat-list order. */
  function ScoreEntries(seats: seq<Seat>): (r: seq<ScoreEntry>)
    ensures |r| == |seats|
  {
    seq(|seats|, i requires 0 <= i < |seats| =>
      ScoreEntry(seats[i].name, seats[i].num, HandScore(seats[i].hand), |seats[i].hand|))
  }

  function ByScore(e: ScoreEntry): int { e.score }

  /** `_calculate_and_save_scores`: the entries sorted (stably) by score. */
  function FinalScores(seats: seq<Seat>): (r: seq<ScoreEntry>)
    ensures |r| == |seats|
    ensures SortedBy(r, ByScore)
    ensures multiset(r) == multiset(ScoreEntries(seats))
  {
    SortBy(ScoreEntries(seats), ByScore)
  }

  /** The score list holds one entry per seat, ascending by score, each
      entry carrying the seat's name, number, rank sum and card count; seats
      with equal scores keep their seat-list order. */
  lemma FinalScoresMeaning(seats: seq<Seat>)
    ensures |FinalScores(seats)| == |seats|
    ensures forall i, j :: 0 <= i < j < |FinalScores(seats)| ==> FinalScores(seats)[i].score <= FinalScores(seats)[j].score
    ensures multiset(FinalScores(seats)) == multiset(ScoreEntries(seats))
    ensures forall i :: 0 <= i < |seats| ==>
              ScoreEntries(seats)[i] == ScoreEntry(seats[i].name, seats[i].num, RankSum(seats[i].hand), |seats[i].hand|)
    ensures forall v :: WithKey(FinalScores(seats), ByScore, v) == WithKey(ScoreEntries(seats), ByScore, v)
  {
    var r := FinalScores(seats);
    assert SortedBy(r, ByScore);
    forall i, j | 0 <= i < j < |r|
      ensures r[i].score <= r[j].score
    {
      assert ByScore(r[i]) <= ByScore(r[j]);
    }
    forall i | 0 <= i < |seats|
      ensures ScoreEntries(seats)[i] == ScoreEntry(seats[i].name, seats[i].num, RankSum(seats[i].hand), |seats[i].hand|)
    {
      HandScoreIsRankSum(seats[i].hand);
    }
    forall v
      ensures WithKey(r, ByScore, v) == WithKey(ScoreEntries(seats), ByScore, v)
    {
      SortByStable(ScoreEntries(seats), ByScore, v);
    }
  }

  function ByNumber(c: Card): int { c }

  /** `update_game_state_after_move(card_num, player_num)`. `Err(CardNotHeld)`
      is the source's `False` return (no seat with that number, or the card
      is not in its hand), after which nothing has changed. */
  function ApplyMove(room: Room, cardNum: int, p: int): (r: Result<Room, Error>)
    ensures r.Err? ==> r.error == CardNotHeld || r.error == Internal
    ensures r == Err(CardNotHeld) <==> FindSeat(room.seats, p).None? || cardNum !in room.seats[FindSeat(room.seats, p).value].hand
  {
    match FindSeat(room.seats, p)
    case None => Err(CardNotHeld)
    case Some(i) =>
      if cardNum !in room.seats[i].hand then Err(CardNotHeld)
      else
        var card: Card := cardNum;
        var hand := Without(room.seats[i].hand, card);
        var seats := room.seats[i := room.seats[i].(hand := hand)];
        var suit := SuitOf(card);
        var desk := room.desk[suit := SortBy(Lane(room.desk, suit) + [card], ByNumber)];
        var won := hand == [];
        match NextTurn(room.current, room.numPlayers)
        case Err(e) => Err(e)
        case Ok(next) =>
          Ok(room.(seats := seats, desk := desk, current := next,
                   gameOver := if won then true else room.gameOver,
                   winner := if won then Some(p) else room.winner,
                   scores := if won then FinalScores(seats) else room.scores))
  }

  /** `Game.pass_turn`: only the turn number moves. */
  function PassTurn(room: Room): (r: Result<Room, Error>)
    ensures r.Err? <==> room.numPlayers == 0
    ensures r.Ok? ==> r.value == room.(current := r.value.current)
    ensures r.Ok? ==> r.value.current == NextTurn(room.current, room.numPlayers).value
    ensures room.numPlayers >= 1 ==> 1 <= r.value.current <= room.numPlayers
    ensures room.numPlayers >= 1 && 1 <= room.current <= room.numPlayers ==>
              r.value.current == (if room.current == room.numPlayers then 1 else room.current + 1)
  {
    match NextTurn(room.current, room.numPlayers)
    case Err(e) => Err(e)
    case Ok(next) => Ok(room.(current := next))
  }

  /** A successful move takes exactly the played card out of the mover's
      hand and leaves the other seats alone. */
  lemma MoveHand(room: Room, cardNum: int, p: int)
    requires ApplyMove(room, cardNum, p).Ok?
    ensures FindSeat(room.seats, p).Some?
    ensures var i := FindSeat(room.seats, p).value;
            var room' := ApplyMove(room, cardNum, p).value;
            && 1 <= cardNum <= 52
            && cardNum in room.seats[i].hand
            && |room'.seats| == |room.seats|
            && room'.seats[i] == room.seats[i].(hand := room'.seats[i].hand)
            && cardNum !in room'.seats[i].hand
            && (forall x :: x in room'.seats[i].hand <==> x in room.seats[i].hand && x != cardNum)
            && (forall j :: 0 <= j < |room.seats| && j != i ==> room'.seats[j] == room.seats[j])
  {
    MoveShape(room, cardNum, p);
  }

  /** The played card joins its suit's lane, which ends up sorted by card
      number; the other lanes are unchanged. */
  lemma MoveLane(room: Room, cardNum: int, p: int)
    requires ApplyMove(room, cardNum, p).Ok?
    ensures 1 <= cardNum <= 52
    ensures var room' := ApplyMove(room, cardNum, p).value;
            && cardNum in Lane(room'.desk, SuitOf(cardNum))
            && SortedBy(Lane(room'.desk, SuitOf(cardNum)), ByNumber)
            && multiset(Lane(room'.desk, SuitOf(cardNum))) == multiset(Lane(room.desk, SuitOf(cardNum))) + multiset{cardNum as Card}
            && (forall s :: s != SuitOf(cardNum) ==> Lane(room'.desk, s) == Lane(room.desk, s))
  {
    MoveShape(room, cardNum, p);
    var card: Card := cardNum;
    var suit := SuitOf(card);
    var lane := SortBy(Lane(room.desk, suit) + [card], ByNumber);
    var room' := ApplyMove(room, cardNum, p).value;
    LaneUpdate(room.desk, suit, lane, suit);
    assert card in multiset(lane);
  }

  /** The turn advances cyclically even when the move wins, and the game is
      won exactly when the mover's hand becomes empty. */
  lemma MoveTurn(room: Room, cardNum: int, p: int)
    requires ApplyMove(room, cardNum, p).Ok?
    ensures FindSeat(room.seats, p).Some?
    ensures var i := FindSeat(room.seats, p).value;
            var room' := ApplyMove(room, cardNum, p).value;
            && |room'.seats| == |room.seats|
            && room.numPlayers != 0
            && room'.current == NextTurn(room.current, room.numPlayers).value
            && (room.numPlayers >= 1 ==> 1 <= room'.current <= room.numPlayers)
            && (room.numPlayers >= 1 && 1 <= room.current <= room.numPlayers ==>
                  room'.current == (if room.current == room.numPlayers then 1 else room.current + 1))
            && (room'.seats[i].hand == [] ==>
                  room'.gameOver && room'.winner == Some(p) && room'.scores == FinalScores(room'.seats))
            && (room'.seats[i].hand != [] ==>
                  room'.gameOver == room.gameOver && room'.winner == room.winner && room'.scores == room.scores)
            && room' == room.(seats := room'.seats, desk := room'.desk, current := room'.current,
                              gameOver := room'.gameOver, winner := room'.winner, scores := room'.scores)
  {
    MoveShape(room, cardNum, p);
  }

  /** What a successful move does: exactly the played card leaves the
      mover's hand; it joins its suit's lane, which ends up sorted by card
      number; other lanes and other seats are unchanged; the turn advances
      cyclically even when the move wins; and the game is won exactly when
      the mover's hand becomes empty. */
  lemma MoveEffect(room: Room, cardNum: int, p: int)
    requires ApplyMove(room, cardNum, p).Ok?
    ensures FindSeat(room.seats, p).Some?
    ensures var i := FindSeat(room.seats, p).value;
            var room' := ApplyMove(room, cardNum, p).value;
            && 1 <= cardNum <= 52
            && cardNum in room.seats[i].hand
            && |room'.seats| == |room.seats|
            && room'.seats[i] == room.seats[i].(hand := room'.seats[i].hand)
            && cardNum !in room'.seats[i].hand
            && (forall x :: x in room'.seats[i].hand <==> x in room.seats[i].hand && x != cardNum)
            && (forall j :: 0 <= j < |room.seats| && j != i ==> room'.seats[j] == room.seats[j])
            && cardNum in Lane(room'.desk, SuitOf(cardNum))
            && SortedBy(Lane(room'.desk, SuitOf(cardNum)), ByNumber)
            && multiset(Lane(room'.desk, SuitOf(cardNum))) == multiset(Lane(room.desk, SuitOf(cardNum))) + multiset{cardNum as Card}
            && (forall s :: s != SuitOf(cardNum) ==> Lane(room'.desk, s) == Lane(room.desk, s))
            && room.numPlayers != 0
            && room'.current == NextTurn(room.current, room.numPlayers).value
            && (room.numPlayers >= 1 ==> 1 <= room'.current <= room.numPlayers)
            && (room.numPlayers >= 1 && 1 <= room.current <= room.numPlayers ==>
                  room'.current == (if room.current == room.numPlayers then 1 else room.current + 1))
            && (room'.seats[i].hand == [] ==>
                  room'.gameOver && room'.winner == Some(p) && room'.scores == FinalScores(room'.seats))
            && (room'.seats[i].hand != [] ==>
                  room'.gameOver == room.gameOver && room'.winner == room.winner && room'.scores == room.scores)
            && room' == room.(seats := room'.seats, desk := room'.desk, current := room'.current,
                              gameOver := room'.gameOver, winner := room'.winner, scores := room'.scores)
  {
    MoveHand(room, cardNum, p);
    MoveLane(room, cardNum, p);
    MoveTurn(room, cardNum, p);
  }

  /** No card is held or played twice. */
  ghost predicate NoDuplicateCards(room: Room)
  {
    forall c: Card :: CardsInPlay(room)[c] <= 1
  }

  lemma WithoutSingle(hand: seq<Card>, c: Card)
    requires multiset(hand)[c] == 1
    ensures multiset(Without(hand, c)) + multiset{c} == multiset(hand)
  {
    var r: multiset<Card> := multiset(Without(hand, c));
    var h: multiset<Card> := multiset(hand);
    assert r[c] == 0;
    forall x: Card
      ensures (r + multiset{c})[x] == h[x]
    {
    }
  }

  lemma LaneUpdate(desk: Desk, suit: char, lane: seq<Card>, s: char)
    ensures Lane(desk[suit := lane], s) == if s == suit then lane else Lane(desk, s)
  {
  }

  /** The desk's cards, with one lane's cards set apart. */
  lemma DeskSplit(desk: Desk, suit: char)
    requires suit in CARD_SUITS
    ensures DeskMultiset(desk) == multiset(Lane(desk, suit)) + OtherLanes(desk, suit)
  {
  }

  /** The cards on the three lanes other than `suit`'s. */
  function OtherLanes(desk: Desk, suit: char): multiset<Card>
  {
    (if suit != 'H' then multiset(Lane(desk, 'H')) else multiset{})
      + (if suit != 'D' then multiset(Lane(desk, 'D')) else multiset{})
      + (if suit != 'C' then multiset(Lane(desk, 'C')) else multiset{})
      + (if suit != 'S' then multiset(Lane(desk, 'S')) else multiset{})
  }

  lemma OtherLanesUpdate(desk: Desk, suit: char, lane: seq<Card>)
    ensures OtherLanes(desk[suit := lane], suit) == OtherLanes(desk, suit)
  {
    LaneUpdate(desk, suit, lane, 'H');
    LaneUpdate(desk, suit, lane, 'D');
    LaneUpdate(desk, suit, lane, 'C');
    LaneUpdate(desk, suit, lane, 'S');
  }

  lemma DeskAdd(desk: Desk, suit: char, lane: seq<Card>, c: Card)
    requires suit in CARD_SUITS
    requires multiset(lane) == multiset(Lane(desk, suit)) + multiset{c}
    ensures DeskMultiset(desk[suit := lane]) == DeskMultiset(desk) + multiset{c}
  {
    var desk' := desk[suit := lane];
    DeskSplit(desk, suit);
    DeskSplit(desk', suit);
    OtherLanesUpdate(desk, suit, lane);
    LaneUpdate(desk, suit, lane, suit);
  }

  /** The seats and desk a successful move produces. */
  lemma MoveShape(room: Room, cardNum: int, p: int)
    requires ApplyMove(room, cardNum, p).Ok?
    ensures FindSeat(room.seats, p).Some?
    ensures var i := FindSeat(room.seats, p).value;
            && 1 <= cardNum <= 52 && cardNum in room.seats[i].hand
            && ApplyMove(room, cardNum, p).value.seats
                 == room.seats[i := room.seats[i].(hand := Without(room.seats[i].hand, cardNum))]
            && ApplyMove(room, cardNum, p).value.desk
                 == room.desk[SuitOf(cardNum) := SortBy(Lane(room.desk, SuitOf(cardNum)) + [cardNum as Card], ByNumber)]
  {
  }

  /** Moving `moved` from a hand to the desk: what the hands lose, the desk
      gains. */
  lemma MultisetTransfer(all: multiset<Card>, all': multiset<Card>, held: multiset<Card>, held': multiset<Card>,
                         onDesk: multiset<Card>, onDesk': multiset<Card>, moved: multiset<Card>)
    requires all' + held == all + held'
    requires held' + moved == held
    requires onDesk' == onDesk + moved
    ensures all' + onDesk' == all + onDesk
  {
    forall x: Card
      ensures (all' + onDesk')[x] == (all + onDesk)[x]
    {
      assert (all' + held)[x] == (all + held')[x];
      assert (held' + moved)[x] == held[x];
    }
    assert all' + onDesk' == all + onDesk;
  }

  lemma HeldOnce(hs: seq<seq<Card>>, i: int, desk: Desk, card: Card)
    requires 0 <= i < |hs| && card in hs[i]
    requires forall c: Card :: (HandsMultiset(hs) + DeskMultiset(desk))[c] <= 1
    ensures multiset(hs[i])[card] == 1
  {
    var all: multiset<Card> := HandsMultiset(hs);
    var held: multiset<Card> := multiset(hs[i]);
    var onDesk: multiset<Card> := DeskMultiset(desk);
    HandsMultisetContains(hs, i);
    assert held <= all;
    assert (all + onDesk)[card] <= 1;
  }

  /** Moving one copy of a card from a hand to the desk keeps the cards in
      play. */
  lemma MoveCardToDesk(hs: seq<seq<Card>>, i: int, hand': seq<Card>, desk: Desk, lane': seq<Card>, card: Card)
    requires 0 <= i < |hs| && card in hs[i]
    requires forall c: Card :: (HandsMultiset(hs) + DeskMultiset(desk))[c] <= 1
    requires hand' == Without(hs[i], card)
    requires multiset(lane') == multiset(Lane(desk, SuitOf(card))) + multiset{card}
    ensures HandsMultiset(hs[i := hand']) + DeskMultiset(desk[SuitOf(card) := lane'])
            == HandsMultiset(hs) + DeskMultiset(desk)
  {
    HeldOnce(hs, i, desk, card);
    WithoutSingle(hs[i], card);
    HandsMultisetReplace(hs, i, hand');
    DeskAdd(desk, SuitOf(card), lane', card);
    MultisetTransfer(HandsMultiset(hs), HandsMultiset(hs[i := hand']), multiset(hs[i]), multiset(hand'),
                     DeskMultiset(desk), DeskMultiset(desk[SuitOf(card) := lane']), multiset{card});
  }

  lemma ShapeKeepsCards(room: Room, room': Room, i: int, card: Card)
    requires 0 <= i < |room.seats| && card in room.seats[i].hand
    requires NoDuplicateCards(room)
    requires room'.seats == room.seats[i := room.seats[i].(hand := Without(room.seats[i].hand, card))]
    requires room'.desk == room.desk[SuitOf(card) := SortBy(Lane(room.desk, SuitOf(card)) + [card], ByNumber)]
    ensures CardsInPlay(room') == CardsInPlay(room)
  {
    var hs := SeatHands(room.seats);
    var suit := SuitOf(card);
    var lane' := SortBy(Lane(room.desk, suit) + [card], ByNumber);
    assert SeatHands(room'.seats) == hs[i := Without(hs[i], card)];
    MoveCardToDesk(hs, i, Without(hs[i], card), room.desk, lane', card);
  }

  /** A move keeps every card: hands plus desk hold the same cards as
      before, so a room without duplicate cards keeps that property. */
  lemma MoveKeepsCards(room: Room, cardNum: int, p: int)
    requires ApplyMove(room, cardNum, p).Ok?
    requires NoDuplicateCards(room)
    ensures CardsInPlay(ApplyMove(room, cardNum, p).value) == CardsInPlay(room)
    ensures NoDuplicateCards(ApplyMove(room, cardNum, p).value)
  {
    MoveShape(room, cardNum, p);
    ShapeKeepsCards(room, ApplyMove(room, cardNum, p).value, FindSeat(room.seats, p).value, cardNum);
  }
}

=== FILE: wrappers.dfy ===
/** Failure-carrying values used throughout the model: an optional value
    (Python's `None`) and a result that is either a value or an error. */
module Wrappers {

  datatype Option<+T> = None | Some(value: T)

  datatype Result<+T, +E> = Ok(value: T) | Err(error: E)
}
